=== FILE: README.md ===
# claudePlay core, modelled in Dafny

claudePlay is a browser chat client for two language-model providers (OpenAI and Anthropic). It has a small Go backend that proxies OpenAI streaming. This project models in Dafny the parts of it that hold logic and proves properties about them. Those parts are:

- **Conversations and their persistence.**
  - Title derivation and conversation construction (`Conversations`).
  - The legacy localStorage blob, with its backfill on load (`Conversations`).
  - The IndexedDB table behind `storageService` and the one-time migration into it (`Storage`).
  - The zustand repository `useChatStore` (`ChatStore`).
  - The top-level component `App`, which keeps its own list in localStorage (`App`).
- **The chat view.**
  - The block-editor-to-markdown serialiser (`BlockText`).
  - The send, stop, regenerate and edit logic of `ChatInterface` (`MessageEngine`).
  - The model picker (`ModelSelector`).
  - The formatting toolbar (`FormatToolbar`).
- **The streaming services.**
  - The callback protocol they share (`Callbacks`).
  - The backend-proxy path and the provider dispatch of `sendMessageStream` (`AIService`).
  - The two SDK adapters (`AnthropicService`, `OpenAIService`).
- **The backend.**
  - The OpenAI proxy loop (`OpenAIProvider`).
  - The API-key middleware and the per-IP fixed-window rate limiter (`Middleware`).
  - Configuration loading and validation (`Config`).
  - CORS set-up and middleware order in `NewServer` (`Server`).

All state is immutable data, and operations are functions from state to state. Things from outside the program are parameters:

- clock readings (`now`) and generated ids (`id`, `freshId`, `userId`, `assistantId`);
- what `JSON.parse` produced (a datatype with an unparseable case);
- the contents of localStorage (`Option` values, where `None` is a missing key);
- the outcome of `fetch` and the successive reads of a response body;
- the events of an SDK stream and how it ended;
- the HTTP exchange of the backend, its JSON decoder and the failures of its `onChunk` sink;
- the environment map the configuration is read from.

A stream's effect on its caller is a *trace* of callbacks (`Chunk`, `Complete`, `Error`). Every service is proved to produce a well-formed trace: chunks only, then exactly one terminal call.

Shared helpers:

- `Wrappers`: `Option`.
- `Text`: trimming, `split`, `join`, `slice` and decimal rendering.
- `ChatTypes`: the data model of `src/types/chat.ts`.

## Behaviour worth knowing

The model follows the code, including these behaviours:

- **Stopping a generation.**
  - The chat view's error handler removes the assistant placeholder whatever the error was, so a reply cut short by an error is not kept (`MessageEngine.OnCallback`, `SendOutcome`).
  - The backend path never hands the abort signal to `fetch` (see Findings).
  - `sendMessageStreamAnthropic` takes no signal at all, so a stream through the SDK runs to its end.
- **Images.**
  - `handleSendMessage` builds the user message from text alone, so regenerate and edit send no images (`MessageEngine.StartSend`).
  - The Anthropic request keeps role and content only (`AnthropicService.ShapeHistory`).
- **Deleting the active conversation.** In `chatStore.deleteConversation`, the list shrinks before the awaited table delete, and the active id moves only after it. Across that await, the active id names no listed conversation (`ChatStore.DeleteSuspendedDangling`).
- **Conversation ids.** `sendMessageStream` takes a conversation id, and the chat view's call omits it (see Findings).

## Model

| member | source | states |
|---|---|---|
| ChatTypes.ParseProvider | src/types/chat.ts:1 | exactly the two provider names parse, and parsing inverts `ProviderName` |
| ChatTypes.DefaultModelFor | src/App.tsx:135 | the model chosen when a provider is picked afresh belongs to that provider; for OpenAI it is the global default model |
| ChatTypes.ModelSetsPartition | src/types/chat.ts:3-4 | the two model unions have three members each, are disjoint and together cover every model |
| ChatTypes.ModelNameInjective | src/types/chat.ts:3-4 | distinct models have distinct wire names |
| ChatTypes.TypeDoesNotTieModelToProvider | src/types/chat.ts:14-23 | the `Conversation` type admits an OpenAI conversation carrying a Claude model |
| Conversations.FirstUserIndex | src/utils/conversations.ts:54 | finds the first user message: it is a user message, and none before it is; None exactly when there is none |
| Conversations.UpdateConversationTitle | src/utils/conversations.ts:49-62 | "New Chat" when there is no user message; otherwise the first user message's first 50 characters, with "..." exactly when it was longer; never longer than 53 |
| Conversations.TitleIgnoresNonUserPrefix | src/utils/conversations.ts:54-61 | messages before the first user message never change the title |
| Conversations.EmptyUserMessageGivesEmptyTitle | src/utils/conversations.ts:54-61 | an empty first user message yields the empty title, not "New Chat" |
| Conversations.TitleTestExample | src/utils/conversations.test.ts:14-29 | a system message followed by a short user message gives that message as the title |
| Conversations.CreateNewConversation | src/utils/conversations.ts:34-47 | a new conversation has no messages, the title "New Chat" (consistent with its messages), is unpinned, and takes the given provider and model or the defaults |
| Conversations.NewConversationDefaults | src/utils/conversations.test.ts:5-12 | with no arguments the conversation is "New Chat" on openai with gpt-3.5-turbo |
| Conversations.Backfill | src/utils/conversations.ts:12-16 | a stored conversation keeps every field; a missing provider or model becomes openai or gpt-3.5-turbo |
| Conversations.BackfillAll | src/utils/conversations.ts:12-16 | the backfill is applied element-wise, keeping length and order |
| Conversations.LoadConversations | src/utils/conversations.ts:6-20 | empty for a missing, unparseable or non-array blob, and for an array holding `null`; otherwise the backfilled array |
| Conversations.SaveConversations | src/utils/conversations.ts:22-24 | writes an array with one entry per conversation |
| Conversations.LoadSaveRoundTrip | src/utils/conversations.ts:6-24 | loading what was saved gives back the same list |
| Conversations.IndexOf | src/store/chatStore.ts:124 | `findIndex`: the first index with that id, or None when no conversation has it |
| Conversations.WithMessages | src/store/chatStore.ts:127-136 | the updated conversation has the new messages, a title consistent with them and the new time, and keeps id, provider, model, creation time and pin |
| Conversations.FlipPin | src/store/chatStore.ts:176-181 | the pinned state is negated (absent counts as unpinned), the flag becomes explicit, and only the flag and the time change |
| Conversations.MapWhere | src/App.tsx:114-125 | every conversation with the id is transformed and every other is kept, in place |
| Conversations.RemoveId | src/utils/conversations.ts:66 | the result holds exactly the conversations whose id differs, and is the input when none matches |
| Conversations.RemoveIdAppend | src/utils/conversations.ts:66 | filtering distributes over concatenation, so relative order is kept |
| Conversations.RemoveIdAtUnique | src/store/chatStore.ts:146 | with one match at index i, filtering cuts out exactly index i |
| Conversations.DeleteConversation | src/utils/conversations.ts:64-77 | the blob reloads as the old list minus the id; the active key moves to the first remaining conversation (or is removed) only when it named the deleted one |
| Storage.InsertNewestFirst | src/services/storage.ts:9 | insertion into a newest-first list grows it by one and keeps or replaces its head |
| Storage.ListNewestFirst | src/services/storage.ts:8-10 | listing the table by insertion yields a list of exactly its records |
| Storage.GetConversations | src/services/storage.ts:8-10 | every record of the table exactly once, each as stored, ids unique, in non-increasing `updatedAt` order |
| Storage.SaveConversation | src/services/storage.ts:16-18 | `put` is an upsert: the record is stored under its id, the key set gains that id, and other records are unchanged |
| Storage.SaveIdempotent | src/services/storage.ts:16-18 | putting the same record twice is putting it once |
| Storage.SaveConversations | src/services/storage.ts:20-22 | `bulkPut` keeps every old key and stores every listed id |
| Storage.SaveConversationsFrame | src/services/storage.ts:20-22 | `bulkPut` adds exactly the listed ids and leaves unlisted records unchanged |
| Storage.SaveConversationsLastWins | src/services/storage.ts:20-22 | with repeated ids, the last entry in the list is the one stored |
| Storage.DeleteConversation | src/services/storage.ts:24-26 | exactly the given key is removed, other records unchanged |
| Storage.SetActiveConversationId | src/services/storage.ts:34-36 | only the active key changes |
| Storage.MigrateFromLocalStorage | src/services/storage.ts:38-60 | nothing changes unless the legacy blob is a non-empty array without nulls and the write succeeds; then the backfilled entries are put and the legacy key removed |
| Storage.MigrationBackfills | src/services/storage.ts:44-50 | after a migration each entry's id holds its backfilled record (the last one per id) |
| Storage.MigrationRemovesKeyOnlyAfterWrite | src/services/storage.ts:50-54 | the legacy key is gone exactly when the write happened |
| Storage.MigrationAtMostOnce | src/services/storage.ts:38-60 | a second migration after a successful one changes nothing |
| Storage.MigrationScenario | src/services/storage.ts:38-60 | one legacy conversation without provider or model lands in an empty table with openai and gpt-3.5-turbo |
| ChatStore.ActiveConversation | src/store/chatStore.ts:78 | the found conversation is the first listed one carrying the active id; None exactly when the active id names nothing listed |
| ChatStore.CreateConversation | src/store/chatStore.ts:74-95 | the new conversation is prepended and activated in memory and storage; each missing setting is inherited from the active conversation, else defaulted; the table gains it |
| ChatStore.CreateEstablishesActive | src/store/chatStore.ts:86-91 | after creating, the active id names a listed conversation |
| ChatStore.CreateCanMixProviders | src/store/chatStore.ts:76-83 | an explicit provider with an inherited model can pair OpenAI with a Claude model |
| ChatStore.DeleteSuspended | src/store/chatStore.ts:97-102 | during the awaited delete, the list lacks the id while the active id is unchanged |
| ChatStore.DeleteConversation | src/store/chatStore.ts:97-115 | the id leaves the list and the table; the active id stays, moves to the first remaining conversation, or moves to a freshly created one when none remain; other records are untouched |
| ChatStore.DeleteSuspendedDangling | src/store/chatStore.ts:99-105 | deleting the active conversation exposes, across the await, an active id that names no listed conversation |
| ChatStore.DeletePreservesActive | src/store/chatStore.ts:97-115 | once the delete completes, the active id names a listed conversation again |
| ChatStore.DeleteOnlyConversation | src/store/chatStore.ts:110-113 | deleting the only conversation leaves exactly one fresh "New Chat", active |
| ChatStore.SelectConversation | src/store/chatStore.ts:117-120 | the active id is set in memory and storage without checking; it names a listed conversation exactly when the id was listed |
| ChatStore.UpdateMessages | src/store/chatStore.ts:122-151 | an unknown id changes nothing; otherwise the updated conversation (new messages, derived title, new time) is put first, the others follow in order, and it is saved |
| ChatStore.UpdateMessagesMovesToFront | src/store/chatStore.ts:138-147 | with unique ids, the update moves the conversation to the front, keeping the length and the others' order |
| ChatStore.UpdateMessagesPreservesActive | src/store/chatStore.ts:122-151 | updating messages keeps the active conversation listed |
| ChatStore.UpdateConversationSettings | src/store/chatStore.ts:153-169 | an unknown id changes nothing; otherwise every field the patch gives (id, title, messages, provider, model, creation time, pin) replaces the conversation's, in place, with the time overriding any given one; nothing is reordered, and it is saved |
| ChatStore.IdPatchLeavesOldRecord | src/store/chatStore.ts:156-168 | a patch that renames the id leaves the old record in the table under its old key, while the list holds the new id |
| ChatStore.SettingsProviderChangeKeepsModel | src/store/chatStore.ts:158-162 | patching only the provider keeps the old model, so a coherent conversation becomes incoherent |
| ChatStore.TogglePin | src/store/chatStore.ts:171-188 | an unknown id changes nothing; otherwise the pinned state flips in place with a new time, and it is saved |
| ChatStore.TogglePinTwice | src/store/chatStore.ts:171-188 | toggling twice restores whether the conversation is pinned |
| ChatStore.SetApiKey | src/store/chatStore.ts:64-72 | only that provider's key changes, in memory and in localStorage |
| ChatStore.ResolveActive | src/store/chatStore.ts:46-57 | after loading, the active id names a listed conversation: a fresh one when nothing is stored, the stored id when it is non-empty and listed, else the first conversation, which is also saved as active |
| ChatStore.Init | src/store/chatStore.ts:37-62 | initialisation migrates, lists every record of the table newest first with unique ids, and ends not loading; the table afterwards is the migrated one, or, when that is empty, holds just the fresh conversation; the active conversation is a fresh one when the table is empty, the stored id when it is non-empty and in the table, and otherwise the newest, which is then saved as active |
| ChatStore.InitEmptyScenario | src/store/chatStore.ts:37-62 | a first start with nothing stored yields one active "New Chat" on openai with gpt-3.5-turbo |
| App.Mount | src/App.tsx:17-28 | each key is the stored value or ""; keys are present exactly when one stored key is non-empty |
| App.StartFresh | src/App.tsx:37-41 | the list becomes the one new conversation, active and persisted, so memory and blob agree |
| App.AppInit | src/App.tsx:30-54 | without keys nothing happens; with keys memory equals the loaded blob and the active conversation is shown, either a fresh one with the key-dependent provider or the stored or first one |
| App.AppInitAnthropicOnly | src/App.tsx:34-37 | with only an Anthropic key and nothing stored, the first conversation uses Claude 3.5 Sonnet |
| App.HandleApiKeysSubmit | src/App.tsx:56-66 | only non-empty keys replace the current ones, in state and storage; settings close; nothing else changes |
| App.SubmitKeepsKeys | src/App.tsx:56-66 | submitting never turns keys off, and a non-empty submission turns them on |
| App.SubmitThenRemount | src/App.tsx:17-66 | a remount after submitting reads back the keys in effect |
| App.ActiveConversation | src/App.tsx:194 | the found conversation is the first listed one with the active id, and exists exactly when the chat view is shown |
| App.HandleNewConversation | src/App.tsx:76-87 | a new conversation inheriting the active one's provider and model (else the defaults) is prepended, activated and persisted |
| App.NewConversationKeepsCoherence | src/App.tsx:76-87 | if every conversation's model belongs to its provider, that stays true after adding one |
| App.HandleSelectConversation | src/App.tsx:89-92 | the active id is set in state and storage; the chat view is shown exactly when the id is listed |
| App.HandleDeleteConversation | src/App.tsx:94-111 | the list is reloaded from the blob after the delete; an emptied list gets a fresh conversation |
| App.DeleteKeepsShown | src/App.tsx:94-111 | deleting a conversation other than the shown one keeps the shown one |
| App.ShownAfterRemove | src/App.tsx:104-109 | removing another id keeps a listed id listed |
| App.HandleMessagesUpdate | src/App.tsx:113-129 | the active conversation gets the messages, a consistent title and the time; others are unchanged; the blob is rewritten |
| App.Persist | src/App.tsx:127-128 | the list is stored in memory and in the blob, so the two agree |
| App.HandleProviderChange | src/App.tsx:131-148 | the active conversation switches provider and resets its model to that provider's default |
| App.ProviderChangeKeepsCoherence | src/App.tsx:131-148 | a provider change keeps every model inside its provider's set |
| App.HandleModelChange | src/App.tsx:150-164 | the active conversation takes the model, unchecked against its provider |
| App.ModelChangeCoherence | src/App.tsx:150-164 | with unique ids, a model change keeps every conversation coherent exactly when the model belongs to the active conversation's provider |
| App.HandleTogglePin | src/App.tsx:166-180 | the matching conversation's pinned state flips and its time becomes now, every other field kept; others are unchanged |
| App.TogglePinTwice | src/App.tsx:166-180 | toggling twice restores every conversation's pinned state |
| ModelSelector.TablesListModelSets | src/components/ModelSelector.tsx:10-20 | each option table lists exactly its provider's models |
| ModelSelector.ModelsFor | src/components/ModelSelector.tsx:28 | the list for a provider has three distinct entries, listing exactly that provider's models |
| ModelSelector.DisplayModel | src/components/ModelSelector.tsx:31-32 | the shown model always belongs to the provider, equals the current model exactly when that belongs to it, and is otherwise the list's first entry |
| ModelSelector.DisplayModelIdempotent | src/components/ModelSelector.tsx:31-32 | a shown model is shown as itself |
| ModelSelector.DisplayMatchesStoredIffCoherent | src/components/ModelSelector.tsx:28-32 | the picker shows the stored model exactly for conversations whose model matches their provider |
| ModelSelector.OpenAIFallbackIsNotDefault | src/components/ModelSelector.tsx:11-32 | the OpenAI fallback is gpt-4, not the gpt-3.5-turbo default used elsewhere; the Anthropic fallback is its default |
| ModelSelector.OptionLabels | src/components/ModelSelector.tsx:10-20 | the labels are the tables' labels, in order |
| FormatToolbar.Substring | src/components/FormatToolbar.tsx:13 | `substring` with clamped and swapped bounds returns the characters between them |
| FormatToolbar.Inserted | src/components/FormatToolbar.tsx:14 | the selected text when non-empty, else the placeholder |
| FormatToolbar.ApplyFormat | src/components/FormatToolbar.tsx:7-25 | nothing without a textarea; otherwise `onFormat` gets prefix, inserted text and suffix with the original range, and the new selection starts after the prefix and spans the inserted text |
| FormatToolbar.Splice | src/components/FormatToolbar.tsx:16 | replacing the given range by the text changes the length by their difference |
| FormatToolbar.SpliceSelectsInserted | src/components/FormatToolbar.tsx:16-22 | after the splice, the new selection covers exactly the inserted text |
| FormatToolbar.WrapSelection | src/components/FormatToolbar.tsx:13-22 | with a non-empty selection, the splice wraps it in place between prefix and suffix |
| FormatToolbar.Click | src/components/FormatToolbar.tsx:27-96 | a button inserts its prefix, the selection or its placeholder, and its suffix |
| FormatToolbar.FormatOf | src/components/FormatToolbar.tsx:27-96 | every button inserts a non-empty prefix; exactly the list, quote, heading and rule buttons have no suffix; bold, italic, inline code and math close with their opening delimiter; only the rule has an empty placeholder |
| FormatToolbar.EmptyPlaceholderOnlyForRule | src/components/FormatToolbar.tsx:77-80 | only the horizontal rule has an empty placeholder |
| FormatToolbar.RuleAtCaret | src/components/FormatToolbar.tsx:77-80 | at a caret, the rule inserts exactly "\n---\n" and leaves an empty selection after it |
| FormatToolbar.SymmetricWrappers | src/components/FormatToolbar.tsx:32-94 | bold, italic, inline code and math use the same non-empty mark on both sides |
| BlockText.WrapIf | src/components/ChatInterface.tsx:85-88 | a wrap puts the mark on both sides when the style is on, and nothing otherwise |
| BlockText.StyleText | src/components/ChatInterface.tsx:80-90 | the styled text is the text between the opening marks (strike, code, italic, bold from outside in) and the closing marks in reverse order |
| BlockText.ItemText | src/components/ChatInterface.tsx:77-91 | a string item renders verbatim; a styled item renders with its marks |
| BlockText.ItemTexts | src/components/ChatInterface.tsx:77 | items render element-wise |
| BlockText.RenderItems | src/components/ChatInterface.tsx:77-91 | rendering fails exactly when an item is null |
| BlockText.RenderItemsSingle | src/components/ChatInterface.tsx:77-91 | one item renders as that item |
| BlockText.RenderItemsAppend | src/components/ChatInterface.tsx:77-91 | rendering distributes over concatenation of item lists |
| BlockText.ExtractContentWithStyles | src/components/ChatInterface.tsx:73-92 | falsy or non-array content renders as ""; an array fails exactly when it holds a null |
| BlockText.BlockToMarkdown | src/components/ChatInterface.tsx:51-71 | a null block renders as ""; a block fails exactly on a null item or a negative heading level; otherwise the kind's prefix, fence or nothing goes around its content |
| BlockText.RenderBlocks | src/components/ChatInterface.tsx:45 | the blocks render element-wise, failing exactly when one throws |
| BlockText.RenderBlocksAppend | src/components/ChatInterface.tsx:45 | block rendering distributes over concatenation |
| BlockText.NonEmpty | src/components/ChatInterface.tsx:45 | the filter keeps exactly the non-empty renderings, in order |
| BlockText.NonEmptyAppend | src/components/ChatInterface.tsx:45 | the filter distributes over concatenation |
| BlockText.ConvertBlocksToText | src/components/ChatInterface.tsx:42-49 | "" when parsing fails, the value is not an array, or a block throws; otherwise the non-empty renderings joined by newlines |
| BlockText.ConvertAppend | src/components/ChatInterface.tsx:42-49 | converting two block lists together joins their conversions with one newline, or keeps either when the other is empty |
| BlockText.EmptyRenderingsVanish | src/components/ChatInterface.tsx:45 | a null block leaves no blank line behind |
| BlockText.HeadingLevel | src/components/ChatInterface.tsx:58 | a non-zero level is kept and a zero (missing) level becomes 1, so the level is at least 1 exactly when the stored level is not negative |
| BlockText.HeadingLevels | src/components/ChatInterface.tsx:57-59 | a missing or zero level renders like level 1; a negative level makes the whole conversion "" |
| BlockText.HeadingExample | src/components/ChatInterface.tsx:57-59 | a level-2 heading over "Plan" renders "## Plan" |
| BlockText.BoldItalicExample | src/components/ChatInterface.tsx:85-86 | bold and italic text renders with three stars on each side |
| BlockText.CodeBlockExample | src/components/ChatInterface.tsx:64-66 | a code block renders as a fence with its language, the content, and a closing fence |
| BlockText.ConvertExample | src/components/ChatInterface.tsx:42-92 | a heading, a null block, a styled paragraph and a code block convert to three newline-joined lines |
| BlockText.SingleBlock | src/components/ChatInterface.tsx:45 | a one-block document converts to that block's rendering |
| Callbacks.Terminal | src/services/anthropic.ts:42-49 | a stream that finishes completes; one that fails reports the error's message, or the fallback for a non-error value |
| Callbacks.Chunks | src/services/ai.ts:56 | the texts a trace delivers, in order |
| Callbacks.ChunkCalls | src/services/ai.ts:56 | one chunk call per text, in order |
| Callbacks.ChunksOfChunkCalls | src/services/ai.ts:56 | the chunk calls of texts deliver exactly those texts |
| Callbacks.ChunksAppend | src/services/ai.ts:52-58 | chunk delivery distributes over concatenation of traces |
| Callbacks.ChunksThenTerminal | src/services/ai.ts:45-67 | chunk calls followed by one terminal call make a well-formed trace delivering those texts |
| Callbacks.WellFormedShape | src/services/ai.ts:45-67 | a well-formed trace is its chunk calls followed by its terminal call |
| Callbacks.AllChunksRoundTrip | src/services/ai.ts:56 | a trace of chunk calls is the chunk calls of its texts |
| AIService.ShapeMessages | src/services/ai.ts:28-32 | the request's messages keep role, content and images, one per input, in order |
| AIService.CatchMessage | src/services/ai.ts:62-67 | the stop message when aborted; otherwise the error's message, or "Unknown error" for a non-error value |
| AIService.DataPayload | src/services/ai.ts:54-56 | a line forwards exactly when it starts with "data: " and has more after it, and then forwards the rest |
| AIService.EventCheckRedundant | src/services/ai.ts:53-57 | the event-line check never changes what a line forwards, so event names are not tracked |
| AIService.LineChunks | src/services/ai.ts:52-58 | at most one payload per line, each the non-empty tail of a line after "data: "; nothing is forwarded exactly when no line carries a payload |
| AIService.LineChunksAppend | src/services/ai.ts:52-58 | payloads are forwarded in line order |
| AIService.StreamChunksAppend | src/services/ai.ts:45-59 | payloads are forwarded in read order |
| AIService.ReadOfWholeLines | src/services/ai.ts:49-50 | a read made of whole lines forwards exactly those lines' payloads |
| AIService.BackendTrace | src/services/ai.ts:17-69 | the proxy path's trace is well formed; a good response with a body forwards its reads' payloads in order; it completes exactly when such a response reads to the end; otherwise its one error is the stop message when aborted, else the rejection's message, "Backend error: status - body", "ReadableStream not supported", or the failed read's message |
| AIService.SendMessageStream | src/services/ai.ts:6-75 | openai posts the shaped request and follows the proxy path; anthropic delegates entirely; any other provider only reports "Unknown AI provider"; the trace is always well formed |
| AIService.NonOkResponse | src/services/ai.ts:35-67 | a non-ok response reports "Backend error: status - body", or the stop message when aborted, and forwards nothing |
| AIService.AbortableTrace | src/services/ai.ts:19-64 | with the signal handed to `fetch`, an abort ends the trace with the stop message after the payloads of the reads delivered before it |
| AIService.AbortStopsStream | src/services/ai.ts:19-64 | mid-stream, an abort stops the stream when the signal is handed to `fetch`; as written, the stream still completes with every chunk |
| AIService.LineSplitAcrossReads | src/services/ai.ts:49-57 | a data line split across two reads forwards only its first part |
| AIService.LineInOneRead | src/services/ai.ts:49-57 | the same line in one read forwards its whole payload |
| AIService.EventThenData | src/services/ai.ts:53-57 | an event line followed by a data line forwards the data |
| AnthropicService.ShapeHistory | src/services/anthropic.ts:25-30 | the history sent has no system messages, and equals the input reduced to role and content when it had none |
| AnthropicService.ShapeHistoryAppend | src/services/anthropic.ts:25-30 | shaping distributes over concatenation, so order is kept |
| AnthropicService.TextDeltas | src/services/anthropic.ts:33-40 | at most one text per event, each carried by a text delta of the stream; nothing is forwarded exactly when no event is a text delta |
| AnthropicService.TextDeltasAppend | src/services/anthropic.ts:33-40 | text deltas are forwarded in event order |
| AnthropicService.SendMessageStreamAnthropic | src/services/anthropic.ts:7-50 | the request has the model, 4096 max tokens and the shaped history; the trace is well formed, forwards the text deltas, and completes exactly when the stream finishes; a failure reports the error's message or "An unknown error occurred" |
| AnthropicService.OtherEventsIgnored | src/services/anthropic.ts:34 | events other than text deltas never reach the caller |
| AnthropicService.SystemPromptDropped | src/services/anthropic.ts:26 | a leading system prompt is never sent |
| OpenAIService.ShapeHistory | src/services/openai.ts:20-23 | the messages keep role and content, same length and order |
| OpenAIService.ChunkText | src/services/openai.ts:28-31 | a chunk forwards exactly when its first choice has a delta with non-empty content, and forwards that content |
| OpenAIService.ChunkTexts | src/services/openai.ts:27-32 | only non-empty texts are forwarded, at most one per chunk |
| OpenAIService.ChunkTextsAppend | src/services/openai.ts:27-32 | texts are forwarded in chunk order |
| OpenAIService.SendMessageStreamOpenAI | src/services/openai.ts:18-42 | the request has the model, the shaped history and `stream: true`; the trace is well formed, forwards the chunk texts, and completes exactly when the stream finishes |
| OpenAIService.EmptyChunksIgnored | src/services/openai.ts:28-31 | chunks without a first choice, delta or content forward nothing |
| OpenAIService.OnlyFirstChoice | src/services/openai.ts:28 | choices after the first are never read |
| MessageEngine.MessageContent | src/components/ChatInterface.tsx:111 | the trimmed custom input when it is non-blank, else the trimmed editor conversion |
| MessageEngine.KeyMissingMessage | src/components/ChatInterface.tsx:116 | the text asks the user to set the API key in settings |
| MessageEngine.KeyMissingMessageNamesProvider | src/components/ChatInterface.tsx:116 | the two providers get different texts, so the message names the provider |
| MessageEngine.StartSend | src/components/ChatInterface.tsx:110-142 | a send is skipped exactly for blank content or while loading; it reports a missing key exactly when the provider's key is empty; otherwise it starts with the base list, a user message with the content and no images, and an empty assistant placeholder |
| MessageEngine.ApplyStart | src/components/ChatInterface.tsx:117-144 | a started send shows base, user message and placeholder, clears the editor and the error, and sets loading; a missing key only shows the error |
| MessageEngine.SetContent | src/components/ChatInterface.tsx:157-163 | only the message with the id gets the content |
| MessageEngine.DropId | src/components/ChatInterface.tsx:173 | exactly the messages with other ids remain |
| MessageEngine.OnCallback | src/components/ChatInterface.tsx:155-174 | a chunk extends the accumulated text and shows it in the placeholder; completion clears loading; an error removes the placeholder, clears loading and shows the message |
| MessageEngine.Run | src/components/ChatInterface.tsx:150-176 | folding a trace keeps the placeholder id |
| MessageEngine.ChunksAccumulate | src/components/ChatInterface.tsx:155-164 | while chunks arrive, the list is the prefix and the placeholder holding every chunk so far, in order |
| MessageEngine.RunAppend | src/components/ChatInterface.tsx:150-176 | folding a concatenated trace is folding its parts in turn |
| MessageEngine.DropFreshPlaceholder | src/components/ChatInterface.tsx:173 | removing a placeholder with a fresh id gives back the list before it |
| MessageEngine.RunWellFormed | src/components/ChatInterface.tsx:150-176 | after a well-formed trace, loading is off; completion leaves the placeholder with all chunks concatenated; an error leaves the prefix and shows the message |
| MessageEngine.SendOutcome | src/components/ChatInterface.tsx:110-177 | a started send ends, on completion, with base, user message and the full reply; on error, with base and user message and the error shown |
| MessageEngine.OnCallbackAsWritten | src/components/ChatInterface.tsx:150-176 | with the handlers bound one parameter early, a chunk only clears loading, completion removes the placeholder and shows no error, and an error rejects the send |
| MessageEngine.RunAsWritten | src/components/ChatInterface.tsx:150-176 | folding a trace under the call as written keeps the placeholder id |
| MessageEngine.ChunksIgnoredAsWritten | src/components/ChatInterface.tsx:150-168 | under the call as written, chunks never change the list or the error |
| MessageEngine.ReplyDiscardedAsWritten | src/components/ChatInterface.tsx:150-176 | under the call as written, a reply that streams to completion is discarded: the list ends with the user message |
| MessageEngine.FailureStuckAsWritten | src/components/ChatInterface.tsx:150-176 | under the call as written, a failure leaves the placeholder, stays loading and shows no error |
| MessageEngine.Stop | src/components/ChatInterface.tsx:179-185 | stopping only clears the loading flag |
| MessageEngine.MessageIndex | src/components/ChatInterface.tsx:188 | `findIndex`: the first index with the id, or None when no message has it |
| MessageEngine.Regenerate | src/components/ChatInterface.tsx:187-201 | regenerate acts exactly when the message exists, is not first, and follows a user message; it resends that message's text on the list before it |
| MessageEngine.EditMessage | src/components/ChatInterface.tsx:203-212 | edit acts exactly when the message exists, and resends the new text on the strict prefix before it |
| MessageEngine.RegenerateFirstIsNoop | src/components/ChatInterface.tsx:189 | regenerating the first message does nothing |
| MessageEngine.RegenerateRebuilds | src/components/ChatInterface.tsx:121-201 | a started regenerate drops the old reply and everything after it, and re-sends the same user text |
| MessageEngine.EditThenSend | src/components/ChatInterface.tsx:121-212 | editing message k and sending yields the first k messages, the edited text and a placeholder |
| MessageEngine.BlankEditFallsBackToEditor | src/components/ChatInterface.tsx:111-212 | a blank edit sends the editor's content instead |
| Middleware.RequireAPIKey | server/internal/server/middleware/auth.go:11-24 | with no key configured every request passes; otherwise exactly requests whose header equals the key pass, and the rest abort with 401 "Unauthorized" |
| Middleware.MissingHeader | server/internal/server/middleware/auth.go:13-21 | a request without the header passes exactly when no key is configured |
| Middleware.Allow | server/internal/server/middleware/rate_limit.go:41-61 | a first request, or one strictly after the reset time, opens a window with count 1; inside a window a request is allowed exactly when the count is below the budget, and then counts; a refusal changes nothing; other IPs are never touched |
| Middleware.RateLimit | server/internal/server/middleware/rate_limit.go:31-39 | allowed requests proceed; others abort with 429 "Too many requests" and change nothing |
| Middleware.AllowAll | server/internal/server/middleware/rate_limit.go:41-61 | a run of requests allows at most one per request |
| Middleware.WithinWindow | server/internal/server/middleware/rate_limit.go:55-60 | inside an open window, exactly the remaining budget is admitted |
| Middleware.WindowBudget | server/internal/server/middleware/rate_limit.go:47-60 | requests within one window are admitted up to the budget, and exactly one when the budget is zero or negative |
| Middleware.ResetTimeBelongsToOldWindow | server/internal/server/middleware/rate_limit.go:47 | a request at exactly the reset time still belongs to the spent window; one a nanosecond later starts afresh |
| Middleware.RefusalIsStable | server/internal/server/middleware/rate_limit.go:55-57 | a refused request is refused again until the window ends |
| Config.Setting | server/internal/config/config.go:26-32 | a set, non-empty variable wins; otherwise the default |
| Config.Read | server/internal/config/config.go:12-37 | as evidently intended, each of the eight fields comes from its variable when set and non-empty, else from its default: 8081, debug, the OpenAI URL, claude_play.db, or "" for the four without one |
| Config.ReadIgnoresOtherVariables | server/internal/config/config.go:12-37 | environments that agree on the eight variables give the same configuration |
| Config.ReadAsWritten | server/internal/config/config.go:26-37 | as written, only the four variables given a default reach the configuration; the API keys, the database URL and the CORS origins stay "" |
| Config.ServerKeyLostAsWritten | server/internal/config/config.go:26-37 | with only `SERVER_API_KEY` set, the intended reading keeps the key and the as-written one loses it |
| Config.SameVerdictAsWritten | server/internal/config/config.go:39-57 | validation gives the same verdict for both readings, so the loss goes unnoticed |
| Config.Atoi | server/internal/config/config.go:50 | a port parses exactly when it is a sign and digits within the int64 range, to its value; anything else that is not sign and digits is a syntax error |
| Config.AtoiRendering | server/internal/config/config.go:50 | parsing reads back decimal rendering, negated or not, across the int64 range |
| Config.Validate | server/internal/config/config.go:46-57 | checks run in order (missing port, non-numeric port, unknown mode) and the first failure is reported; valid exactly when the port parses and the mode is debug or release |
| Config.ErrorMessage | server/internal/config/config.go:48-54 | only the missing port reads "PORT is required", and exactly the mode error starts with "MODE" |
| Config.ErrorMessageInjective | server/internal/config/config.go:48-54 | different errors have different texts: the text determines the failed check, the offending value and, for the port, the `strconv` cause |
| Config.ValidateReadsPortAndMode | server/internal/config/config.go:46-57 | validation looks at no field other than port and mode |
| Config.LoadConfig | server/internal/config/config.go:23-44 | the read configuration loads exactly when it validates; otherwise the first error |
| Config.DefaultsLoad | server/internal/config/config.go:26-57 | with nothing set, the defaults load |
| Config.SignedPortsAccepted | server/internal/config/config.go:50-52 | "-1", "0" and "+80" are accepted as ports |
| Config.MalformedPorts | server/internal/config/config.go:50-52 | a leading space or a lone sign is a syntax error |
| Config.PortOutOfRange | server/internal/config/config.go:50-52 | one past the int64 maximum is out of range |
| Server.ParseOrigins | server/internal/server/server.go:41-45 | one origin per comma-separated entry, commas plus one in all, each trimmed, in order, empty ones kept |
| Server.CorsFor | server/internal/server/server.go:37-48 | a blank setting allows all origins; otherwise the parsed list; the methods and headers are fixed |
| Server.OriginsRoundTrip | server/internal/server/server.go:41-45 | origins listed without stray spaces come back as listed |
| Server.OriginsExample | server/internal/server/server.go:41-45 | "a, b," gives "a", "b" and an empty origin |
| Server.NewServer | server/internal/server/server.go:17-49 | `NewServer` switches gin to release mode exactly for "release"; the configured key, a limiter of 60 per minute, and the CORS settings of the configuration |
| Server.Handle | server/internal/server/server.go:23-25 | the key check runs first and a rejected request leaves the server unchanged; an accepted one meets the rate limiter, and reaches CORS exactly when it is allowed |
| Server.UnauthorizedSpendsNoBudget | server/internal/server/server.go:23-25 | unauthorized requests spend none of their IP's rate budget |
| Server.KeyCheckOffAsWritten | server/internal/server/server.go:23 | with `SERVER_API_KEY` set, a request without the header reaches CORS under the as-written reading and is refused with 401 under the intended one |
| Server.ReleaseModeOnly | server/internal/server/server.go:18-20 | for a valid configuration, `NewServer` switches gin to release mode exactly when the mode is not debug |
| OpenAIProvider.ShapeMessages | server/internal/services/ai/openai.go:21-28 | upstream messages keep role and content, one per input, in order; images are dropped |
| OpenAIProvider.BuildRequest | server/internal/services/ai/openai.go:19-43 | the request goes to the base URL's completions path with a bearer key, the model, the shaped messages and `stream: true` |
| OpenAIProvider.ChunkText | server/internal/services/ai/openai.go:80 | a chunk forwards exactly when its first choice's content is non-empty |
| OpenAIProvider.ChatStream | server/internal/services/ai/openai.go:18-88 | a transport error is returned as is; a non-200 status returns "openai api error: status" before any chunk; otherwise the scan loop runs |
| OpenAIProvider.Texts | server/internal/services/ai/openai.go:68-84 | only non-empty texts are forwarded |
| OpenAIProvider.Scan | server/internal/services/ai/openai.go:56-87 | at most one text per line is forwarded and none is empty; an error returned is the failing `onChunk` call's, after exactly the calls up to it, or the scanner's; without an error no failing call was reached |
| OpenAIProvider.ScanIsReference | server/internal/services/ai/openai.go:56-87 | the loop forwards the decodable non-empty contents of the data lines before "[DONE]", in order, and returns nil after "[DONE]" or else the scanner's error; a failing `onChunk` stops it after that call and its error is returned |
| OpenAIProvider.AfterDoneIgnored | server/internal/services/ai/openai.go:63-66 | lines after "[DONE]" and the scanner's end never matter |
| OpenAIProvider.DoneEndsScan | server/internal/services/ai/openai.go:63-66 | the loop ends at "[DONE]" with the same result as a clean end there |
| OpenAIProvider.NonDataLineIgnored | server/internal/services/ai/openai.go:58-61 | a line without the "data: " prefix changes nothing |
| OpenAIProvider.NonOkSendsNothing | server/internal/services/ai/openai.go:52-54 | a failing status forwards no chunk |
| Text.Trim | src/components/ChatInterface.tsx:111 | the result is the slice of the input after its leading whitespace, with only whitespace after it, and neither starts nor ends with whitespace |
| Text.Split | src/services/ai.ts:50 | one piece per separator plus one, none containing the separator, joining back to the input |
| Text.SplitJoin | server/internal/server/server.go:41 | splitting a join of separator-free pieces gives them back |
| Text.Take | src/utils/conversations.ts:60 | `slice(0, n)` keeps the first n characters, or all of them |

## Left out

- I/O and foreign code are parameters: `fetch`, `ReadableStream`, `TextDecoder`, both SDKs, Go's `net/http` and `bufio`, and JSON decoding. A multi-byte character split across two reads is not modelled.
- Dexie partial failures and transactions are not modelled; `put`, `bulkPut` and `delete` either happen or, for the migration, fail as a whole.
- Storage.GetConversations: records with equal `updatedAt` come back in no stated order. IndexedDB orders index entries with equal keys by primary key, so the reversed listing returns them in descending id order; the string ordering that would need is not modelled.
- Text.Trim: trims only the ASCII whitespace characters. JavaScript's `trim` and Go's `strings.TrimSpace` also remove Unicode spaces.
- Text.Take: counts characters. JavaScript's `slice`, `length` and selection offsets count UTF-16 code units, so a title of characters outside the Basic Multilingual Plane is cut earlier in the source (`Conversations.UpdateConversationTitle`), and toolbar offsets differ for such text (`FormatToolbar.ApplyFormat`).
- BlockText.BlockToMarkdown: heading levels are integers. Fractional, string or other JSON values of `props.level` are not modelled.
- The `fetch(` call in `src/services/ai.ts` is not closed after the request body; the model takes the request as evidently intended.
- The React effect that pushes `messages` back through `onMessagesUpdate`, effect scheduling and re-rendering are not modelled. The view's list is taken as the value the handlers compute.
- The backend's chat handler, database, `main.go` and the SSE framing gin writes (`event:`/`data:` lines without a space after the colon) are not part of this model. `AIService` models the client parser on its own terms.
- `gin-contrib/cors` itself is not modelled, including its refusal of an invalid origin list; `Server.CorsFor` models only the settings handed to it.
- Callbacks that throw are not modelled, except for the not-callable signal in the as-written call.
- The consumer of `onFormat` is not part of the shown code. `FormatToolbar.Splice` is the natural consumer, replacing the range by the text.
- MessageEngine.StartSend: one clock reading `now` stands for both timestamps. The source reads `Date.now()` once for the user message (src/components/ChatInterface.tsx line 125) and again for the assistant placeholder (line 141), after several state updates, so the two can differ. No equality of the two timestamps is promised.
- Server.ReleaseModeOnly: `releaseMode` records only whether `NewServer` calls `gin.SetMode(gin.ReleaseMode)`. gin also sets its initial mode from the process's `GIN_MODE` variable, which is not modelled, so the mode gin finally runs in is not stated. With `GIN_MODE=release` and `MODE=debug`, for example, gin runs in release mode.
- MessageEngine.SendOutcome: requires the placeholder's id to differ from the ids already in the list. The source derives both ids from the clock, and a collision is possible.
- Conversations.CreateNewConversation: takes one clock reading for the id, the creation time and the update time. The source reads `Date.now()` three times (src/utils/conversations.ts lines 39, 44, 45), so those can differ by a millisecond; no equality of the two times is promised.
- Config.ErrorMessage: Go's `%q` escaping is not modelled; the value appears between plain double quotes.
- Config.Atoi: Go reports a range error for a digit run that overflows before a later invalid character. The model reports a syntax error for any malformed input.
- OpenAIProvider.Scan: returns nil at "[DONE]". Go's `scanner.Err()` there could also return a read error already recorded behind the buffered lines.
- ChatStore.UpdateConversationSettings: a patch field given as `undefined` overrides the conversation's value in the source's spread. The model treats it as absent.
- The rate limiter's mutex and the unbounded growth of its map are not modelled.
- Data-URI parsing of images is not modelled; no shown code parses them.
- ApiKeyInput, ConversationSidebar, ChatMessage, CodeBlock, MermaidDiagram and BlockEditor render views and hold no modelled logic.

## Findings

| source | as written | input that shows it | evidently intended | confidence | as-written member | corrected member |
|---|---|---|---|---|---|---|
| src/components/ChatInterface.tsx:150-176 | the call to `sendMessageStream` passes no `conversationId`, so the chunk handler binds to `conversationId`, completion to `onChunk`, the error handler to `onComplete` and the signal to `onError` | any send whose stream completes, e.g. the trace `Chunk("Hi"), Complete`: the reply is removed and the list ends with the user message | chunks fill the assistant message, and completion keeps it | not executed; high | MessageEngine.ReplyDiscardedAsWritten | MessageEngine.SendOutcome |
| src/services/ai.ts:19-64 | the abort signal is never handed to `fetch`, so stopping does not end the stream | a response that reads to the end after the user stopped: the trace completes with every chunk | the next read rejects and the stop message is reported | not executed; medium | AIService.AbortStopsStream | AIService.AbortableTrace |
| server/internal/config/config.go:26-37 | `viper.Unmarshal` asks only for keys the library already knows, and only the four given a default are known; `AutomaticEnv` answers lookups of known keys only | `SERVER_API_KEY=k` with nothing else set: the loaded key is "", so every request passes the key check | every field is read from its variable, for instance by binding each key to the environment | not executed; high | Config.ReadAsWritten | Config.Read |

=== FILE: ai_service.dfy ===
/** `sendMessageStream` (src/services/ai.ts): provider dispatch, the
    request sent to the backend, and how the backend's streamed body is
    turned into callbacks. The fetch outcome, the reads of the body and
    whether the signal was aborted are parameters. */
module AIService {
  import opened Wrappers
  import opened Text
  import opened ChatTypes
  import opened Callbacks
  import Anthropic = AnthropicService

  const UnknownProvider: string := "Unknown AI provider"
  const StoppedByUser: string := "Generation stopped by user"
  const UnknownError: string := "Unknown error"
  const NoStream: string := "ReadableStream not supported"
  const DataPrefix: string := "data: "
  const EventPrefix: string := "event: message"

  /** One entry of the backend request's `messages`. */
  datatype BackendMessage = BackendMessage(role: Role, content: string, images: Option<seq<string>>)

  /** The JSON body posted to the backend. */
  datatype BackendRequest = BackendRequest(provider: string, model: string, conversationId: string,
                                           messages: seq<BackendMessage>)

  /** How reading the body ends: the reader reports done, or a read throws. */
  datatype ReadEnd = Done | ReadFailed(thrown: Thrown)

  /** What `fetch` produces: a rejection, or a response with its status, the
      text of its body (read only when not ok), whether it has a readable
      body, the decoded text of each read, and how reading ended. */
  datatype FetchResult =
    | Rejected(thrown: Thrown)
    | Response(ok: bool, status: nat, errorText: string, hasBody: bool, chunks: seq<string>, end: ReadEnd)

  /** What one call does: the request it posts (if any) and its callbacks. */
  datatype Outcome = Outcome(request: Option<BackendRequest>, trace: seq<Callback>)

  function ShapeMessages(ms: seq<Message>): (r: seq<BackendMessage>)
    ensures |r| == |ms|
    ensures forall i :: 0 <= i < |ms| ==> r[i] == BackendMessage(ms[i].role, ms[i].content, ms[i].images)
  {
    seq(|ms|, i requires 0 <= i < |ms| => BackendMessage(ms[i].role, ms[i].content, ms[i].images))
  }

  function BackendErrorMessage(status: nat, errorText: string): string {
    "Backend error: " + NatToString(status) + " - " + errorText
  }

  /** The text passed to `onError` in the catch block. */
  function CatchMessage(t: Thrown, aborted: bool): (m: string)
    ensures aborted ==> m == StoppedByUser
    ensures !aborted && t.ErrorObject? ==> m == t.message
    ensures !aborted && t.NonErrorValue? ==> m == UnknownError
  {
    if aborted then StoppedByUser
    else match t
      case ErrorObject(msg) => msg
      case NonErrorValue => UnknownError
  }

  /** What one line of a read forwards, with the check for event lines. */
  function LineChunk(line: string): Option<string> {
    if StartsWith(line, EventPrefix) then None
    else if StartsWith(line, DataPrefix) && |line| > |DataPrefix| then Some(line[|DataPrefix|..])
    else None
  }

  /** Reference reading of a line: a data line with a non-empty payload. */
  function DataPayload(line: string): (r: Option<string>)
    ensures r.Some? <==> StartsWith(line, DataPrefix) && |line| > |DataPrefix|
    ensures r.Some? ==> line == DataPrefix + r.value && r.value != ""
  {
    if StartsWith(line, DataPrefix) && |line| > |DataPrefix| then Some(line[|DataPrefix|..]) else None
  }

  /** The check for event lines never changes anything: such a line does
      not start with the data prefix. Event names are therefore not
      tracked, and a data line after any event line is forwarded. */
  lemma EventCheckRedundant(line: string)
    ensures LineChunk(line) == DataPayload(line)
  {
    if StartsWith(line, EventPrefix) {
      assert line[..|DataPrefix|] != DataPrefix by {
        assert line[..|DataPrefix|][0] == line[..|EventPrefix|][0] == 'e';
      }
    }
  }

  /** The payloads forwarded for a list of lines, in order: each is the
      non-empty tail of a data line, and nothing is forwarded exactly when
      no line carries one. */
  function LineChunks(lines: seq<string>): (r: seq<string>)
    ensures |r| <= |lines|
    ensures forall k :: 0 <= k < |r| ==> r[k] != "" && DataPrefix + r[k] in lines
    ensures r == [] <==> forall i :: 0 <= i < |lines| ==> DataPayload(lines[i]).None?
  {
    if |lines| == 0 then []
    else
      EventCheckRedundant(lines[0]);
      var rest := LineChunks(lines[1..]);
      assert forall k :: 0 <= k < |rest| ==> DataPrefix + rest[k] in lines by {
        forall k | 0 <= k < |rest| ensures DataPrefix + rest[k] in lines {
          assert DataPrefix + rest[k] in lines[1..];
        }
      }
      assert (forall i :: 0 <= i < |lines| ==> DataPayload(lines[i]).None?) <==>
             DataPayload(lines[0]).None? && forall i :: 0 <= i < |lines[1..]| ==> DataPayload(lines[1..][i]).None? by {
        if forall i :: 0 <= i < |lines[1..]| ==> DataPayload(lines[1..][i]).None? {
          forall i | 1 <= i < |lines| ensures DataPayload(lines[i]).None? {
            assert lines[i] == lines[1..][i - 1];
          }
        }
      }
      match LineChunk(lines[0])
      case Some(d) => [d] + rest
      case None => rest
  }

  lemma {:induction false} LineChunksAppend(a: seq<string>, b: seq<string>)
    ensures LineChunks(a + b) == LineChunks(a) + LineChunks(b)
  {
    if |a| == 0 {
      assert a + b == b;
    } else {
      assert (a + b)[1..] == a[1..] + b;
      assert (a + b)[0] == a[0];
      LineChunksAppend(a[1..], b);
    }
  }

  /** One read: decoded, split on newlines, and each line examined. */
  function ReadChunks(read: string): seq<string> {
    LineChunks(Split(read, '\n'))
  }

  /** All reads, in order. */
  function StreamChunks(parts: seq<string>): seq<string> {
    if |parts| == 0 then [] else ReadChunks(parts[0]) + StreamChunks(parts[1..])
  }

  lemma {:induction false} StreamChunksAppend(a: seq<string>, b: seq<string>)
    ensures StreamChunks(a + b) == StreamChunks(a) + StreamChunks(b)
  {
    if |a| == 0 {
      assert a + b == b;
    } else {
      assert (a + b)[1..] == a[1..] + b;
      StreamChunksAppend(a[1..], b);
    }
  }

  /** A read made of whole lines forwards exactly those lines' payloads. */
  lemma ReadOfWholeLines(lines: seq<string>)
    requires |lines| >= 1
    requires forall i :: 0 <= i < |lines| ==> '\n' !in lines[i]
    ensures ReadChunks(Join(lines, "\n")) == LineChunks(lines)
  {
    SplitJoin(lines, '\n');
  }

  /** The backend path: the try block and its catch. */
  function BackendTrace(fetched: FetchResult, aborted: bool): (t: seq<Callback>)
    ensures WellFormed(t)
    ensures fetched.Response? && fetched.ok && fetched.hasBody ==> Chunks(t) == StreamChunks(fetched.chunks)
    ensures (t[|t| - 1] == Complete) <==> fetched.Response? && fetched.ok && fetched.hasBody && fetched.end.Done?
    ensures fetched.Rejected? ==> t == [Error(CatchMessage(fetched.thrown, aborted))]
    ensures fetched.Response? && !fetched.ok ==>
      t == [Error(if aborted then StoppedByUser else BackendErrorMessage(fetched.status, fetched.errorText))]
    ensures fetched.Response? && fetched.ok && !fetched.hasBody ==>
      t == [Error(if aborted then StoppedByUser else NoStream)]
    ensures fetched.Response? && fetched.ok && fetched.hasBody && fetched.end.ReadFailed? ==>
      t[|t| - 1] == Error(CatchMessage(fetched.end.thrown, aborted))
  {
    match fetched
    case Rejected(e) => [Error(CatchMessage(e, aborted))]
    case Response(ok, status, errorText, hasBody, chunks, end) =>
      if !ok then [Error(CatchMessage(ErrorObject(BackendErrorMessage(status, errorText)), aborted))]
      else if !hasBody then [Error(CatchMessage(ErrorObject(NoStream), aborted))]
      else
        var last := match end
          case Done => Complete
          case ReadFailed(e) => Error(CatchMessage(e, aborted));
        ChunksThenTerminal(StreamChunks(chunks), last);
        ChunkCalls(StreamChunks(chunks)) + [last]
  }

  /** `sendMessageStream(provider, apiKey, model, messages, conversationId, …, signal)`.
      The Anthropic path is given the SDK stream it would see. */
  function SendMessageStream(provider: string, apiKey: string, model: string, messages: seq<Message>,
                             conversationId: string, fetched: FetchResult, aborted: bool,
                             anthropicStream: SdkStream<Anthropic.StreamEvent>): (r: Outcome)
    ensures WellFormed(r.trace)
    ensures provider == "openai" ==>
      r.request == Some(BackendRequest("openai", model, conversationId, ShapeMessages(messages)))
      && r.trace == BackendTrace(fetched, aborted)
    ensures provider == "anthropic" ==>
      r.request.None? && r.trace == Anthropic.SendMessageStreamAnthropic(apiKey, model, messages, anthropicStream).trace
    ensures provider != "openai" && provider != "anthropic" ==>
      r.request.None? && r.trace == [Error(UnknownProvider)]
  {
    if provider == "openai" then
      Outcome(Some(BackendRequest("openai", model, conversationId, ShapeMessages(messages))), BackendTrace(fetched, aborted))
    else if provider == "anthropic" then
      Outcome(None, Anthropic.SendMessageStreamAnthropic(apiKey, model, messages, anthropicStream).trace)
    else
      Outcome(None, [Error(UnknownProvider)])
  }

  /** A non-ok response reports the status and body, unless aborted, and
      forwards no chunk. */
  lemma NonOkResponse(status: nat, errorText: string, hasBody: bool, parts: seq<string>, end: ReadEnd, aborted: bool)
    ensures BackendTrace(Response(false, status, errorText, hasBody, parts, end), aborted)
      == [Error(if aborted then StoppedByUser else "Backend error: " + NatToString(status) + " - " + errorText)]
  {
  }

  /** The backend path as evidently intended, with the abort signal handed
      to `fetch`. `abortAfter` is the number of reads delivered before the
      abort, if there is one: an abort before the response arrives rejects
      the fetch, and one during reading rejects the next read; either way
      the catch reports the stop. */
  function AbortableTrace(fetched: FetchResult, abortAfter: Option<nat>): (t: seq<Callback>)
    ensures WellFormed(t)
    ensures abortAfter.None? ==> t == BackendTrace(fetched, false)
    ensures abortAfter.Some? ==> t[|t| - 1] == Error(StoppedByUser)
    ensures abortAfter.Some? && fetched.Response? && fetched.ok && fetched.hasBody ==>
      Chunks(t) == StreamChunks(fetched.chunks[..Min(abortAfter.value, |fetched.chunks|)])
  {
    match abortAfter
    case None => BackendTrace(fetched, false)
    case Some(k) =>
      if fetched.Response? && fetched.ok && fetched.hasBody then
        var delivered := StreamChunks(fetched.chunks[..Min(k, |fetched.chunks|)]);
        ChunksThenTerminal(delivered, Error(StoppedByUser));
        ChunkCalls(delivered) + [Error(StoppedByUser)]
      else [Error(StoppedByUser)]
  }

  function Min(a: nat, b: nat): nat {
    if a <= b then a else b
  }

  /** With the signal handed to `fetch`, stopping mid-stream ends the
      stream with the stop message and forwards nothing read after it,
      where the code as written completes normally with every chunk. */
  lemma AbortStopsStream(chunks: seq<string>, k: nat)
    requires k < |chunks|
    ensures var t := AbortableTrace(Response(true, 200, "", true, chunks, Done), Some(k));
      t[|t| - 1] == Error(StoppedByUser) && Chunks(t) == StreamChunks(chunks[..k])
    ensures var t := BackendTrace(Response(true, 200, "", true, chunks, Done), true);
      t[|t| - 1] == Complete && Chunks(t) == StreamChunks(chunks)
  {
  }

  /** Lines are split per read, not across reads: a data line delivered
      in two reads forwards only its first part, and the second part
      (which does not start with the prefix) is dropped. */
  lemma LineSplitAcrossReads()
    ensures StreamChunks(["data: hel", Join(["lo", ""], "\n")]) == ["hel"]
  {
    var first, second := ["data: hel"], ["lo", ""];
    assert LineChunks(first) == ["hel"] by {
      assert LineChunk("data: hel") == Some("hel");
    }
    assert LineChunks(second) == [] by {
      assert LineChunk("lo") == None && LineChunk("") == None;
      assert second[1..] == [""];
    }
    TwoReads(first, second);
  }

  /** The same line in one read forwards its whole payload. */
  lemma LineInOneRead()
    ensures StreamChunks([Join(["data: hello", ""], "\n")]) == ["hello"]
  {
    var lines := ["data: hello", ""];
    assert LineChunks(lines) == ["hello"] by {
      assert LineChunk("data: hello") == Some("hello") && LineChunk("") == None;
      assert lines[1..] == [""];
    }
    OneRead(lines);
  }

  lemma OneRead(lines: seq<string>)
    requires |lines| >= 1
    requires forall i :: 0 <= i < |lines| ==> '\n' !in lines[i]
    ensures StreamChunks([Join(lines, "\n")]) == LineChunks(lines)
  {
    ReadOfWholeLines(lines);
    assert [Join(lines, "\n")][1..] == [];
  }

  lemma TwoReads(first: seq<string>, second: seq<string>)
    requires |first| >= 1 && |second| >= 1
    requires forall i :: 0 <= i < |first| ==> '\n' !in first[i]
    requires forall i :: 0 <= i < |second| ==> '\n' !in second[i]
    ensures StreamChunks([Join(first, "\n"), Join(second, "\n")]) == LineChunks(first) + LineChunks(second)
  {
    OneRead(second);
    ReadOfWholeLines(first);
    assert [Join(first, "\n"), Join(second, "\n")][1..] == [Join(second, "\n")];
  }

  /** Lines after an event line are examined like any other. */
  lemma EventThenData()
    ensures ReadChunks(Join(["event: message", "data: x", "", ""], "\n")) == ["x"]
  {
    var lines := ["event: message", "data: x", "", ""];
    ReadOfWholeLines(lines);
    assert LineChunk("event: message") == None;
    assert LineChunk("data: x") == Some("x");
    assert LineChunk("") == None;
    assert lines[1..] == ["data: x", "", ""];
    assert lines[1..][1..] == ["", ""];
    assert lines[1..][1..][1..] == [""];
  }
}

=== FILE: anthropic_service.dfy ===
/** `sendMessageStreamAnthropic` (src/services/anthropic.ts): the request
    it builds and the callbacks it makes for an SDK event stream. */
module AnthropicService {
  import opened ChatTypes
  import opened Callbacks

  const MaxTokens: nat := 4096

  /** The text used when the thrown value is not an `Error`. */
  const UnknownError: string := "An unknown error occurred"

  /** An outgoing history entry: role and content only. */
  datatype ApiMessage = ApiMessage(role: Role, content: string)

  /** The body of `anthropic.messages.stream(...)`. */
  datatype Request = Request(model: string, maxTokens: nat, messages: seq<ApiMessage>)

  /** A streamed delta: text, or another kind (such as partial tool input). */
  datatype Delta = TextDelta(text: string) | OtherDelta(kind: string)

  /** A streamed event: a content-block delta, or any other event type. */
  datatype StreamEvent = ContentBlockDelta(delta: Delta) | OtherEvent(kind: string)

  /** `messages.filter(msg => msg.role !== 'system').map(msg => ({role, content}))`. */
  function ShapeHistory(ms: seq<Message>): (r: seq<ApiMessage>)
    ensures |r| <= |ms|
    ensures forall i :: 0 <= i < |r| ==> r[i].role != System
    ensures (forall i :: 0 <= i < |ms| ==> ms[i].role != System) ==>
      |r| == |ms| && forall i :: 0 <= i < |ms| ==> r[i] == ApiMessage(ms[i].role, ms[i].content)
  {
    if |ms| == 0 then []
    else if ms[0].role == System then ShapeHistory(ms[1..])
    else [ApiMessage(ms[0].role, ms[0].content)] + ShapeHistory(ms[1..])
  }

  /** Shaping distributes over concatenation: order is kept and system
      messages anywhere are dropped. */
  lemma {:induction false} ShapeHistoryAppend(a: seq<Message>, b: seq<Message>)
    ensures ShapeHistory(a + b) == ShapeHistory(a) + ShapeHistory(b)
  {
    if |a| == 0 {
      assert a + b == b;
    } else {
      assert (a + b)[1..] == a[1..] + b;
      ShapeHistoryAppend(a[1..], b);
    }
  }

  /** The texts forwarded: those of text deltas, in order. */
  function TextDeltas(events: seq<StreamEvent>): (r: seq<string>)
    ensures |r| <= |events|
    ensures forall k :: 0 <= k < |r| ==> ContentBlockDelta(TextDelta(r[k])) in events
    ensures r == [] <==> forall i :: 0 <= i < |events| ==> !IsTextDelta(events[i])
  {
    if |events| == 0 then []
    else
      var rest := TextDeltas(events[1..]);
      assert forall k :: 0 <= k < |rest| ==> ContentBlockDelta(TextDelta(rest[k])) in events by {
        forall k | 0 <= k < |rest| ensures ContentBlockDelta(TextDelta(rest[k])) in events {
          assert ContentBlockDelta(TextDelta(rest[k])) in events[1..];
        }
      }
      assert (forall i :: 0 <= i < |events| ==> !IsTextDelta(events[i])) <==>
             !IsTextDelta(events[0]) && forall i :: 0 <= i < |events[1..]| ==> !IsTextDelta(events[1..][i]) by {
        if forall i :: 0 <= i < |events[1..]| ==> !IsTextDelta(events[1..][i]) {
          forall i | 1 <= i < |events| ensures !IsTextDelta(events[i]) {
            assert events[i] == events[1..][i - 1];
          }
        }
      }
      if IsTextDelta(events[0]) then [events[0].delta.text] + rest else rest
  }

  /** A `content_block_delta` event carrying a `text_delta`. */
  predicate IsTextDelta(e: StreamEvent) {
    e.ContentBlockDelta? && e.delta.TextDelta?
  }

  lemma {:induction false} TextDeltasAppend(a: seq<StreamEvent>, b: seq<StreamEvent>)
    ensures TextDeltas(a + b) == TextDeltas(a) + TextDeltas(b)
  {
    if |a| == 0 {
      assert a + b == b;
    } else {
      assert (a + b)[1..] == a[1..] + b;
      TextDeltasAppend(a[1..], b);
    }
  }

  /** The request and the callback trace of one call. */
  datatype Outcome = Outcome(request: Request, trace: seq<Callback>)

  /** `sendMessageStreamAnthropic(apiKey, model, messages, ...)`: there is
      no signal parameter, so a caller's extra argument is ignored. */
  function SendMessageStreamAnthropic(apiKey: string, model: string, messages: seq<Message>,
                                      stream: SdkStream<StreamEvent>): (r: Outcome)
    ensures r.request == Request(model, MaxTokens, ShapeHistory(messages))
    ensures WellFormed(r.trace) && Chunks(r.trace) == TextDeltas(stream.events)
    ensures stream.end.Finished? <==> r.trace[|r.trace| - 1] == Complete
    ensures stream.end.Failed? ==> r.trace[|r.trace| - 1] == Terminal(stream.end, UnknownError)
  {
    var texts := TextDeltas(stream.events);
    ChunksThenTerminal(texts, Terminal(stream.end, UnknownError));
    Outcome(Request(model, MaxTokens, ShapeHistory(messages)), ChunkCalls(texts) + [Terminal(stream.end, UnknownError)])
  }

  /** Events other than text deltas never reach the caller. */
  lemma OtherEventsIgnored(a: seq<StreamEvent>, b: seq<StreamEvent>, e: StreamEvent)
    requires !IsTextDelta(e)
    ensures TextDeltas(a + [e] + b) == TextDeltas(a + b)
  {
    TextDeltasAppend(a + [e], b);
    TextDeltasAppend(a, [e]);
    TextDeltasAppend(a, b);
    assert TextDeltas([e]) == [] by { assert [e][1..] == []; }
  }

  /** A system prompt at the head of the history is never sent. */
  lemma SystemPromptDropped(sys: Message, rest: seq<Message>)
    requires sys.role == System
    ensures ShapeHistory([sys] + rest) == ShapeHistory(rest)
  {
    assert ([sys] + rest)[1..] == rest;
  }
}

=== FILE: app.dfy ===
/** The top-level component (src/App.tsx): API keys, the conversation list
    held in memory and mirrored into the legacy localStorage blob, and the
    handlers the sidebar and chat view call. Clock readings and generated
    ids are parameters. */
module App {
  import opened Wrappers
  import opened ChatTypes
  import C = Conversations

  /** The component's state plus the localStorage entries it touches. */
  datatype AppState = AppState(
    openaiKey: string,
    anthropicKey: string,
    showSettings: bool,
    conversations: seq<Conversation>,
    activeId: string,
    local: C.LocalState,
    savedOpenai: Option<string>,
    savedAnthropic: Option<string>)

  /** `openaiKey || anthropicKey`. */
  predicate HasApiKeys(st: AppState) {
    st.openaiKey != "" || st.anthropicKey != ""
  }

  /** Memory agrees with what `loadConversations` would read back. */
  predicate Synced(st: AppState) {
    C.LoadConversations(st.local.blob) == st.conversations
  }

  /** The active id names a conversation in memory, so the chat view is shown. */
  predicate ActiveShown(st: AppState) {
    C.HasConversation(st.conversations, st.activeId)
  }

  /** Every conversation's model belongs to its provider. */
  predicate AllCoherent(cs: seq<Conversation>) {
    forall i :: 0 <= i < |cs| ==> ModelMatchesProvider(cs[i])
  }

  /** The initial render: each key is the stored value or "" (a missing key is falsy). */
  function Mount(local: C.LocalState, savedOpenai: Option<string>, savedAnthropic: Option<string>): (st: AppState)
    ensures st.openaiKey == savedOpenai.GetOr("") && st.anthropicKey == savedAnthropic.GetOr("")
    ensures st.conversations == [] && st.activeId == "" && !st.showSettings
    ensures HasApiKeys(st) <==> (savedOpenai.Some? && savedOpenai.value != "") || (savedAnthropic.Some? && savedAnthropic.value != "")
  {
    AppState(savedOpenai.GetOr(""), savedAnthropic.GetOr(""), false, [], "", local, savedOpenai, savedAnthropic)
  }

  /** Replace the list with a single new conversation, activate and persist it. */
  function StartFresh(st: AppState, c: Conversation): (r: AppState)
    ensures r.conversations == [c] && r.activeId == c.id && Synced(r) && ActiveShown(r)
    ensures r.local.activeKey == Some(c.id)
    ensures r.openaiKey == st.openaiKey && r.anthropicKey == st.anthropicKey
  {
    C.LoadSaveRoundTrip([c]);
    assert [c][0].id == c.id;
    st.(conversations := [c], activeId := c.id,
        local := C.LocalState(Some(C.SaveConversations([c])), Some(c.id)))
  }

  /** The effect that runs once keys are present: load the blob; if it holds
      nothing, start a conversation on the provider a key exists for; else
      restore the stored active id when it is non-empty and listed, falling
      back to the first conversation. Without keys nothing happens. */
  function AppInit(st: AppState, freshId: string, now: int): (r: AppState)
    ensures !HasApiKeys(st) ==> r == st
    ensures HasApiKeys(st) ==> Synced(r) && ActiveShown(r)
    ensures HasApiKeys(st) && |C.LoadConversations(st.local.blob)| == 0 ==>
      var p := if st.anthropicKey != "" then Anthropic else OpenAI;
      r.conversations == [C.CreateNewConversation(freshId, now, Some(p), Some(DefaultModelFor(p)))]
    ensures HasApiKeys(st) && |C.LoadConversations(st.local.blob)| > 0 ==>
      var loaded := C.LoadConversations(st.local.blob);
      var key := st.local.activeKey;
      && r.conversations == loaded && r.local.blob == st.local.blob
      && (key.Some? && key.value != "" && C.HasConversation(loaded, key.value) ==>
            r.activeId == key.value && r.local.activeKey == key)
      && (!(key.Some? && key.value != "" && C.HasConversation(loaded, key.value)) ==>
            r.activeId == loaded[0].id && r.local.activeKey == Some(loaded[0].id))
  {
    if !HasApiKeys(st) then st
    else
      var loaded := C.LoadConversations(st.local.blob);
      if |loaded| == 0 then
        var p := if st.anthropicKey != "" then Anthropic else OpenAI;
        var m := if p == Anthropic then Claude35Sonnet else Gpt35Turbo;
        StartFresh(st, C.CreateNewConversation(freshId, now, Some(p), Some(m)))
      else
        var key := st.local.activeKey;
        if key.Some? && key.value != "" && C.IndexOf(loaded, key.value).Some? then
          st.(conversations := loaded, activeId := key.value)
        else
          st.(conversations := loaded, activeId := loaded[0].id,
              local := st.local.(activeKey := Some(loaded[0].id)))
  }

  /** With only an Anthropic key and nothing stored, the first conversation
      is on Anthropic with its default model, so it is coherent. */
  lemma AppInitAnthropicOnly(st: AppState, freshId: string, now: int)
    requires st.openaiKey == "" && st.anthropicKey != ""
    requires |C.LoadConversations(st.local.blob)| == 0
    ensures var r := AppInit(st, freshId, now);
      |r.conversations| == 1 && r.conversations[0].provider == Anthropic
      && r.conversations[0].model == Claude35Sonnet && AllCoherent(r.conversations)
  {
  }

  /** `handleApiKeysSubmit`: only non-empty keys are stored; an empty field
      leaves the previous key in place. */
  function HandleApiKeysSubmit(st: AppState, openai: string, anthropic: string): (r: AppState)
    ensures !r.showSettings
    ensures openai != "" ==> r.openaiKey == openai && r.savedOpenai == Some(openai)
    ensures openai == "" ==> r.openaiKey == st.openaiKey && r.savedOpenai == st.savedOpenai
    ensures anthropic != "" ==> r.anthropicKey == anthropic && r.savedAnthropic == Some(anthropic)
    ensures anthropic == "" ==> r.anthropicKey == st.anthropicKey && r.savedAnthropic == st.savedAnthropic
    ensures r.conversations == st.conversations && r.local == st.local && r.activeId == st.activeId
  {
    var st1 := if openai != "" then st.(openaiKey := openai, savedOpenai := Some(openai)) else st;
    var st2 := if anthropic != "" then st1.(anthropicKey := anthropic, savedAnthropic := Some(anthropic)) else st1;
    st2.(showSettings := false)
  }

  /** Submitting keys never turns keys off: once present they stay present. */
  lemma SubmitKeepsKeys(st: AppState, openai: string, anthropic: string)
    requires HasApiKeys(st) || openai != "" || anthropic != ""
    ensures HasApiKeys(HandleApiKeysSubmit(st, openai, anthropic))
  {
  }

  /** The stored key, as `localStorage.getItem(...) || ''` reads it at the
      next mount, is the key in memory. */
  lemma SubmitThenRemount(st: AppState, openai: string, anthropic: string)
    requires st.savedOpenai.GetOr("") == st.openaiKey && st.savedAnthropic.GetOr("") == st.anthropicKey
    ensures var r := HandleApiKeysSubmit(st, openai, anthropic);
      var m := Mount(r.local, r.savedOpenai, r.savedAnthropic);
      m.openaiKey == r.openaiKey && m.anthropicKey == r.anthropicKey
  {
  }

  /** The active conversation, as `conversations.find(c => c.id === activeConversationId)`. */
  function ActiveConversation(st: AppState): (r: Option<Conversation>)
    ensures r.Some? <==> ActiveShown(st)
    ensures r.Some? ==> r.value in st.conversations && r.value.id == st.activeId
    ensures r.Some? ==> exists i :: 0 <= i < |st.conversations| && st.conversations[i] == r.value
                                   && forall j :: 0 <= j < i ==> st.conversations[j].id != st.activeId
  {
    match C.IndexOf(st.conversations, st.activeId)
    case None => None
    case Some(i) => Some(st.conversations[i])
  }

  /** `handleNewConversation`: inherits provider and model from the active
      conversation (openai / gpt-3.5-turbo when none is active), prepends,
      activates and persists. */
  function HandleNewConversation(st: AppState, freshId: string, now: int): (r: AppState)
    ensures |r.conversations| == |st.conversations| + 1 && r.conversations[1..] == st.conversations
    ensures r.activeId == freshId && r.local.activeKey == Some(freshId)
    ensures Synced(r) && ActiveShown(r)
    ensures var c := r.conversations[0];
      && c == C.CreateNewConversation(freshId, now, Some(c.provider), Some(c.model))
      && (ActiveConversation(st).Some? ==>
            c.provider == ActiveConversation(st).value.provider && c.model == ActiveConversation(st).value.model)
      && (ActiveConversation(st).None? ==> c.provider == OpenAI && c.model == Gpt35Turbo)
  {
    var active := ActiveConversation(st);
    var p := if active.Some? then active.value.provider else OpenAI;
    var m := if active.Some? then active.value.model else Gpt35Turbo;
    var updated := [C.CreateNewConversation(freshId, now, Some(p), Some(m))] + st.conversations;
    C.LoadSaveRoundTrip(updated);
    assert updated[0].id == freshId;
    st.(conversations := updated, activeId := freshId,
        local := C.LocalState(Some(C.SaveConversations(updated)), Some(freshId)))
  }

  /** A new conversation is coherent whenever the one it inherits from is. */
  lemma NewConversationKeepsCoherence(st: AppState, freshId: string, now: int)
    requires AllCoherent(st.conversations)
    ensures AllCoherent(HandleNewConversation(st, freshId, now).conversations)
  {
    var r := HandleNewConversation(st, freshId, now);
    var active := ActiveConversation(st);
    if active.Some? {
      var i :| 0 <= i < |st.conversations| && st.conversations[i] == active.value;
      assert ModelMatchesProvider(active.value);
    }
    assert forall i :: 1 <= i < |r.conversations| ==> r.conversations[i] == st.conversations[i - 1];
  }

  /** `handleSelectConversation`. */
  function HandleSelectConversation(st: AppState, id: string): (r: AppState)
    ensures r.activeId == id && r.local.activeKey == Some(id)
    ensures r.conversations == st.conversations && r.local.blob == st.local.blob
    ensures ActiveShown(r) <==> C.HasConversation(st.conversations, id)
  {
    st.(activeId := id, local := st.local.(activeKey := Some(id)))
  }

  /** `handleDeleteConversation`: delete from the blob, then reload from it;
      an empty result starts a default conversation. The active id moves to
      the first loaded conversation only when the deleted one was active. */
  function HandleDeleteConversation(st: AppState, id: string, freshId: string, now: int): (r: AppState)
    ensures Synced(r)
    ensures var loaded := C.RemoveId(C.LoadConversations(st.local.blob), id);
      && (|loaded| == 0 ==> r.conversations == [C.CreateNewConversation(freshId, now, None, None)] && r.activeId == freshId)
      && (|loaded| > 0 ==> r.conversations == loaded)
      && (|loaded| > 0 && id == st.activeId ==> r.activeId == loaded[0].id && r.local.activeKey == Some(loaded[0].id))
      && (|loaded| > 0 && id != st.activeId ==> r.activeId == st.activeId)
  {
    var local1 := C.DeleteConversation(st.local, id);
    var loaded := C.LoadConversations(local1.blob);
    if |loaded| == 0 then
      StartFresh(st.(local := local1), C.CreateNewConversation(freshId, now, None, None))
    else
      var st1 := st.(local := local1, conversations := loaded);
      if id == st.activeId then
        st1.(activeId := loaded[0].id, local := local1.(activeKey := Some(loaded[0].id)))
      else st1
  }

  /** Deleting a conversation other than the shown one keeps it shown. */
  lemma DeleteKeepsShown(st: AppState, id: string, freshId: string, now: int)
    requires Synced(st) && ActiveShown(st) && id != st.activeId
    ensures ActiveShown(HandleDeleteConversation(st, id, freshId, now))
  {
    ShownAfterRemove(C.LoadConversations(st.local.blob), id, st.activeId);
  }

  /** Removing another id keeps a listed id listed. */
  lemma ShownAfterRemove(cs: seq<Conversation>, id: string, active: string)
    requires C.HasConversation(cs, active) && id != active
    ensures C.HasConversation(C.RemoveId(cs, id), active)
  {
    var i :| 0 <= i < |cs| && cs[i].id == active;
    var rest := C.RemoveId(cs, id);
    assert cs[i] in rest;
    var j :| 0 <= j < |rest| && rest[j] == cs[i];
  }

  /** `handleMessagesUpdate`: the active conversation gets the messages, a
      derived title and a new timestamp; unlike the store, nothing is reordered. */
  function HandleMessagesUpdate(st: AppState, messages: seq<Message>, now: int): (r: AppState)
    ensures |r.conversations| == |st.conversations| && Synced(r)
    ensures forall i :: 0 <= i < |st.conversations| ==>
      (st.conversations[i].id == st.activeId ==> r.conversations[i] == C.WithMessages(st.conversations[i], messages, now))
      && (st.conversations[i].id != st.activeId ==> r.conversations[i] == st.conversations[i])
    ensures r.activeId == st.activeId && r.local.activeKey == st.local.activeKey
  {
    Persist(st, C.MapWhere(st.conversations, st.activeId, c => C.WithMessages(c, messages, now)))
  }

  /** Store a new list in memory and in the blob. */
  function Persist(st: AppState, cs: seq<Conversation>): (r: AppState)
    ensures r.conversations == cs && Synced(r)
    ensures r.activeId == st.activeId && r.local.activeKey == st.local.activeKey
    ensures r.openaiKey == st.openaiKey && r.anthropicKey == st.anthropicKey
  {
    C.LoadSaveRoundTrip(cs);
    st.(conversations := cs, local := st.local.(blob := Some(C.SaveConversations(cs))))
  }

  /** `handleProviderChange`: the active conversation switches provider and
      resets its model to that provider's default. */
  function HandleProviderChange(st: AppState, provider: Provider, now: int): (r: AppState)
    ensures |r.conversations| == |st.conversations| && Synced(r)
    ensures forall i :: 0 <= i < |st.conversations| ==>
      var c := st.conversations[i];
      (c.id == st.activeId ==> r.conversations[i] == c.(provider := provider, model := DefaultModelFor(provider), updatedAt := now))
      && (c.id != st.activeId ==> r.conversations[i] == c)
    ensures r.activeId == st.activeId
  {
    Persist(st, C.MapWhere(st.conversations, st.activeId,
      (c: Conversation) => c.(provider := provider, model := DefaultModelFor(provider), updatedAt := now)))
  }

  /** A provider change keeps every conversation coherent. */
  lemma ProviderChangeKeepsCoherence(st: AppState, provider: Provider, now: int)
    requires AllCoherent(st.conversations)
    ensures AllCoherent(HandleProviderChange(st, provider, now).conversations)
  {
  }

  /** `handleModelChange`: no check that the model belongs to the provider. */
  function HandleModelChange(st: AppState, model: Model, now: int): (r: AppState)
    ensures |r.conversations| == |st.conversations| && Synced(r)
    ensures forall i :: 0 <= i < |st.conversations| ==>
      var c := st.conversations[i];
      (c.id == st.activeId ==> r.conversations[i] == c.(model := model, updatedAt := now))
      && (c.id != st.activeId ==> r.conversations[i] == c)
    ensures r.activeId == st.activeId
  {
    Persist(st, C.MapWhere(st.conversations, st.activeId, (c: Conversation) => c.(model := model, updatedAt := now)))
  }

  /** With unique ids, a model change keeps coherence exactly when the
      model belongs to the active conversation's provider. */
  lemma ModelChangeCoherence(st: AppState, model: Model, now: int)
    requires AllCoherent(st.conversations) && C.UniqueIds(st.conversations) && ActiveShown(st)
    ensures AllCoherent(HandleModelChange(st, model, now).conversations)
            <==> model in ModelsOf(ActiveConversation(st).value.provider)
  {
    var cs := st.conversations;
    var r := HandleModelChange(st, model, now).conversations;
    var i := C.IndexOf(cs, st.activeId).value;
    assert ActiveConversation(st).value == cs[i];
    assert r[i] == cs[i].(model := model, updatedAt := now);
    if model in ModelsOf(cs[i].provider) {
      forall j | 0 <= j < |cs| ensures ModelMatchesProvider(r[j]) {
        if cs[j].id == st.activeId {
          assert j == i;
        }
      }
    }
  }

  /** `handleTogglePin(id)`: flips the flag of the matching conversation. */
  function HandleTogglePin(st: AppState, id: string, now: int): (r: AppState)
    ensures |r.conversations| == |st.conversations| && Synced(r)
    ensures forall i :: 0 <= i < |st.conversations| ==>
      (st.conversations[i].id == id ==> IsPinned(r.conversations[i]) == !IsPinned(st.conversations[i]))
      && (st.conversations[i].id != id ==> r.conversations[i] == st.conversations[i])
    ensures forall i :: 0 <= i < |st.conversations| && st.conversations[i].id == id ==>
      r.conversations[i] == st.conversations[i].(pinned := Some(!IsPinned(st.conversations[i])), updatedAt := now)
    ensures r.activeId == st.activeId
  {
    Persist(st, C.MapWhere(st.conversations, id, c => C.FlipPin(c, now)))
  }

  /** Toggling the same conversation twice restores every pinned flag's meaning. */
  lemma TogglePinTwice(st: AppState, id: string, t1: int, t2: int)
    ensures var r := HandleTogglePin(HandleTogglePin(st, id, t1), id, t2);
      forall i :: 0 <= i < |st.conversations| ==> IsPinned(r.conversations[i]) == IsPinned(st.conversations[i])
  {
    var mid := HandleTogglePin(st, id, t1);
    assert forall i :: 0 <= i < |st.conversations| ==> mid.conversations[i].id == st.conversations[i].id;
  }
}

=== FILE: block_text.dfy ===
/** The editor-to-text serialiser of src/components/ChatInterface.tsx:
    `convertBlocksToText`, `blockToMarkdown` and `extractContentWithStyles`.
    The parsed JSON is a datatype; a property access on null, or a
    `repeat` with a negative count, throws, and the surrounding `catch`
    turns the whole result into "". */
module BlockText {
  import opened Wrappers
  import opened Text

  /** The style flags an inline item may carry (absent counts as false). */
  datatype Styles = Styles(bold: bool, italic: bool, code: bool, strike: bool)

  /** An element of a block's `content` array. `text` is "" when absent or
      falsy; `NullItem` is `null`, on which `item.text` throws. */
  datatype InlineItem = PlainString(s: string) | StyledText(text: string, styles: Styles) | NullItem

  /** A block's `content`: falsy, some non-array value, or an array. */
  datatype Content = NoContent | NotAList | Items(items: seq<InlineItem>)

  /** The block types with their own rendering; any other type renders as a paragraph. */
  datatype BlockKind = Heading | BulletListItem | NumberedListItem | CodeBlock | Paragraph | OtherKind(name: string)

  /** A top-level array element. `level` is 0 when `props.level` is absent
      or falsy, `language` is "" when absent. `NullBlock` is any falsy element. */
  datatype Block = NullBlock | Block(kind: BlockKind, level: int, language: string, content: Content)

  /** What `JSON.parse` makes of the editor content. */
  datatype Document = Unparseable | NotAnArray | Blocks(blocks: seq<Block>)

  /** `mark` when `on`, else nothing. */
  function Mark(on: bool, mark: string): string {
    if on then mark else ""
  }

  /** The marks opened before an item's text, outermost first. */
  function Open(st: Styles): string {
    Mark(st.strike, "~~") + (Mark(st.code, "`") + (Mark(st.italic, "*") + Mark(st.bold, "**")))
  }

  /** The marks closed after an item's text, innermost first. */
  function Close(st: Styles): string {
    Mark(st.bold, "**") + Mark(st.italic, "*") + Mark(st.code, "`") + Mark(st.strike, "~~")
  }

  /** `if (flag) formatted = mark + formatted + mark`. */
  function WrapIf(on: bool, mark: string, s: string): (r: string)
    ensures r == Mark(on, mark) + s + Mark(on, mark)
  {
    if on then mark + s + mark else assert "" + s + "" == s; s
  }

  /** Wrapping `a + t + b` in `x` on both sides. */
  lemma WrapAround(x: string, a: string, t: string, b: string)
    ensures x + (a + t + b) + x == (x + a) + t + (b + x)
  {
  }

  /** The successive wraps of `extractContentWithStyles`: bold, then
      italic, then code, then strike, each around the previous result, so
      bold ends up innermost and strike outermost. */
  function StyleText(text: string, st: Styles): (r: string)
    ensures r == Open(st) + text + Close(st)
  {
    var ob := Mark(st.bold, "**");
    var oi := Mark(st.italic, "*");
    var oc := Mark(st.code, "`");
    var os := Mark(st.strike, "~~");
    var f1 := WrapIf(st.bold, "**", text);
    var f2 := WrapIf(st.italic, "*", f1);
    WrapAround(oi, ob, text, ob);
    var f3 := WrapIf(st.code, "`", f2);
    WrapAround(oc, oi + ob, text, ob + oi);
    var f4 := WrapIf(st.strike, "~~", f3);
    WrapAround(os, oc + (oi + ob), text, ob + oi + oc);
    f4
  }

  /** One inline item: a string verbatim, otherwise its styled text. */
  function ItemText(item: InlineItem): (r: string)
    requires !item.NullItem?
    ensures item.PlainString? ==> r == item.s
    ensures item.StyledText? ==> r == Open(item.styles) + item.text + Close(item.styles)
  {
    match item
    case PlainString(s) => s
    case StyledText(text, st) => StyleText(text, st)
  }

  /** Some item is `null`, so `item.text` throws. */
  predicate HasNullItem(items: seq<InlineItem>) {
    exists i :: 0 <= i < |items| && items[i].NullItem?
  }

  /** The rendered items, before `.join('')`. */
  function ItemTexts(items: seq<InlineItem>): (r: seq<string>)
    requires !HasNullItem(items)
    ensures |r| == |items| && forall i :: 0 <= i < |items| ==> r[i] == ItemText(items[i])
  {
    seq(|items|, i requires 0 <= i < |items| => ItemText(items[i]))
  }

  /** `content.map(...).join('')`; None when an item throws. */
  function RenderItems(items: seq<InlineItem>): (r: Option<string>)
    ensures r.None? <==> HasNullItem(items)
  {
    if HasNullItem(items) then None else Some(Concat(ItemTexts(items)))
  }

  lemma RenderItemsSingle(item: InlineItem)
    requires !item.NullItem?
    ensures RenderItems([item]) == Some(ItemText(item))
  {
    assert !HasNullItem([item]);
    var t := ItemText(item);
    assert ItemTexts([item]) == [t];
    assert [t][1..] == [];
    assert Concat([t]) == t + Concat([]);
    assert t + "" == t;
  }

  /** Rendering an array of items is a concatenation homomorphism. */
  lemma RenderItemsAppend(a: seq<InlineItem>, b: seq<InlineItem>)
    requires !HasNullItem(a) && !HasNullItem(b)
    ensures !HasNullItem(a + b)
    ensures RenderItems(a + b) == Some(RenderItems(a).value + RenderItems(b).value)
  {
    assert !HasNullItem(a + b) by {
      forall i | 0 <= i < |a + b| ensures !(a + b)[i].NullItem? {
        if i < |a| { assert (a + b)[i] == a[i]; } else { assert (a + b)[i] == b[i - |a|]; }
      }
    }
    assert ItemTexts(a + b) == ItemTexts(a) + ItemTexts(b);
    ConcatAppend(ItemTexts(a), ItemTexts(b));
  }

  /** `extractContentWithStyles`: "" for falsy or non-array content. */
  function ExtractContentWithStyles(c: Content): (r: Option<string>)
    ensures !c.Items? ==> r == Some("")
    ensures c.Items? ==> (r.None? <==> HasNullItem(c.items))
  {
    match c
    case Items(items) => RenderItems(items)
    case _ => Some("")
  }

  /** `block.props?.level || 1`. */
  function HeadingLevel(level: int): (n: int)
    ensures level != 0 ==> n == level
    ensures level == 0 ==> n == 1
    ensures n >= 1 <==> level >= 0
  {
    if level == 0 then 1 else level
  }

  /** `blockToMarkdown`; None when it throws. */
  function BlockToMarkdown(b: Block): (r: Option<string>)
    ensures b.NullBlock? ==> r == Some("")
    ensures b.Block? ==> (r.None? <==> HasNullItem(ContentItems(b.content)) || (b.kind == Heading && b.level < 0))
    ensures b.Block? && r.Some? ==>
      var t := ExtractContentWithStyles(b.content).value;
      match b.kind
      case Heading => r.value == Repeat('#', HeadingLevel(b.level)) + " " + t && r.value[..HeadingLevel(b.level)] == Repeat('#', HeadingLevel(b.level))
      case BulletListItem => r.value == "- " + t
      case NumberedListItem => r.value == "1. " + t
      case CodeBlock => r.value == "```" + b.language + "\n" + t + "\n```"
      case _ => r.value == t
  {
    match b
    case NullBlock => Some("")
    case Block(kind, level, language, content) =>
      match ExtractContentWithStyles(content)
      case None => None
      case Some(t) =>
        match kind
        case Heading =>
          var n := HeadingLevel(level);
          if n < 0 then None
          else
            var hashes := Repeat('#', n);
            assert (hashes + " " + t)[..n] == hashes;
            Some(hashes + " " + t)
        case BulletListItem => Some("- " + t)
        case NumberedListItem => Some("1. " + t)
        case CodeBlock => Some("```" + language + "\n" + t + "\n```")
        case _ => Some(t)
  }

  /** The items of an array content, or none. */
  function ContentItems(c: Content): seq<InlineItem> {
    if c.Items? then c.items else []
  }

  predicate Throws(b: Block) {
    BlockToMarkdown(b).None?
  }

  /** Some block of the list throws. */
  predicate AnyThrows(bs: seq<Block>) {
    exists i :: 0 <= i < |bs| && Throws(bs[i])
  }

  /** `blocks.map(blockToMarkdown)`; None when some block throws. */
  function RenderBlocks(bs: seq<Block>): (r: Option<seq<string>>)
    ensures r.None? <==> AnyThrows(bs)
    ensures r.Some? ==> |r.value| == |bs| && forall i :: 0 <= i < |bs| ==> BlockToMarkdown(bs[i]) == Some(r.value[i])
  {
    if AnyThrows(bs) then None
    else Some(seq(|bs|, i requires 0 <= i < |bs| => BlockToMarkdown(bs[i]).value))
  }

  lemma RenderBlocksAppend(a: seq<Block>, b: seq<Block>)
    requires !AnyThrows(a) && !AnyThrows(b)
    ensures !AnyThrows(a + b)
    ensures RenderBlocks(a + b) == Some(RenderBlocks(a).value + RenderBlocks(b).value)
  {
    assert !AnyThrows(a + b) by {
      forall i | 0 <= i < |a + b| ensures !Throws((a + b)[i]) {
        if i < |a| { assert (a + b)[i] == a[i]; } else { assert (a + b)[i] == b[i - |a|]; }
      }
    }
    var r, ra, rb := RenderBlocks(a + b).value, RenderBlocks(a).value, RenderBlocks(b).value;
    assert r == ra + rb by {
      forall i | 0 <= i < |r| ensures r[i] == (ra + rb)[i] {
        if i < |a| { assert (a + b)[i] == a[i]; } else { assert (a + b)[i] == b[i - |a|]; }
      }
    }
  }

  /** `.filter((text) => text)`: the non-empty renderings, in order. */
  function NonEmpty(rs: seq<string>): (r: seq<string>)
    ensures |r| <= |rs|
    ensures forall i :: 0 <= i < |r| ==> r[i] != ""
    ensures forall s :: s in r <==> s in rs && s != ""
  {
    if |rs| == 0 then []
    else if rs[0] == "" then NonEmpty(rs[1..])
    else [rs[0]] + NonEmpty(rs[1..])
  }

  lemma {:induction false} NonEmptyAppend(a: seq<string>, b: seq<string>)
    ensures NonEmpty(a + b) == NonEmpty(a) + NonEmpty(b)
  {
    if |a| == 0 {
      assert a + b == b;
    } else {
      assert (a + b)[1..] == a[1..] + b;
      NonEmptyAppend(a[1..], b);
    }
  }

  /** `convertBlocksToText`: "" for anything that fails to parse or to map. */
  function ConvertBlocksToText(doc: Document): (r: string)
    ensures !doc.Blocks? ==> r == ""
    ensures doc.Blocks? && AnyThrows(doc.blocks) ==> r == ""
  {
    if doc.Blocks? && !AnyThrows(doc.blocks) then Join(NonEmpty(RenderBlocks(doc.blocks).value), "\n")
    else ""
  }

  /** Converting a concatenation of well-formed block lists joins the two
      results with one newline, or returns the other when one side is empty. */
  lemma ConvertAppend(a: seq<Block>, b: seq<Block>)
    requires !AnyThrows(a) && !AnyThrows(b)
    ensures !AnyThrows(a + b)
    ensures var ta := ConvertBlocksToText(Blocks(a));
      var tb := ConvertBlocksToText(Blocks(b));
      ConvertBlocksToText(Blocks(a + b)) == if ta == "" then tb else if tb == "" then ta else ta + "\n" + tb
  {
    var ra := RenderBlocks(a).value;
    var rb := RenderBlocks(b).value;
    RenderBlocksAppend(a, b);
    NonEmptyAppend(ra, rb);
    JoinOfNonEmpty(NonEmpty(ra), NonEmpty(rb));
  }

  /** The join of non-empty parts is empty iff there are none, and two such
      joins concatenate with one separator. */
  lemma JoinOfNonEmpty(na: seq<string>, nb: seq<string>)
    requires forall i :: 0 <= i < |na| ==> na[i] != ""
    requires forall i :: 0 <= i < |nb| ==> nb[i] != ""
    ensures var ta := Join(na, "\n");
      var tb := Join(nb, "\n");
      Join(na + nb, "\n") == if ta == "" then tb else if tb == "" then ta else ta + "\n" + tb
  {
    if |na| == 0 {
      assert na + nb == nb;
    } else if |nb| == 0 {
      assert na + nb == na;
      JoinNonEmpty(na, "\n");
    } else {
      JoinAppend(na, nb, "\n");
      JoinNonEmpty(na, "\n");
      JoinNonEmpty(nb, "\n");
    }
  }

  /** A join of non-empty parts is non-empty. */
  lemma JoinNonEmpty(parts: seq<string>, sep: string)
    requires |parts| > 0 && forall i :: 0 <= i < |parts| ==> parts[i] != ""
    ensures Join(parts, sep) != ""
  {
    if |parts| > 1 {
      assert Join(parts, sep) == parts[0] + sep + Join(parts[1..], sep);
      assert |Join(parts, sep)| >= |parts[0]|;
    }
  }

  /** Null blocks and blocks that render empty leave no blank line behind. */
  lemma EmptyRenderingsVanish(a: seq<Block>, b: seq<Block>)
    requires !AnyThrows(a) && !AnyThrows(b)
    ensures ConvertBlocksToText(Blocks(a + [NullBlock] + b)) == ConvertBlocksToText(Blocks(a + b))
  {
    SingleBlock(NullBlock);
    ConvertAppend(a, [NullBlock]);
    ConvertAppend(a + [NullBlock], b);
    ConvertAppend(a, b);
  }

  /** A missing or zero heading level renders like level 1; a negative one
      throws and empties the whole conversion. */
  lemma HeadingLevels(content: Content, rest: seq<Block>)
    requires !HasNullItem(ContentItems(content))
    ensures BlockToMarkdown(Block(Heading, 0, "", content)) == BlockToMarkdown(Block(Heading, 1, "", content))
    ensures BlockToMarkdown(Block(Heading, 0, "", content)).value[..2] == "# "
    ensures ConvertBlocksToText(Blocks([Block(Heading, -1, "", content)] + rest)) == ""
  {
    var b := Block(Heading, -1, "", content);
    assert ([b] + rest)[0] == b;
  }

  /** A level-2 heading over a plain string. */
  lemma HeadingExample()
    ensures BlockToMarkdown(Block(Heading, 2, "", Items([PlainString("Plan")]))) == Some("## Plan")
  {
    RenderItemsSingle(PlainString("Plan"));
    assert Repeat('#', 2) == "##";
    assert "##" + " " + "Plan" == "## Plan";
  }

  /** Bold and italic together give three stars on each side, bold inside. */
  lemma BoldItalicExample()
    ensures BlockToMarkdown(Block(Paragraph, 0, "", Items([StyledText("go", Styles(true, true, false, false))]))) == Some("***go***")
  {
    RenderItemsSingle(StyledText("go", Styles(true, true, false, false)));
    assert Open(Styles(true, true, false, false)) == "***";
    assert Close(Styles(true, true, false, false)) == "***";
    assert "***" + "go" + "***" == "***go***";
  }

  /** A code block with its language after the opening fence. */
  lemma CodeBlockExample()
    ensures BlockToMarkdown(Block(CodeBlock, 0, "js", Items([PlainString("x")]))) == Some("```js\nx\n```")
  {
    RenderItemsSingle(PlainString("x"));
    assert "```" + "js" + "\n" + "x" + "\n```" == "```js\nx\n```";
  }

  /** A worked example: the three blocks above with a null block among
      them, which leaves no blank line. */
  lemma ConvertExample()
    ensures ConvertBlocksToText(Blocks([
        Block(Heading, 2, "", Items([PlainString("Plan")])),
        Block(Paragraph, 0, "", Items([StyledText("go", Styles(true, true, false, false))])),
        NullBlock,
        Block(CodeBlock, 0, "js", Items([PlainString("x")]))]))
      == "## Plan" + "\n" + "***go***" + "\n" + "```js\nx\n```"
  {
    var b0 := Block(Heading, 2, "", Items([PlainString("Plan")]));
    var b1 := Block(Paragraph, 0, "", Items([StyledText("go", Styles(true, true, false, false))]));
    var b3 := Block(CodeBlock, 0, "js", Items([PlainString("x")]));
    HeadingExample();
    BoldItalicExample();
    CodeBlockExample();
    SingleBlock(b0);
    SingleBlock(b1);
    SingleBlock(b3);
    ConvertAppend([b0], [b1]);
    EmptyRenderingsVanish([b0] + [b1], [b3]);
    ConvertAppend([b0] + [b1], [b3]);
    assert [b0] + [b1] + [NullBlock] + [b3] == [b0, b1, NullBlock, b3];
  }

  /** A one-block document converts to that block's rendering. */
  lemma SingleBlock(b: Block)
    requires !Throws(b)
    ensures !AnyThrows([b])
    ensures ConvertBlocksToText(Blocks([b])) == BlockToMarkdown(b).value
  {
    var t := BlockToMarkdown(b).value;
    assert !AnyThrows([b]);
    var r := RenderBlocks([b]).value;
    assert |r| == 1 && r[0] == t;
    assert r == [t];
    if t == "" {
      assert NonEmpty([t]) == NonEmpty([]);
    } else {
      assert NonEmpty([t]) == [t] + NonEmpty([]);
    }
  }
}

=== FILE: callbacks.dfy ===
/** The callback protocol shared by the streaming services: zero or more
    chunks, then exactly one terminal call. */
module Callbacks {
  /** One call a service makes on its caller. */
  datatype Callback = Chunk(text: string) | Complete | Error(message: string)

  /** What a `catch` receives: an `Error` object with its message, or any other value. */
  datatype Thrown = ErrorObject(message: string) | NonErrorValue

  /** How an SDK's async iterator ends: exhausted, or throwing. A failure
      before the first event (bad key, network) is a failure with no events. */
  datatype StreamEnd = Finished | Failed(thrown: Thrown)

  /** An SDK stream as the services see it: the events, then how it ended. */
  datatype SdkStream<E> = SdkStream(events: seq<E>, end: StreamEnd)

  /** The terminal call for a stream end, given the text used when the
      thrown value is not an `Error`. */
  function Terminal(end: StreamEnd, fallback: string): (c: Callback)
    ensures !c.Chunk?
    ensures end.Finished? <==> c.Complete?
    ensures end.Failed? && end.thrown.ErrorObject? ==> c == Error(end.thrown.message)
    ensures end.Failed? && end.thrown.NonErrorValue? ==> c == Error(fallback)
  {
    match end
    case Finished => Complete
    case Failed(ErrorObject(m)) => Error(m)
    case Failed(NonErrorValue) => Error(fallback)
  }

  /** Chunks only, then one `Complete` or `Error` as the last call. */
  predicate WellFormed(trace: seq<Callback>) {
    && |trace| > 0
    && !trace[|trace| - 1].Chunk?
    && forall i :: 0 <= i < |trace| - 1 ==> trace[i].Chunk?
  }

  /** The chunks delivered, in order. */
  function Chunks(trace: seq<Callback>): (r: seq<string>)
    ensures |r| <= |trace|
  {
    if |trace| == 0 then []
    else if trace[0].Chunk? then [trace[0].text] + Chunks(trace[1..])
    else Chunks(trace[1..])
  }

  /** One `Chunk` call per text, in order. */
  function ChunkCalls(texts: seq<string>): (r: seq<Callback>)
    ensures |r| == |texts|
    ensures forall i :: 0 <= i < |texts| ==> r[i] == Chunk(texts[i])
  {
    seq(|texts|, i requires 0 <= i < |texts| => Chunk(texts[i]))
  }

  /** The chunk calls of a trace give back exactly their texts. */
  lemma {:induction false} ChunksOfChunkCalls(texts: seq<string>)
    ensures Chunks(ChunkCalls(texts)) == texts
  {
    if |texts| > 0 {
      assert ChunkCalls(texts)[1..] == ChunkCalls(texts[1..]);
      ChunksOfChunkCalls(texts[1..]);
    }
  }

  lemma {:induction false} ChunksAppend(a: seq<Callback>, b: seq<Callback>)
    ensures Chunks(a + b) == Chunks(a) + Chunks(b)
  {
    if |a| == 0 {
      assert a + b == b;
    } else {
      assert (a + b)[1..] == a[1..] + b;
      ChunksAppend(a[1..], b);
    }
  }

  /** A trace built from chunk calls and one terminal call is well formed,
      and its chunks are exactly those texts. */
  lemma ChunksThenTerminal(texts: seq<string>, last: Callback)
    requires !last.Chunk?
    ensures WellFormed(ChunkCalls(texts) + [last])
    ensures Chunks(ChunkCalls(texts) + [last]) == texts
  {
    ChunksAppend(ChunkCalls(texts), [last]);
    ChunksOfChunkCalls(texts);
    assert Chunks([last]) == [] by { assert [last][1..] == []; }
  }

  /** A well-formed trace is its chunks followed by its terminal call. */
  lemma {:induction false} WellFormedShape(trace: seq<Callback>)
    requires WellFormed(trace)
    ensures trace == ChunkCalls(Chunks(trace)) + [trace[|trace| - 1]]
  {
    var n := |trace| - 1;
    var body := trace[..n];
    assert trace == body + [trace[n]];
    ChunksAppend(body, [trace[n]]);
    assert Chunks([trace[n]]) == [] by { assert [trace[n]][1..] == []; }
    AllChunksRoundTrip(body);
  }

  /** A sequence of chunk calls is the chunk calls of its texts. */
  lemma {:induction false} AllChunksRoundTrip(body: seq<Callback>)
    requires forall i :: 0 <= i < |body| ==> body[i].Chunk?
    ensures ChunkCalls(Chunks(body)) == body
  {
    if |body| > 0 {
      AllChunksRoundTrip(body[1..]);
      assert ChunkCalls(Chunks(body)) == [body[0]] + ChunkCalls(Chunks(body[1..]));
    }
  }
}

=== FILE: chat_store.dfy ===
/** The conversation repository of the current client (src/store/chatStore.ts):
    transitions on the in-memory list, the active id, the API keys and the
    persisted store. Clock readings and fresh ids are parameters; every
    awaited write is taken to succeed. */
module ChatStore {
  import opened Wrappers
  import opened ChatTypes
  import C = Conversations
  import S = Storage

  datatype ApiKeys = ApiKeys(openai: string, anthropic: string)

  /** The store's state; `savedKeys` mirrors the two `<provider>_api_key`
      localStorage entries. */
  datatype State = State(
    conversations: seq<Conversation>,
    activeId: Option<string>,
    isLoading: bool,
    apiKeys: ApiKeys,
    savedKeys: ApiKeys,
    store: S.Store)

  /** The repository invariant: the active id names a listed conversation. */
  predicate ActiveExists(st: State) {
    st.activeId.Some? && C.HasConversation(st.conversations, st.activeId.value)
  }

  /** The parts of the state that the conversation operations never touch:
      the loading flag, both key pairs and the legacy localStorage entry. */
  predicate KeepsSettings(st: State, r: State) {
    && r.isLoading == st.isLoading && r.apiKeys == st.apiKeys && r.savedKeys == st.savedKeys
    && r.store.legacy == st.store.legacy
  }

  /** `conversations.find(c => c.id === activeId)`. */
  function ActiveConversation(st: State): (r: Option<Conversation>)
    ensures r.Some? ==> r.value in st.conversations && Some(r.value.id) == st.activeId
    ensures r.None? ==> !ActiveExists(st)
    ensures r.Some? ==> exists i :: 0 <= i < |st.conversations| && st.conversations[i] == r.value
                                   && forall j :: 0 <= j < i ==> Some(st.conversations[j].id) != st.activeId
  {
    match st.activeId
    case None => None
    case Some(a) =>
      match C.IndexOf(st.conversations, a)
      case None => None
      case Some(i) => Some(st.conversations[i])
  }

  /** `createConversation(provider?, model?)`: missing settings are taken
      field by field from the active conversation if there is one, then
      from the defaults; the new conversation is prepended and activated. */
  function CreateConversation(st: State, provider: Option<Provider>, model: Option<Model>, id: string, now: int): (r: State)
    ensures |r.conversations| == |st.conversations| + 1 && r.conversations[1..] == st.conversations
    ensures var c := r.conversations[0];
      && c.id == id && c.messages == [] && c.title == C.NewChatTitle && c.createdAt == now && c.updatedAt == now
      && (provider.Some? ==> c.provider == provider.value)
      && (provider.None? && ActiveConversation(st).Some? ==> c.provider == ActiveConversation(st).value.provider)
      && (provider.None? && ActiveConversation(st).None? ==> c.provider == DefaultProvider)
      && (model.Some? ==> c.model == model.value)
      && (model.None? && ActiveConversation(st).Some? ==> c.model == ActiveConversation(st).value.model)
      && (model.None? && ActiveConversation(st).None? ==> c.model == DefaultModel)
    ensures r.activeId == Some(id) && r.store.activeKey == Some(id)
    ensures r.store.db == S.SaveConversation(st.store.db, r.conversations[0])
    ensures KeepsSettings(st, r)
  {
    var (p, m) :=
      if provider.Some? && model.Some? then (provider, model)
      else match ActiveConversation(st)
        case None => (provider, model)
        case Some(a) => (Some(provider.GetOr(a.provider)), Some(model.GetOr(a.model)));
    var c := C.CreateNewConversation(id, now, p, m);
    st.(conversations := [c] + st.conversations,
        activeId := Some(id),
        store := st.store.(activeKey := Some(id), db := S.SaveConversation(st.store.db, c)))
  }

  /** A created conversation is active and listed. */
  lemma CreateEstablishesActive(st: State, provider: Option<Provider>, model: Option<Model>, id: string, now: int)
    ensures ActiveExists(CreateConversation(st, provider, model, id, now))
  {
    var r := CreateConversation(st, provider, model, id, now);
    assert r.conversations[0].id == id;
  }

  /** An explicit provider with an inherited model can pair OpenAI with a Claude model. */
  lemma CreateCanMixProviders()
    ensures
      var a := Conversation("a", "New Chat", [], Anthropic, Claude3Opus, 0, 0, None);
      var st := State([a], Some("a"), false, ApiKeys("", ""), ApiKeys("", ""), S.Store(map[], None, Some("a")));
      var c := CreateConversation(st, Some(OpenAI), None, "b", 1).conversations[0];
      c.provider == OpenAI && c.model == Claude3Opus && !ModelMatchesProvider(c)
  {
    var a := Conversation("a", "New Chat", [], Anthropic, Claude3Opus, 0, 0, None);
    var st := State([a], Some("a"), false, ApiKeys("", ""), ApiKeys("", ""), S.Store(map[], None, Some("a")));
    assert C.IndexOf(st.conversations, "a") == Some(0);
  }

  /** The state between the in-memory removal and the awaited table delete:
      the list no longer holds `id` but the active id has not moved yet. */
  function DeleteSuspended(st: State, id: string): (r: State)
    ensures r.conversations == C.RemoveId(st.conversations, id) && r.activeId == st.activeId
  {
    st.(conversations := C.RemoveId(st.conversations, id))
  }

  /** `deleteConversation(id)` once its awaits have completed. */
  function DeleteConversation(st: State, id: string, freshId: string, now: int): (r: State)
    ensures var rest := C.RemoveId(st.conversations, id);
      && (st.activeId != Some(id) ==> r.conversations == rest && r.activeId == st.activeId)
      && (st.activeId == Some(id) && |rest| > 0 ==>
            r.conversations == rest && r.activeId == Some(rest[0].id) && r.store.activeKey == r.activeId)
      && (st.activeId == Some(id) && |rest| == 0 ==>
            && r.conversations == [C.CreateNewConversation(freshId, now, None, None)]
            && r.activeId == Some(freshId) && r.store.activeKey == r.activeId)
    ensures freshId != id ==> id !in r.store.db
    ensures forall k :: k in st.store.db && k != id && k != freshId ==> k in r.store.db && r.store.db[k] == st.store.db[k]
    ensures KeepsSettings(st, r)
    ensures st.activeId != Some(id) ==> r.store.activeKey == st.store.activeKey
  {
    var rest := C.RemoveId(st.conversations, id);
    var st1 := st.(conversations := rest, store := st.store.(db := S.DeleteConversation(st.store.db, id)));
    if st.activeId == Some(id) then
      if |rest| > 0 then st1.(activeId := Some(rest[0].id), store := S.SetActiveConversationId(st1.store, rest[0].id))
      else CreateConversation(st1, None, None, freshId, now)
    else st1
  }

  /** Deleting the active conversation exposes, across the await, an active
      id that names no listed conversation. */
  lemma DeleteSuspendedDangling(st: State, id: string)
    requires st.activeId == Some(id)
    ensures var mid := DeleteSuspended(st, id);
      mid.activeId == Some(id) && !C.HasConversation(mid.conversations, id)
  {
  }

  /** Once the delete has completed, the active id names a listed conversation again. */
  lemma DeletePreservesActive(st: State, id: string, freshId: string, now: int)
    requires ActiveExists(st)
    ensures ActiveExists(DeleteConversation(st, id, freshId, now))
  {
    var rest := C.RemoveId(st.conversations, id);
    var r := DeleteConversation(st, id, freshId, now);
    if st.activeId != Some(id) {
      var i :| 0 <= i < |st.conversations| && st.conversations[i].id == st.activeId.value;
      assert st.conversations[i] in rest;
    } else if |rest| > 0 {
      assert rest[0].id == r.activeId.value;
    } else {
      assert r.conversations[0].id == freshId;
    }
  }

  /** Deleting the only conversation, which is active, leaves exactly one
      new empty conversation, and it is active. */
  lemma DeleteOnlyConversation(st: State, freshId: string, now: int)
    requires |st.conversations| == 1 && st.activeId == Some(st.conversations[0].id)
    ensures var r := DeleteConversation(st, st.conversations[0].id, freshId, now);
      && |r.conversations| == 1 && r.conversations[0].messages == []
      && r.conversations[0].title == "New Chat"
      && r.activeId == Some(r.conversations[0].id) && r.conversations[0].id == freshId
  {
    var id := st.conversations[0].id;
    assert C.RemoveId(st.conversations[1..], id) == [];
  }

  /** `selectConversation(id)`: no check that `id` is listed. */
  function SelectConversation(st: State, id: string): (r: State)
    ensures r.activeId == Some(id) && r.store.activeKey == Some(id)
    ensures r.conversations == st.conversations && r.store.db == st.store.db
    ensures C.HasConversation(st.conversations, id) <==> ActiveExists(r)
  {
    st.(activeId := Some(id), store := S.SetActiveConversationId(st.store, id))
  }

  /** `updateMessages(id, messages)`: a no-op on an unknown id; otherwise the
      updated conversation moves to the front and the rest keep their order. */
  function UpdateMessages(st: State, id: string, messages: seq<Message>, now: int): (r: State)
    ensures C.IndexOf(st.conversations, id).None? ==> r == st
    ensures C.IndexOf(st.conversations, id).Some? ==>
      var i := C.IndexOf(st.conversations, id).value;
      var u := C.WithMessages(st.conversations[i], messages, now);
      && r.conversations == [u] + C.RemoveId(st.conversations, id)
      && r.activeId == st.activeId
      && r.store.db == S.SaveConversation(st.store.db, u)
    ensures KeepsSettings(st, r) && r.store.activeKey == st.store.activeKey
  {
    match C.IndexOf(st.conversations, id)
    case None => st
    case Some(i) =>
      var u := C.WithMessages(st.conversations[i], messages, now);
      C.RemoveIdReplacedMatch(st.conversations, i, u, id);
      st.(conversations := [u] + C.RemoveId(st.conversations[i := u], id),
          store := st.store.(db := S.SaveConversation(st.store.db, u)))
  }

  /** With unique ids, the update is a move to the front: same length, the
      others in their old relative order. */
  lemma UpdateMessagesMovesToFront(st: State, id: string, messages: seq<Message>, now: int)
    requires C.UniqueIds(st.conversations)
    requires C.IndexOf(st.conversations, id).Some?
    ensures var i := C.IndexOf(st.conversations, id).value;
      var r := UpdateMessages(st, id, messages, now);
      && |r.conversations| == |st.conversations|
      && r.conversations[0] == C.WithMessages(st.conversations[i], messages, now)
      && r.conversations[1..] == st.conversations[..i] + st.conversations[i + 1..]
  {
    var cs := st.conversations;
    var i := C.IndexOf(cs, id).value;
    C.RemoveIdAtUnique(cs, i, id);
  }

  /** Updating messages keeps the active conversation listed. */
  lemma UpdateMessagesPreservesActive(st: State, id: string, messages: seq<Message>, now: int)
    requires ActiveExists(st)
    ensures ActiveExists(UpdateMessages(st, id, messages, now))
  {
    var cs := st.conversations;
    var r := UpdateMessages(st, id, messages, now);
    if C.IndexOf(cs, id).Some? {
      var a := st.activeId.value;
      var j :| 0 <= j < |cs| && cs[j].id == a;
      if a == id {
        assert r.conversations[0].id == a;
      } else {
        assert cs[j] in C.RemoveId(cs, id);
        assert cs[j] in r.conversations;
      }
    }
  }

  /** The fields `updateConversationSettings` may be given: any part of a
      `Conversation` (`Partial<Conversation>`), `None` where absent. */
  datatype SettingsPatch = SettingsPatch(
    id: Option<string>,
    title: Option<string>,
    messages: Option<seq<Message>>,
    provider: Option<Provider>,
    model: Option<Model>,
    createdAt: Option<int>,
    updatedAt: Option<int>,
    pinned: Option<bool>)

  /** A patch of the provider alone. */
  function ProviderPatch(p: Provider): SettingsPatch {
    SettingsPatch(None, None, None, Some(p), None, None, None, None)
  }

  /** `updateConversationSettings(id, updates)`: the spread merges every
      given field in place, then the timestamp overrides any given one; no
      reorder, and no model reset on a provider change. */
  function UpdateConversationSettings(st: State, id: string, patch: SettingsPatch, now: int): (r: State)
    ensures C.IndexOf(st.conversations, id).None? ==> r == st
    ensures |r.conversations| == |st.conversations|
    ensures C.IndexOf(st.conversations, id).Some? ==>
      var i := C.IndexOf(st.conversations, id).value;
      var prev := st.conversations[i];
      var c := r.conversations[i];
      && (forall j :: 0 <= j < |st.conversations| && j != i ==> r.conversations[j] == st.conversations[j])
      && c.id == patch.id.GetOr(prev.id)
      && c.title == patch.title.GetOr(prev.title)
      && c.messages == patch.messages.GetOr(prev.messages)
      && c.provider == patch.provider.GetOr(prev.provider)
      && c.model == patch.model.GetOr(prev.model)
      && c.createdAt == patch.createdAt.GetOr(prev.createdAt)
      && c.updatedAt == now
      && (patch.pinned.Some? ==> c.pinned == patch.pinned)
      && (patch.pinned.None? ==> c.pinned == prev.pinned)
      && r.activeId == st.activeId
      && r.store.db == S.SaveConversation(st.store.db, c)
    ensures KeepsSettings(st, r) && r.store.activeKey == st.store.activeKey
  {
    match C.IndexOf(st.conversations, id)
    case None => st
    case Some(i) =>
      var c0 := st.conversations[i];
      var c := c0.(id := patch.id.GetOr(c0.id),
                   title := patch.title.GetOr(c0.title),
                   messages := patch.messages.GetOr(c0.messages),
                   provider := patch.provider.GetOr(c0.provider),
                   model := patch.model.GetOr(c0.model),
                   createdAt := patch.createdAt.GetOr(c0.createdAt),
                   pinned := if patch.pinned.Some? then patch.pinned else c0.pinned,
                   updatedAt := now);
      st.(conversations := st.conversations[i := c], store := st.store.(db := S.SaveConversation(st.store.db, c)))
  }

  /** A patch that renames the id keeps the record under the old key as
      well: the table then holds both ids, while the list holds only the new one. */
  lemma IdPatchLeavesOldRecord(st: State, id: string, newId: string, patch: SettingsPatch, now: int)
    requires C.IndexOf(st.conversations, id).Some? && id in st.store.db
    requires patch.id == Some(newId) && newId != id
    ensures var r := UpdateConversationSettings(st, id, patch, now);
      && r.store.db[id] == st.store.db[id]
      && newId in r.store.db
      && r.conversations[C.IndexOf(st.conversations, id).value].id == newId
  {
  }

  /** Switching only the provider keeps the old model, so a coherent
      conversation can become incoherent. */
  lemma SettingsProviderChangeKeepsModel(st: State, id: string, now: int)
    requires C.IndexOf(st.conversations, id).Some?
    requires var c := st.conversations[C.IndexOf(st.conversations, id).value];
      c.provider == OpenAI && ModelMatchesProvider(c)
    ensures var i := C.IndexOf(st.conversations, id).value;
      var c := UpdateConversationSettings(st, id, ProviderPatch(Anthropic), now).conversations[i];
      c.model == st.conversations[i].model && !ModelMatchesProvider(c)
  {
  }

  /** `togglePin(id)`: flips `pinned` (absent counts as false) and the timestamp, in place. */
  function TogglePin(st: State, id: string, now: int): (r: State)
    ensures C.IndexOf(st.conversations, id).None? ==> r == st
    ensures |r.conversations| == |st.conversations|
    ensures C.IndexOf(st.conversations, id).Some? ==>
      var i := C.IndexOf(st.conversations, id).value;
      var c := r.conversations[i];
      && (forall j :: 0 <= j < |st.conversations| && j != i ==> r.conversations[j] == st.conversations[j])
      && IsPinned(c) == !IsPinned(st.conversations[i]) && c.pinned.Some?
      && c == st.conversations[i].(pinned := c.pinned, updatedAt := now)
      && r.activeId == st.activeId
      && r.store.db == S.SaveConversation(st.store.db, c)
    ensures KeepsSettings(st, r) && r.store.activeKey == st.store.activeKey
  {
    match C.IndexOf(st.conversations, id)
    case None => st
    case Some(i) =>
      var c0 := st.conversations[i];
      var c := C.FlipPin(c0, now);
      st.(conversations := st.conversations[i := c], store := st.store.(db := S.SaveConversation(st.store.db, c)))
  }

  /** Toggling twice restores whether the conversation is pinned. */
  lemma TogglePinTwice(st: State, id: string, t1: int, t2: int)
    requires C.IndexOf(st.conversations, id).Some?
    ensures var i := C.IndexOf(st.conversations, id).value;
      var r := TogglePin(TogglePin(st, id, t1), id, t2);
      IsPinned(r.conversations[i]) == IsPinned(st.conversations[i])
  {
    var i := C.IndexOf(st.conversations, id).value;
    var mid := TogglePin(st, id, t1);
    assert mid.conversations[i].id == id;
    assert C.IndexOf(mid.conversations, id) == Some(i) by {
      assert forall j :: 0 <= j < i ==> mid.conversations[j] == st.conversations[j];
    }
  }

  /** `setApiKey(provider, key)`: memory and localStorage for that provider only. */
  function SetApiKey(st: State, provider: Provider, key: string): (r: State)
    ensures provider == OpenAI ==> r.apiKeys == st.apiKeys.(openai := key) && r.savedKeys == st.savedKeys.(openai := key)
    ensures provider == Anthropic ==> r.apiKeys == st.apiKeys.(anthropic := key) && r.savedKeys == st.savedKeys.(anthropic := key)
    ensures r.conversations == st.conversations && r.activeId == st.activeId && r.store == st.store
  {
    match provider
    case OpenAI => st.(apiKeys := st.apiKeys.(openai := key), savedKeys := st.savedKeys.(openai := key))
    case Anthropic => st.(apiKeys := st.apiKeys.(anthropic := key), savedKeys := st.savedKeys.(anthropic := key))
  }

  /** Step 3 of `init`: create, keep the stored active id, or activate and
      persist the first listed conversation. A falsy (empty) stored id is ignored. */
  function ResolveActive(st: State, listed: seq<Conversation>, freshId: string, now: int): (r: State)
    ensures ActiveExists(r) && !r.isLoading
    ensures |listed| == 0 ==>
      r.conversations == [C.CreateNewConversation(freshId, now, None, None)] && r.activeId == Some(freshId)
    ensures |listed| > 0 ==> r.conversations == listed
    ensures |listed| > 0 && st.store.activeKey.Some? && st.store.activeKey.value != ""
            && C.HasConversation(listed, st.store.activeKey.value) ==>
      r.activeId == st.store.activeKey && r.store == st.store
    ensures |listed| > 0 && !(st.store.activeKey.Some? && st.store.activeKey.value != ""
            && C.HasConversation(listed, st.store.activeKey.value)) ==>
      r.activeId == Some(listed[0].id) && r.store.activeKey == r.activeId
    ensures |listed| == 0 ==> r.store.db == S.SaveConversation(st.store.db, r.conversations[0])
    ensures |listed| > 0 ==> r.store.db == st.store.db
  {
    var key := st.store.activeKey;
    var st1 := st.(conversations := listed, isLoading := false);
    if |listed| == 0 then
      var r := CreateConversation(st1, None, None, freshId, now);
      CreateEstablishesActive(st1, None, None, freshId, now);
      r
    else if key.Some? && key.value != "" && C.IndexOf(listed, key.value).Some? then
      st1.(activeId := key)
    else
      st1.(activeId := Some(listed[0].id), store := S.SetActiveConversationId(st1.store, listed[0].id))
  }

  /** `init`: migrate, list newest first, then resolve the active id. */
  method Init(st: State, migrationWriteFails: bool, freshId: string, now: int) returns (r: State)
    requires S.KeyedById(st.store.db)
    ensures ActiveExists(r) && !r.isLoading
    ensures var db := S.MigrateFromLocalStorage(st.store, migrationWriteFails).db;
      && (|db| == 0 ==> |r.conversations| == 1 && r.conversations[0] == C.CreateNewConversation(freshId, now, None, None))
      && (|db| > 0 ==> |r.conversations| == |db| && S.SortedNewestFirst(r.conversations)
                       && (forall i :: 0 <= i < |r.conversations| ==> r.conversations[i].id in db && db[r.conversations[i].id] == r.conversations[i])
                       && C.UniqueIds(r.conversations)
                       && (forall k :: k in db ==> C.HasConversation(r.conversations, k)))
    ensures var db := S.MigrateFromLocalStorage(st.store, migrationWriteFails).db;
      && (|db| == 0 ==> r.store.db == map[freshId := r.conversations[0]])
      && (|db| > 0 ==> r.store.db == db)
    ensures var db := S.MigrateFromLocalStorage(st.store, migrationWriteFails).db;
      var key := st.store.activeKey;
      && (|db| == 0 ==> r.activeId == Some(freshId))
      && (|db| > 0 && key.Some? && key.value != "" && key.value in db ==> r.activeId == key)
      && (|db| > 0 && !(key.Some? && key.value != "" && key.value in db) ==>
            r.activeId == Some(r.conversations[0].id) && r.store.activeKey == r.activeId)
  {
    var migrated := S.MigrateFromLocalStorage(st.store, migrationWriteFails);
    var listed := S.GetConversations(migrated.db);
    var key := st.store.activeKey;
    if key.Some? {
      assert C.HasConversation(listed, key.value) <==> key.value in migrated.db;
    }
    r := ResolveActive(st.(store := migrated), listed, freshId, now);
  }

  /** First start with nothing stored: one "New Chat" conversation on
      openai / gpt-3.5-turbo, and it is active. */
  method InitEmptyScenario(freshId: string, now: int) returns (r: State)
    ensures |r.conversations| == 1 && r.conversations[0].title == "New Chat"
    ensures r.conversations[0].provider == OpenAI && ModelName(r.conversations[0].model) == "gpt-3.5-turbo"
    ensures r.activeId == Some(r.conversations[0].id)
  {
    var st := State([], None, true, ApiKeys("", ""), ApiKeys("", ""), S.Store(map[], None, None));
    r := Init(st, false, freshId, now);
  }
}

=== FILE: chat_types.dfy ===
/** The client's data model: providers, models, roles, messages and
    conversations (src/types/chat.ts). */
module ChatTypes {
  import opened Wrappers

  /** `AIProvider`: exactly one of 'openai' | 'anthropic'. */
  datatype Provider = OpenAI | Anthropic

  /** The union `OpenAIModel | AnthropicModel`. */
  datatype Model =
    | Gpt4 | Gpt4Turbo | Gpt35Turbo
    | Claude35Sonnet | Claude35Haiku | Claude3Opus

  datatype Role = User | Assistant | System

  /** `images` is absent (None) or a list of data-URI strings. */
  datatype Message = Message(
    id: string,
    role: Role,
    content: string,
    images: Option<seq<string>>,
    timestamp: int)

  /** `pinned` is optional; absent means not pinned. The type does not tie
      `model` to `provider`. */
  datatype Conversation = Conversation(
    id: string,
    title: string,
    messages: seq<Message>,
    provider: Provider,
    model: Model,
    createdAt: int,
    updatedAt: int,
    pinned: Option<bool>)

  function ProviderName(p: Provider): string {
    match p
    case OpenAI => "openai"
    case Anthropic => "anthropic"
  }

  function ParseProvider(s: string): (r: Option<Provider>)
    ensures r.Some? <==> (s == "openai" || s == "anthropic")
    ensures r.Some? ==> ProviderName(r.value) == s
  {
    if s == "openai" then Some(OpenAI)
    else if s == "anthropic" then Some(Anthropic)
    else None
  }

  function ModelName(m: Model): string {
    match m
    case Gpt4 => "gpt-4"
    case Gpt4Turbo => "gpt-4-turbo"
    case Gpt35Turbo => "gpt-3.5-turbo"
    case Claude35Sonnet => "claude-3-5-sonnet-20241022"
    case Claude35Haiku => "claude-3-5-haiku-20241022"
    case Claude3Opus => "claude-3-opus-20240229"
  }

  function RoleName(r: Role): string {
    match r
    case User => "user"
    case Assistant => "assistant"
    case System => "system"
  }

  const OpenAIModels: set<Model> := {Gpt4, Gpt4Turbo, Gpt35Turbo}
  const AnthropicModels: set<Model> := {Claude35Sonnet, Claude35Haiku, Claude3Opus}

  /** The models a provider accepts. */
  function ModelsOf(p: Provider): set<Model> {
    if p == OpenAI then OpenAIModels else AnthropicModels
  }

  /** The invariant the type system does not enforce. */
  predicate ModelMatchesProvider(c: Conversation) {
    c.model in ModelsOf(c.provider)
  }

  predicate IsPinned(c: Conversation) {
    c.pinned == Some(true)
  }

  /** The defaults of `createNewConversation` and of the legacy backfill. */
  const DefaultProvider: Provider := OpenAI
  const DefaultModel: Model := Gpt35Turbo

  /** The model a provider falls back to when it is chosen afresh
      (App.tsx's provider change and first-run conversation). */
  function DefaultModelFor(p: Provider): (m: Model)
    ensures m in ModelsOf(p)
    ensures p == DefaultProvider ==> m == DefaultModel
  {
    if p == OpenAI then Gpt35Turbo else Claude35Sonnet
  }

  /** Each model set has three members, the sets are disjoint and together
      they are every model. */
  lemma ModelSetsPartition()
    ensures |OpenAIModels| == 3 && |AnthropicModels| == 3
    ensures OpenAIModels !! AnthropicModels
    ensures forall m: Model :: m in OpenAIModels <==> m !in AnthropicModels
  {
    assert |{Gpt4, Gpt4Turbo} + {Gpt35Turbo}| == 3;
    forall m: Model ensures m in OpenAIModels <==> m !in AnthropicModels {
      match m
      case Gpt4 =>
      case Gpt4Turbo =>
      case Gpt35Turbo =>
      case Claude35Sonnet =>
      case Claude35Haiku =>
      case Claude3Opus =>
    }
  }

  /** Distinct models have distinct wire names. */
  lemma ModelNameInjective(a: Model, b: Model)
    requires ModelName(a) == ModelName(b)
    ensures a == b
  {
  }

  /** A well-typed conversation may pair a provider with the other provider's model. */
  lemma TypeDoesNotTieModelToProvider()
    ensures exists c: Conversation :: c.provider == OpenAI && !ModelMatchesProvider(c)
  {
    var c := Conversation("1", "New Chat", [], OpenAI, Claude3Opus, 0, 0, None);
    assert !ModelMatchesProvider(c);
  }
}

=== FILE: config.dfy ===
/** Server configuration (server/internal/config/config.go): the fields,
    the defaults `LoadConfig` applies, and `Validate`. The environment
    (process variables and a `.env` file) is a map parameter. */
module Config {
  import opened Wrappers
  import opened Text

  datatype Config = Config(
    port: string,
    mode: string,
    openAIApiKey: string,
    openAIBaseURL: string,
    dbPath: string,
    databaseURL: string,
    corsAllowedOrigins: string,
    serverAPIKey: string)

  const DefaultPort: string := "8081"
  const DefaultMode: string := "debug"
  const DefaultOpenAIBaseURL: string := "https://api.openai.com/v1"
  const DefaultDBPath: string := "claude_play.db"

  /** The value of a variable, or the default when it is unset or empty
      (the configuration library treats an empty variable as unset). */
  function Setting(env: map<string, string>, key: string, default: string): (v: string)
    ensures key in env && env[key] != "" ==> v == env[key]
    ensures !(key in env && env[key] != "") ==> v == default
  {
    if key in env && env[key] != "" then env[key] else default
  }

  /** The eight variables the configuration is read from. */
  const Keys: set<string> := {"PORT", "MODE", "OPENAI_API_KEY", "OPENAI_BASE_URL", "DB_PATH",
                              "DATABASE_URL", "CORS_ALLOWED_ORIGINS", "SERVER_API_KEY"}

  /** The configuration read from the environment, before validation, as
      evidently intended: every field from its variable, the four keys
      without a default falling back to "". */
  function Read(env: map<string, string>): (c: Config)
    ensures c.port == Setting(env, "PORT", DefaultPort)
    ensures c.mode == Setting(env, "MODE", DefaultMode)
    ensures c.openAIApiKey == Setting(env, "OPENAI_API_KEY", "")
    ensures c.openAIBaseURL == Setting(env, "OPENAI_BASE_URL", DefaultOpenAIBaseURL)
    ensures c.dbPath == Setting(env, "DB_PATH", DefaultDBPath)
    ensures c.databaseURL == Setting(env, "DATABASE_URL", "")
    ensures c.corsAllowedOrigins == Setting(env, "CORS_ALLOWED_ORIGINS", "")
    ensures c.serverAPIKey == Setting(env, "SERVER_API_KEY", "")
  {
    Config(Setting(env, "PORT", DefaultPort), Setting(env, "MODE", DefaultMode),
           Setting(env, "OPENAI_API_KEY", ""), Setting(env, "OPENAI_BASE_URL", DefaultOpenAIBaseURL),
           Setting(env, "DB_PATH", DefaultDBPath), Setting(env, "DATABASE_URL", ""),
           Setting(env, "CORS_ALLOWED_ORIGINS", ""), Setting(env, "SERVER_API_KEY", ""))
  }

  /** Only the eight variables matter: environments that agree on them give
      the same configuration. */
  lemma ReadIgnoresOtherVariables(env: map<string, string>, env': map<string, string>)
    requires forall k :: k in Keys ==> (k in env <==> k in env') && (k in env ==> env[k] == env'[k])
    ensures Read(env) == Read(env')
  {
    assert "PORT" in Keys && "MODE" in Keys && "OPENAI_API_KEY" in Keys && "OPENAI_BASE_URL" in Keys;
    assert "DB_PATH" in Keys && "DATABASE_URL" in Keys && "CORS_ALLOWED_ORIGINS" in Keys && "SERVER_API_KEY" in Keys;
  }

  /** `LoadConfig` as written: `AutomaticEnv` only answers lookups of keys
      the library already knows, and `Unmarshal` asks only for those, which
      are the four given a default. The other four fields stay "". */
  function ReadAsWritten(env: map<string, string>): (c: Config)
    ensures c.port == Read(env).port && c.mode == Read(env).mode
    ensures c.openAIBaseURL == Read(env).openAIBaseURL && c.dbPath == Read(env).dbPath
    ensures c.openAIApiKey == "" && c.databaseURL == "" && c.corsAllowedOrigins == "" && c.serverAPIKey == ""
  {
    Config(Setting(env, "PORT", DefaultPort), Setting(env, "MODE", DefaultMode),
           "", Setting(env, "OPENAI_BASE_URL", DefaultOpenAIBaseURL),
           Setting(env, "DB_PATH", DefaultDBPath), "", "", "")
  }

  /** The two readings differ exactly in the four keys without a default:
      a configured server key is lost as written. */
  lemma ServerKeyLostAsWritten()
    ensures Read(map["SERVER_API_KEY" := "k"]).serverAPIKey == "k"
    ensures ReadAsWritten(map["SERVER_API_KEY" := "k"]).serverAPIKey == ""
  {
  }

  // ---- strconv.Atoi on a 64-bit platform -----------------------------

  const Int64Min: int := -0x8000_0000_0000_0000
  const Int64Max: int := 0x7FFF_FFFF_FFFF_FFFF

  datatype NumError = InvalidSyntax | OutOfRange

  datatype AtoiResult = Parsed(value: int) | Failed(err: NumError)

  predicate IsDigit(c: char) {
    '0' <= c <= '9'
  }

  predicate AllDigits(s: string) {
    forall i :: 0 <= i < |s| ==> IsDigit(s[i])
  }

  /** The decimal value of a digit string, read left to right. */
  function DigitsValue(s: string): nat
    requires AllDigits(s)
  {
    if |s| == 0 then 0 else DigitsValue(s[..|s| - 1]) * 10 + (s[|s| - 1] as int - '0' as int)
  }

  predicate HasSign(s: string) {
    |s| > 0 && (s[0] == '+' || s[0] == '-')
  }

  /** The text after an optional leading sign. */
  function Magnitude(s: string): string {
    if HasSign(s) then s[1..] else s
  }

  /** An optional sign followed by one or more decimal digits: no spaces,
      no underscores, no base prefix. */
  predicate Numeral(s: string) {
    |Magnitude(s)| >= 1 && AllDigits(Magnitude(s))
  }

  function NumeralValue(s: string): int
    requires Numeral(s)
  {
    if s[0] == '-' then -(DigitsValue(Magnitude(s)) as int) else DigitsValue(Magnitude(s))
  }

  function Atoi(s: string): (r: AtoiResult)
    ensures r.Parsed? <==> Numeral(s) && Int64Min <= NumeralValue(s) <= Int64Max
    ensures r.Parsed? ==> r.value == NumeralValue(s)
    ensures r == Failed(InvalidSyntax) <==> !Numeral(s)
  {
    if !Numeral(s) then Failed(InvalidSyntax)
    else if Int64Min <= NumeralValue(s) <= Int64Max then Parsed(NumeralValue(s))
    else Failed(OutOfRange)
  }

  lemma {:induction false} DigitsOfNatToString(n: nat)
    ensures AllDigits(NatToString(n))
    ensures DigitsValue(NatToString(n)) == n
  {
    var s := NatToString(n);
    if n >= 10 {
      DigitsOfNatToString(n / 10);
      assert s[..|s| - 1] == NatToString(n / 10);
    }
  }

  /** Atoi reads back what decimal rendering writes, across the int64 range. */
  lemma AtoiRendering(n: nat)
    ensures n <= Int64Max ==> Atoi(NatToString(n)) == Parsed(n)
    ensures n <= -Int64Min ==> Atoi("-" + NatToString(n)) == Parsed(-(n as int))
  {
    DigitsOfNatToString(n);
    var s := NatToString(n);
    assert !HasSign(s) by { assert IsDigit(s[0]); }
    assert Magnitude("-" + s) == s;
  }

  // ---- Validate ------------------------------------------------------

  datatype ConfigError = PortRequired | PortNotNumber(port: string, cause: NumError) | BadMode(mode: string)

  /** `strconv.NumError`'s text for each cause. */
  function CauseText(c: NumError): (t: string)
    ensures |t| > 0 && t[|t| - 1] == (if c == InvalidSyntax then 'x' else 'e')
  {
    if c == InvalidSyntax then "invalid syntax" else "value out of range"
  }

  /** The error's text. Go's `%q` escaping of unusual characters is not
      modelled: the value is shown between double quotes. */
  function ErrorMessage(e: ConfigError): (m: string)
    ensures m == "PORT is required" <==> e.PortRequired?
    ensures |m| >= 16 && (m[..4] == "MODE" <==> e.BadMode?)
  {
    match e
    case PortRequired =>
      var m := "PORT is required";
      assert m[..4] == "PORT";
      m
    case PortNotNumber(p, cause) =>
      var m := "PORT" + " must be a number: strconv.Atoi: parsing \"" + p + "\": "
        + CauseText(cause);
      assert m[..4] == "PORT";
      m
    case BadMode(v) =>
      var m := "MODE" + " must be debug or release, got \"" + v + "\"";
      assert m[..4] == "MODE";
      m
  }

  /** Equal texts with the same frame have the same value inside it. */
  lemma QuotedInjective(pre: string, a: string, b: string, post: string)
    requires pre + a + post == pre + b + post
    ensures a == b
  {
    var x, y := pre + a + post, pre + b + post;
    assert |a| == |b|;
    forall i | 0 <= i < |a|
      ensures a[i] == b[i]
    {
      assert x[|pre| + i] == a[i] && y[|pre| + i] == b[i];
    }
  }

  /** The cause shows in the last character of the port error, and the
      port between the quotes. */
  lemma {:induction false} PortMessageInjective(p1: string, c1: NumError, p2: string, c2: NumError)
    requires ErrorMessage(PortNotNumber(p1, c1)) == ErrorMessage(PortNotNumber(p2, c2))
    ensures p1 == p2 && c1 == c2
  {
    var pre := "PORT" + " must be a number: strconv.Atoi: parsing \"";
    PortMessageShape(pre, p1, c1);
    PortMessageShape(pre, p2, c2);
    assert c1 == c2;
    QuotedInjective(pre, p1, p2, "\": " + CauseText(c1));
  }

  /** The port error splits into a fixed head, the port, and a tail whose
      last character tells the cause. */
  lemma PortMessageShape(pre: string, p: string, c: NumError)
    requires pre == "PORT" + " must be a number: strconv.Atoi: parsing \""
    ensures var post := "\": " + CauseText(c);
      && ErrorMessage(PortNotNumber(p, c)) == pre + p + post
      && ErrorMessage(PortNotNumber(p, c))[|ErrorMessage(PortNotNumber(p, c))| - 1] == post[|post| - 1]
      && post[|post| - 1] == (if c == InvalidSyntax then 'x' else 'e')
  {
    var post := "\": " + CauseText(c);
    assert (pre + p + post)[|pre + p + post| - 1] == post[|post| - 1];
  }

  /** Different errors read differently: the text identifies the check
      that failed and the offending value. */
  lemma {:induction false} ErrorMessageInjective(e1: ConfigError, e2: ConfigError)
    ensures ErrorMessage(e1) == ErrorMessage(e2) <==> e1 == e2
  {
    if ErrorMessage(e1) == ErrorMessage(e2) {
      match e1
      case PortRequired =>
      case PortNotNumber(p1, c1) =>
        var p2, c2 := e2.port, e2.cause;
        PortMessageInjective(p1, c1, p2, c2);
      case BadMode(m1) =>
        QuotedInjective("MODE" + " must be debug or release, got \"", m1, e2.mode, "\"");
    }
  }

  /** `Config.Validate`: the port must be present and numeric, and the mode
      one of the two known; the first failing check is reported. */
  function Validate(c: Config): (r: Option<ConfigError>)
    ensures r == Some(PortRequired) <==> c.port == ""
    ensures r.Some? && r.value.PortNotNumber? <==> c.port != "" && Atoi(c.port).Failed?
    ensures r.Some? && r.value.PortNotNumber? ==> r.value == PortNotNumber(c.port, Atoi(c.port).err)
    ensures r == Some(BadMode(c.mode)) <==>
      c.port != "" && Atoi(c.port).Parsed? && c.mode != "debug" && c.mode != "release"
    ensures r.None? <==> Atoi(c.port).Parsed? && (c.mode == "debug" || c.mode == "release")
  {
    if c.port == "" then Some(PortRequired)
    else match Atoi(c.port)
      case Failed(e) => Some(PortNotNumber(c.port, e))
      case Parsed(_) =>
        if c.mode != "debug" && c.mode != "release" then Some(BadMode(c.mode)) else None
  }

  /** Only the port and the mode are inspected. */
  lemma ValidateReadsPortAndMode(c: Config, d: Config)
    requires c.port == d.port && c.mode == d.mode
    ensures Validate(c) == Validate(d)
  {
  }

  /** `LoadConfig`: the configuration read from the environment, or the
      first validation error. */
  function LoadConfig(env: map<string, string>): (r: Result)
    ensures r.Loaded? <==> Validate(Read(env)).None?
    ensures r.Loaded? ==> r.config == Read(env)
    ensures r.Rejected? ==> Some(r.error) == Validate(Read(env))
  {
    match Validate(Read(env))
    case None => Loaded(Read(env))
    case Some(e) => Rejected(e)
  }

  datatype Result = Loaded(config: Config) | Rejected(error: ConfigError)

  /** Validation looks only at port and mode, which both readings agree on,
      so the loss goes unnoticed: the verdict is the same either way. */
  lemma SameVerdictAsWritten(env: map<string, string>)
    ensures Validate(ReadAsWritten(env)) == Validate(Read(env))
  {
    ValidateReadsPortAndMode(ReadAsWritten(env), Read(env));
  }

  /** With nothing set, the defaults load: port 8081 in debug mode. */
  lemma DefaultsLoad()
    ensures LoadConfig(map[]) == Loaded(Config(DefaultPort, DefaultMode, "", DefaultOpenAIBaseURL, DefaultDBPath, "", "", ""))
  {
    AtoiRendering(8081);
    assert NatToString(8081) == DefaultPort;
  }

  /** Signed and zero ports are accepted: only the syntax and the int64
      range are checked, not that the value is a usable port. */
  lemma SignedPortsAccepted(c: Config)
    requires c.mode == "debug"
    ensures c.port == "-1" ==> Validate(c).None?
    ensures c.port == "0" ==> Validate(c).None?
    ensures c.port == "+80" ==> Validate(c).None?
  {
    AtoiRendering(1);
    AtoiRendering(0);
    assert "-" + NatToString(1) == "-1";
    assert NatToString(0) == "0";
    if c.port == "+80" {
      assert Magnitude("+80") == "80";
      assert DigitsValue("80") == 80 by { assert "80"[..1] == "8"; assert "8"[..0] == ""; }
    }
  }

  /** Surrounding spaces and a sign on its own are syntax errors. */
  lemma MalformedPorts(c: Config)
    ensures c.port == " 8081" ==> Validate(c) == Some(PortNotNumber(" 8081", InvalidSyntax))
    ensures c.port == "-" ==> Validate(c) == Some(PortNotNumber("-", InvalidSyntax))
  {
    if c.port == " 8081" { assert !IsDigit(Magnitude(c.port)[0]); }
  }

  /** One past the int64 maximum is out of range. */
  lemma PortOutOfRange(c: Config)
    requires c.port == NatToString(Int64Max + 1)
    ensures Validate(c) == Some(PortNotNumber(c.port, OutOfRange))
  {
    DigitsOfNatToString(Int64Max + 1);
    var s := NatToString(Int64Max + 1);
    assert !HasSign(s) by { assert IsDigit(s[0]); }
  }
}

=== FILE: conversations.dfy ===
/** Title policy, conversation construction, the legacy localStorage blob
    and its delete operation (src/utils/conversations.ts). */
module Conversations {
  import opened Wrappers
  import opened Text
  import opened ChatTypes

  const NewChatTitle: string := "New Chat"
  const TitleLimit: nat := 50
  const Ellipsis: string := "..."

  /** Index of the first user-role message (`messages.find(m => m.role === 'user')`). */
  function FirstUserIndex(msgs: seq<Message>): (r: Option<nat>)
    ensures r.Some? ==> r.value < |msgs| && msgs[r.value].role == User
    ensures r.Some? ==> forall j :: 0 <= j < r.value ==> msgs[j].role != User
    ensures r.None? ==> forall j :: 0 <= j < |msgs| ==> msgs[j].role != User
  {
    if |msgs| == 0 then None
    else if msgs[0].role == User then Some(0)
    else match FirstUserIndex(msgs[1..])
      case None => None
      case Some(i) => Some(i + 1)
  }

  predicate HasUserMessage(msgs: seq<Message>) {
    exists j :: 0 <= j < |msgs| && msgs[j].role == User
  }

  /** `updateConversationTitle`, which reads only the message list. */
  function UpdateConversationTitle(c: Conversation): (t: string)
    ensures !HasUserMessage(c.messages) ==> t == NewChatTitle
    ensures forall i :: 0 <= i < |c.messages| && c.messages[i].role == User
                        && (forall j :: 0 <= j < i ==> c.messages[j].role != User) ==>
              var content := c.messages[i].content;
              (|content| <= TitleLimit ==> t == content)
              && (|content| > TitleLimit ==> t == content[..TitleLimit] + Ellipsis)
    ensures |t| <= TitleLimit + |Ellipsis|
  {
    TitleOf(c.messages)
  }

  function TitleOf(msgs: seq<Message>): string {
    if |msgs| == 0 then NewChatTitle
    else match FirstUserIndex(msgs)
      case None => NewChatTitle
      case Some(i) =>
        var content := msgs[i].content;
        var title := Take(content, TitleLimit);
        if |title| < |content| then title + Ellipsis else title
  }

  /** A conversation whose stored title is the one its messages derive. */
  predicate TitleConsistent(c: Conversation) {
    c.title == UpdateConversationTitle(c)
  }

  /** Messages before the first user message (system prompts, say) never affect the title. */
  lemma {:induction false} TitleIgnoresNonUserPrefix(prefix: seq<Message>, msgs: seq<Message>)
    requires forall j :: 0 <= j < |prefix| ==> prefix[j].role != User
    ensures TitleOf(prefix + msgs) == TitleOf(msgs)
  {
    var all := prefix + msgs;
    match FirstUserIndex(msgs)
    case None =>
      assert !HasUserMessage(all) by {
        forall j | 0 <= j < |all| ensures all[j].role != User {
          if j >= |prefix| { assert all[j] == msgs[j - |prefix|]; }
        }
      }
    case Some(i) =>
      var k := |prefix| + i;
      assert all[k] == msgs[i];
      assert forall j :: 0 <= j < k ==> all[j].role != User by {
        forall j | 0 <= j < k ensures all[j].role != User {
          if j >= |prefix| { assert all[j] == msgs[j - |prefix|]; }
        }
      }
      var r := FirstUserIndex(all);
      assert r.Some? && r.value <= k;
      assert r.value == k;
  }

  /** An empty first user message yields the empty title, not "New Chat". */
  lemma EmptyUserMessageGivesEmptyTitle(c: Conversation)
    requires |c.messages| > 0 && c.messages[0].role == User && c.messages[0].content == ""
    ensures UpdateConversationTitle(c) == ""
  {
  }

  /** The example of src/utils/conversations.test.ts: a system message then a short user message. */
  lemma TitleTestExample()
    ensures
      var msgs := [Message("", System, "system", None, 0),
                   Message("", User, "Hello there, this is a test message", None, 1)];
      UpdateConversationTitle(Conversation("1", "New Chat", msgs, OpenAI, Gpt35Turbo, 0, 0, None))
        == "Hello there, this is a test message"
  {
    var msgs := [Message("", System, "system", None, 0),
                 Message("", User, "Hello there, this is a test message", None, 1)];
    assert FirstUserIndex(msgs[1..]) == Some(0);
  }

  /** `createNewConversation(provider = 'openai', model = 'gpt-3.5-turbo')`; an
      omitted argument is None. The clock reading and id are parameters. */
  function CreateNewConversation(id: string, now: int, provider: Option<Provider>, model: Option<Model>): (c: Conversation)
    ensures c.id == id && c.messages == [] && c.createdAt == now && c.updatedAt == now
    ensures c.title == NewChatTitle && TitleConsistent(c)
    ensures provider.Some? ==> c.provider == provider.value
    ensures provider.None? ==> c.provider == OpenAI
    ensures model.Some? ==> c.model == model.value
    ensures model.None? ==> c.model == Gpt35Turbo
    ensures !IsPinned(c)
  {
    Conversation(id, NewChatTitle, [], provider.GetOr(DefaultProvider), model.GetOr(DefaultModel), now, now, None)
  }

  /** The test "creates a new conversation with defaults". */
  lemma NewConversationDefaults(id: string, now: int)
    ensures var c := CreateNewConversation(id, now, None, None);
      c.title == "New Chat" && c.provider == OpenAI && ModelName(c.model) == "gpt-3.5-turbo"
  {
  }

  // ---- the legacy localStorage blob ----

  /** One stored conversation as JSON gives it back: provider and model may
      be missing (or falsy), which None stands for. */
  datatype RawConversation = RawConversation(
    id: string,
    title: string,
    messages: seq<Message>,
    provider: Option<Provider>,
    model: Option<Model>,
    createdAt: int,
    updatedAt: int,
    pinned: Option<bool>)

  /** An array element: `null` makes the property access in the backfill throw. */
  datatype RawEntry = NullEntry | Entry(raw: RawConversation)

  /** What `JSON.parse` makes of the stored string. */
  datatype LegacyBlob = Unparseable | NonArray | ArrayOf(entries: seq<RawEntry>)

  /** `{...conv, provider: conv.provider || 'openai', model: conv.model || 'gpt-3.5-turbo'}`. */
  function Backfill(r: RawConversation): (c: Conversation)
    ensures c.id == r.id && c.title == r.title && c.messages == r.messages
    ensures c.createdAt == r.createdAt && c.updatedAt == r.updatedAt && c.pinned == r.pinned
    ensures r.provider.Some? ==> c.provider == r.provider.value
    ensures r.provider.None? ==> c.provider == DefaultProvider
    ensures r.model.Some? ==> c.model == r.model.value
    ensures r.model.None? ==> c.model == DefaultModel
  {
    Conversation(r.id, r.title, r.messages, r.provider.GetOr(DefaultProvider),
                 r.model.GetOr(DefaultModel), r.createdAt, r.updatedAt, r.pinned)
  }

  /** The JSON form `JSON.stringify` stores for a conversation. */
  function ToRaw(c: Conversation): RawConversation {
    RawConversation(c.id, c.title, c.messages, Some(c.provider), Some(c.model), c.createdAt, c.updatedAt, c.pinned)
  }

  predicate HasNullEntry(es: seq<RawEntry>) {
    exists i :: 0 <= i < |es| && es[i].NullEntry?
  }

  function BackfillAll(es: seq<RawEntry>): (cs: seq<Conversation>)
    requires !HasNullEntry(es)
    ensures |cs| == |es|
    ensures forall i :: 0 <= i < |es| ==> cs[i] == Backfill(es[i].raw)
  {
    seq(|es|, i requires 0 <= i < |es| => Backfill(es[i].raw))
  }

  /** `loadConversations`; `stored` is None when the key is absent or empty. */
  function LoadConversations(stored: Option<LegacyBlob>): (cs: seq<Conversation>)
    ensures stored.None? || stored.value.Unparseable? || stored.value.NonArray? ==> cs == []
    ensures stored.Some? && stored.value.ArrayOf? && HasNullEntry(stored.value.entries) ==> cs == []
    ensures stored.Some? && stored.value.ArrayOf? && !HasNullEntry(stored.value.entries) ==>
      var es := stored.value.entries;
      |cs| == |es| && forall i :: 0 <= i < |es| ==> cs[i] == Backfill(es[i].raw)
  {
    match stored
    case None => []
    case Some(blob) =>
      match blob
      case ArrayOf(es) => if HasNullEntry(es) then [] else BackfillAll(es)
      case _ => []
  }

  /** `saveConversations`: the blob `JSON.stringify` writes. */
  function SaveConversations(cs: seq<Conversation>): (blob: LegacyBlob)
    ensures blob.ArrayOf? && |blob.entries| == |cs|
  {
    ArrayOf(seq(|cs|, i requires 0 <= i < |cs| => Entry(ToRaw(cs[i]))))
  }

  /** Saving then loading gives back the same list. */
  lemma LoadSaveRoundTrip(cs: seq<Conversation>)
    ensures LoadConversations(Some(SaveConversations(cs))) == cs
  {
    var es := SaveConversations(cs).entries;
    assert !HasNullEntry(es);
    assert forall i :: 0 <= i < |cs| ==> Backfill(es[i].raw) == cs[i];
  }

  /** The browser's localStorage as this file sees it: the conversation blob and the active key. */
  datatype LocalState = LocalState(blob: Option<LegacyBlob>, activeKey: Option<string>)

  /** `conversations.findIndex(c => c.id === id)`, with -1 as None. */
  function IndexOf(cs: seq<Conversation>, id: string): (r: Option<nat>)
    ensures r.Some? ==> r.value < |cs| && cs[r.value].id == id
    ensures r.Some? ==> forall j :: 0 <= j < r.value ==> cs[j].id != id
    ensures r.None? ==> forall j :: 0 <= j < |cs| ==> cs[j].id != id
  {
    if |cs| == 0 then None
    else if cs[0].id == id then Some(0)
    else match IndexOf(cs[1..], id)
      case None => None
      case Some(i) => Some(i + 1)
  }

  predicate HasConversation(cs: seq<Conversation>, id: string) {
    exists i :: 0 <= i < |cs| && cs[i].id == id
  }

  predicate UniqueIds(cs: seq<Conversation>) {
    forall i, j :: 0 <= i < j < |cs| ==> cs[i].id != cs[j].id
  }

  /** The conversation with new messages, a derived title and a new timestamp. */
  function WithMessages(c: Conversation, messages: seq<Message>, now: int): (u: Conversation)
    ensures u.id == c.id && u.messages == messages && u.updatedAt == now
    ensures u.provider == c.provider && u.model == c.model && u.createdAt == c.createdAt && u.pinned == c.pinned
    ensures TitleConsistent(u)
  {
    c.(messages := messages, title := UpdateConversationTitle(c.(messages := messages)), updatedAt := now)
  }

  /** `{...conv, pinned: !conv.pinned, updatedAt}`: an absent flag counts as false. */
  function FlipPin(c: Conversation, now: int): (u: Conversation)
    ensures IsPinned(u) == !IsPinned(c) && u.pinned.Some?
    ensures u == c.(pinned := u.pinned, updatedAt := now)
  {
    c.(pinned := Some(!IsPinned(c)), updatedAt := now)
  }

  /** `conversations.map(conv => conv.id === id ? f(conv) : conv)`. */
  function MapWhere(cs: seq<Conversation>, id: string, f: Conversation -> Conversation): (r: seq<Conversation>)
    ensures |r| == |cs|
    ensures forall i :: 0 <= i < |cs| ==> r[i] == if cs[i].id == id then f(cs[i]) else cs[i]
  {
    seq(|cs|, i requires 0 <= i < |cs| => if cs[i].id == id then f(cs[i]) else cs[i])
  }

  /** `conversations.filter(c => c.id !== id)`. */
  function RemoveId(cs: seq<Conversation>, id: string): (r: seq<Conversation>)
    ensures |r| <= |cs|
    ensures forall c :: c in r <==> c in cs && c.id != id
    ensures (forall i :: 0 <= i < |cs| ==> cs[i].id != id) ==> r == cs
  {
    if |cs| == 0 then []
    else if cs[0].id == id then RemoveId(cs[1..], id)
    else [cs[0]] + RemoveId(cs[1..], id)
  }

  /** Filtering distributes over concatenation, so relative order is kept. */
  lemma {:induction false} RemoveIdAppend(a: seq<Conversation>, b: seq<Conversation>, id: string)
    ensures RemoveId(a + b, id) == RemoveId(a, id) + RemoveId(b, id)
  {
    if |a| == 0 {
      assert a + b == b;
    } else {
      assert (a + b)[1..] == a[1..] + b;
      RemoveIdAppend(a[1..], b, id);
    }
  }

  /** With one match at index i, filtering is exactly cutting index i out. */
  lemma RemoveIdAtUnique(cs: seq<Conversation>, i: nat, id: string)
    requires i < |cs| && cs[i].id == id
    requires forall j :: 0 <= j < |cs| && j != i ==> cs[j].id != id
    ensures RemoveId(cs, id) == cs[..i] + cs[i + 1..]
  {
    assert cs == cs[..i] + ([cs[i]] + cs[i + 1..]);
    RemoveIdAppend(cs[..i], [cs[i]] + cs[i + 1..], id);
    RemoveIdAppend([cs[i]], cs[i + 1..], id);
    assert RemoveId(cs[..i], id) == cs[..i] by {
      forall j | 0 <= j < |cs[..i]| ensures cs[..i][j].id != id { assert cs[..i][j] == cs[j]; }
    }
    var tail := cs[i + 1..];
    assert RemoveId(tail, id) == tail by {
      forall j | 0 <= j < |tail| ensures tail[j].id != id { assert tail[j] == cs[i + 1 + j]; }
    }
  }

  /** Filtering by `id` forgets which record carrying `id` stood at a position. */
  lemma {:induction false} RemoveIdReplacedMatch(cs: seq<Conversation>, i: nat, u: Conversation, id: string)
    requires i < |cs| && cs[i].id == id && u.id == id
    ensures RemoveId(cs[i := u], id) == RemoveId(cs, id)
  {
    if i > 0 {
      assert cs[i := u][1..] == cs[1..][i - 1 := u];
      RemoveIdReplacedMatch(cs[1..], i - 1, u, id);
    } else {
      assert cs[i := u][1..] == cs[1..];
    }
  }

  /** `deleteConversation`: filter, save, and move the active key to the
      first remaining conversation (or remove it) only when it named the deleted one. */
  function DeleteConversation(ls: LocalState, id: string): (r: LocalState)
    ensures LoadConversations(r.blob) == RemoveId(LoadConversations(ls.blob), id)
    ensures ls.activeKey != Some(id) ==> r.activeKey == ls.activeKey
    ensures ls.activeKey == Some(id) ==>
      var rest := RemoveId(LoadConversations(ls.blob), id);
      (|rest| > 0 ==> r.activeKey == Some(rest[0].id)) && (|rest| == 0 ==> r.activeKey.None?)
  {
    var filtered := RemoveId(LoadConversations(ls.blob), id);
    LoadSaveRoundTrip(filtered);
    var active :=
      if ls.activeKey == Some(id) then
        (if |filtered| > 0 then Some(filtered[0].id) else None)
      else ls.activeKey;
    LocalState(Some(SaveConversations(filtered)), active)
  }
}

=== FILE: format_toolbar.dfy ===
/** The markdown formatting toolbar (src/components/FormatToolbar.tsx):
    what `applyFormat` hands to `onFormat` and the selection it sets
    afterwards, plus the table of buttons. */
module FormatToolbar {
  import opened Wrappers

  /** The parts of the textarea element that `applyFormat` reads. */
  datatype TextArea = TextArea(value: string, selectionStart: nat, selectionEnd: nat)

  /** What one click produces: the text for `onFormat`, the range it is
      given, and the selection set once the timeout fires. */
  datatype FormatEffect = FormatEffect(text: string, start: nat, end: nat, newStart: nat, newEnd: nat)

  /** `String.prototype.substring` for non-negative arguments: each is
      clamped to the length, and they are swapped when out of order. */
  function Substring(s: string, a: nat, b: nat): (r: string)
    ensures a <= b <= |s| ==> r == s[a..b]
    ensures b <= a <= |s| ==> r == s[b..a]
    ensures |r| <= |s|
  {
    var lo := if a <= b then a else b;
    var hi := if a <= b then b else a;
    var lo' := if lo <= |s| then lo else |s|;
    var hi' := if hi <= |s| then hi else |s|;
    s[lo'..hi']
  }

  /** `selectedText || placeholder`. */
  function Inserted(ta: TextArea, placeholder: string): (t: string)
    ensures t == placeholder <==> Substring(ta.value, ta.selectionStart, ta.selectionEnd) == "" || Substring(ta.value, ta.selectionStart, ta.selectionEnd) == placeholder
    ensures Substring(ta.value, ta.selectionStart, ta.selectionEnd) != "" ==> t == Substring(ta.value, ta.selectionStart, ta.selectionEnd)
  {
    var selected := Substring(ta.value, ta.selectionStart, ta.selectionEnd);
    if selected != "" then selected else placeholder
  }

  /** `applyFormat(prefix, suffix, placeholder)`; None when there is no textarea. */
  function ApplyFormat(ta: Option<TextArea>, prefix: string, suffix: string, placeholder: string): (r: Option<FormatEffect>)
    ensures r.None? <==> ta.None?
    ensures r.Some? ==>
      var t := Inserted(ta.value, placeholder);
      && r.value.text == prefix + t + suffix
      && r.value.start == ta.value.selectionStart && r.value.end == ta.value.selectionEnd
      && r.value.newStart == r.value.start + |prefix|
      && r.value.newEnd == r.value.newStart + |t|
  {
    match ta
    case None => None
    case Some(area) =>
      var t := Inserted(area, placeholder);
      var newStart := area.selectionStart + |prefix|;
      Some(FormatEffect(prefix + t + suffix, area.selectionStart, area.selectionEnd, newStart, newStart + |t|))
  }

  /** Replacing the range `onFormat` is given by the text it is given. */
  function Splice(value: string, e: FormatEffect): (r: string)
    requires e.start <= e.end <= |value|
    ensures |r| == |value| - (e.end - e.start) + |e.text|
  {
    value[..e.start] + e.text + value[e.end..]
  }

  /** After the splice, the new selection covers exactly the inserted
      text (the selection, or the placeholder), between prefix and suffix. */
  lemma {:induction false} SpliceSelectsInserted(ta: TextArea, prefix: string, suffix: string, placeholder: string)
    requires ta.selectionStart <= ta.selectionEnd <= |ta.value|
    ensures var e := ApplyFormat(Some(ta), prefix, suffix, placeholder).value;
      var v := Splice(ta.value, e);
      var t := Inserted(ta, placeholder);
      && e.newEnd + |suffix| <= |v|
      && v[e.newStart..e.newEnd] == t
      && v[e.start..e.newStart] == prefix
      && v[e.newEnd..e.newEnd + |suffix|] == suffix
      && v[..e.start] == ta.value[..ta.selectionStart]
      && v[e.newEnd + |suffix|..] == ta.value[ta.selectionEnd..]
  {
    var e := ApplyFormat(Some(ta), prefix, suffix, placeholder).value;
    var t := Inserted(ta, placeholder);
    var before := ta.value[..ta.selectionStart];
    var after := ta.value[ta.selectionEnd..];
    var v := Splice(ta.value, e);
    assert v == before + prefix + t + suffix + after;
    assert |before| == e.start;
  }

  /** With a non-empty selection, the splice wraps it in place: the text is
      unchanged apart from the prefix and suffix inserted around it. */
  lemma {:induction false} WrapSelection(ta: TextArea, prefix: string, suffix: string, placeholder: string)
    requires ta.selectionStart < ta.selectionEnd <= |ta.value|
    ensures var e := ApplyFormat(Some(ta), prefix, suffix, placeholder).value;
      Splice(ta.value, e)
        == ta.value[..ta.selectionStart] + prefix + ta.value[ta.selectionStart..ta.selectionEnd] + suffix + ta.value[ta.selectionEnd..]
  {
    var sel := ta.value[ta.selectionStart..ta.selectionEnd];
    assert |sel| > 0;
    assert Inserted(ta, placeholder) == sel;
  }

  /** The toolbar's buttons, in display order. */
  datatype Button = Bold | Italic | InlineCode | CodeBlock | BulletList | NumberedList
                  | Quote | Link | Heading | HorizontalRule | Table | MathFormula

  /** A button's `applyFormat` arguments. */
  datatype Format = Format(prefix: string, suffix: string, placeholder: string)

  /** The toolbar's table. Every button inserts a non-empty prefix; the
      line-start formats (lists, quote, heading, rule) have no suffix, and
      the inline emphasis, code and math buttons close with the same
      delimiter they open with. */
  function FormatOf(b: Button): (f: Format)
    ensures f.prefix != ""
    ensures f.suffix == "" <==> b in {BulletList, NumberedList, Quote, Heading, HorizontalRule}
    ensures b in {Bold, Italic, InlineCode, MathFormula} ==> f.suffix == f.prefix
    ensures f.placeholder == "" <==> b == HorizontalRule
  {
    match b
    case Bold => Format("**", "**", "bold text")
    case Italic => Format("*", "*", "italic text")
    case InlineCode => Format("`", "`", "code")
    case CodeBlock => Format("```\n", "\n```", "code here")
    case BulletList => Format("- ", "", "list item")
    case NumberedList => Format("1. ", "", "list item")
    case Quote => Format("> ", "", "quote text")
    case Link => Format("[", "](url)", "link text")
    case Heading => Format("## ", "", "heading")
    case HorizontalRule => Format("\n---\n", "", "")
    case Table => Format("\n| Column 1 | Column 2 |\n|----------|----------|\n| ", " |\n", "Cell")
    case MathFormula => Format("$", "$", "x^2")
  }

  /** A click on a button. */
  function Click(ta: Option<TextArea>, b: Button): (r: Option<FormatEffect>)
    ensures r.None? <==> ta.None?
    ensures r.Some? ==> r.value.text == FormatOf(b).prefix + Inserted(ta.value, FormatOf(b).placeholder) + FormatOf(b).suffix
  {
    ApplyFormat(ta, FormatOf(b).prefix, FormatOf(b).suffix, FormatOf(b).placeholder)
  }

  /** Only the horizontal rule has an empty placeholder, so it is the one
      button that can insert nothing between prefix and suffix and leave an
      empty selection behind. */
  lemma EmptyPlaceholderOnlyForRule(b: Button)
    ensures FormatOf(b).placeholder == "" <==> b == HorizontalRule
  {
  }

  /** With nothing selected, the rule inserts exactly "\n---\n" and the
      caret lands right after it. */
  lemma RuleAtCaret(value: string, caret: nat)
    requires caret <= |value|
    ensures var e := Click(Some(TextArea(value, caret, caret)), HorizontalRule).value;
      e.text == "\n---\n" && e.newStart == e.newEnd == caret + 5
  {
    assert Substring(value, caret, caret) == "";
  }

  /** Bold, italic, inline code and math wrap symmetrically. */
  lemma SymmetricWrappers(b: Button)
    requires b in {Bold, Italic, InlineCode, MathFormula}
    ensures FormatOf(b).prefix == FormatOf(b).suffix && |FormatOf(b).prefix| > 0
  {
  }
}

=== FILE: message_engine.dfy ===
/** The message-list logic of src/components/ChatInterface.tsx: starting a
    send, folding the stream's callbacks into the list, regenerate and edit.
    Ids and clock readings are parameters; the stream is a callback trace. */
module MessageEngine {
  import opened Wrappers
  import opened Text
  import opened ChatTypes
  import opened Callbacks
  import B = BlockText

  /** The component state the send path reads and writes. `editor` is the
      parsed editor content. */
  datatype View = View(
    messages: seq<Message>,
    editor: B.Document,
    isLoading: bool,
    error: Option<string>)

  /** What one call of `handleSendMessage` does before the stream starts. */
  datatype SendStart =
    | Skipped
    | KeyMissing(message: string)
    | Started(base: seq<Message>, user: Message, placeholder: Message)

  /** `customInput?.trim() || convertBlocksToText(editorContent).trim()`. */
  function MessageContent(customInput: Option<string>, editor: B.Document): (t: string)
    ensures customInput.Some? && Trim(customInput.value) != "" ==> t == Trim(customInput.value)
    ensures !(customInput.Some? && Trim(customInput.value) != "") ==> t == Trim(B.ConvertBlocksToText(editor))
  {
    if customInput.Some? && Trim(customInput.value) != "" then Trim(customInput.value)
    else Trim(B.ConvertBlocksToText(editor))
  }

  /** The text shown when the provider's key is empty. */
  function KeyMissingMessage(p: Provider): (m: string)
    ensures |m| > 36 && m[..16] == "Please set your " && m[|m| - 20..] == " API key in settings"
  {
    "Please set your " + (if p == OpenAI then "OpenAI" else "Anthropic") + " API key in settings"
  }

  /** The message names the provider whose key is missing: the two
      providers get different texts. */
  lemma {:induction false} KeyMissingMessageNamesProvider(p: Provider, q: Provider)
    ensures KeyMissingMessage(p) == KeyMissingMessage(q) <==> p == q
  {
    if p != q {
      assert |KeyMissingMessage(OpenAI)| != |KeyMissingMessage(Anthropic)|;
    }
  }

  /** The decision of `handleSendMessage`: skip on empty content or while a
      send is running, report a missing key, or start with the base list
      (`customMessages || messages`), a user message and an empty assistant
      placeholder. */
  function StartSend(v: View, customInput: Option<string>, customMessages: Option<seq<Message>>,
                     provider: Provider, openaiKey: string, anthropicKey: string,
                     userId: string, assistantId: string, now: int): (r: SendStart)
    ensures r.Skipped? <==> MessageContent(customInput, v.editor) == "" || v.isLoading
    ensures r.KeyMissing? <==> !r.Skipped? && (if provider == OpenAI then openaiKey else anthropicKey) == ""
    ensures r.KeyMissing? ==> r.message == KeyMissingMessage(provider)
    ensures r.Started? ==>
      && r.base == customMessages.GetOr(v.messages)
      && r.user == Message(userId, User, MessageContent(customInput, v.editor), None, now)
      && r.placeholder == Message(assistantId, Assistant, "", None, now)
  {
    var content := MessageContent(customInput, v.editor);
    if content == "" || v.isLoading then Skipped
    else if (if provider == OpenAI then openaiKey else anthropicKey) == "" then KeyMissing(KeyMissingMessage(provider))
    else Started(customMessages.GetOr(v.messages), Message(userId, User, content, None, now),
                 Message(assistantId, Assistant, "", None, now))
  }

  /** The view after the decision, and the history handed to the service. */
  function ApplyStart(v: View, s: SendStart): (r: View)
    ensures s.Skipped? ==> r == v
    ensures s.KeyMissing? ==> r == v.(error := Some(s.message))
    ensures s.Started? ==>
      r.messages == s.base + [s.user, s.placeholder] && r.isLoading && r.error.None?
      && r.editor == B.Unparseable
  {
    match s
    case Skipped => v
    case KeyMissing(m) => v.(error := Some(m))
    case Started(base, user, placeholder) =>
      v.(messages := base + [user] + [placeholder], editor := B.Unparseable, isLoading := true, error := None)
  }

  /** The history sent with the request: the base list and the user message. */
  function RequestHistory(s: SendStart): seq<Message>
    requires s.Started?
  {
    s.base + [s.user]
  }

  /** A send in flight: the view and the accumulated assistant text. */
  datatype Streaming = Streaming(view: View, assistantId: string, acc: string)

  /** The message with `id` gets `content`; every other message stays. */
  function SetContent(ms: seq<Message>, id: string, content: string): (r: seq<Message>)
    ensures |r| == |ms|
    ensures forall i :: 0 <= i < |ms| ==> r[i] == (if ms[i].id == id then ms[i].(content := content) else ms[i])
  {
    seq(|ms|, i requires 0 <= i < |ms| => if ms[i].id == id then ms[i].(content := content) else ms[i])
  }

  /** `prev.filter(msg => msg.id !== id)`. */
  function DropId(ms: seq<Message>, id: string): (r: seq<Message>)
    ensures |r| <= |ms|
    ensures forall m :: m in r <==> m in ms && m.id != id
  {
    if |ms| == 0 then []
    else if ms[0].id == id then DropId(ms[1..], id)
    else [ms[0]] + DropId(ms[1..], id)
  }

  /** One callback from the service. */
  function OnCallback(s: Streaming, c: Callback): (r: Streaming)
    ensures r.assistantId == s.assistantId
    ensures c.Chunk? ==>
      r.acc == s.acc + c.text && r.view == s.view.(messages := SetContent(s.view.messages, s.assistantId, s.acc + c.text))
    ensures c.Complete? ==> r == s.(view := s.view.(isLoading := false))
    ensures c.Error? ==>
      r.acc == s.acc && r.view == s.view.(messages := DropId(s.view.messages, s.assistantId), isLoading := false, error := Some(c.message))
  {
    match c
    case Chunk(text) =>
      var acc := s.acc + text;
      s.(acc := acc, view := s.view.(messages := SetContent(s.view.messages, s.assistantId, acc)))
    case Complete => s.(view := s.view.(isLoading := false))
    case Error(m) =>
      s.(view := s.view.(messages := DropId(s.view.messages, s.assistantId), isLoading := false, error := Some(m)))
  }

  /** Folding a whole trace, in order. */
  function Run(s: Streaming, trace: seq<Callback>): (r: Streaming)
    ensures r.assistantId == s.assistantId
    decreases |trace|
  {
    if |trace| == 0 then s else Run(OnCallback(s, trace[0]), trace[1..])
  }

  /** `assistantId` names no message of the list. */
  predicate Fresh(ms: seq<Message>, id: string) {
    forall i :: 0 <= i < |ms| ==> ms[i].id != id
  }

  /** While chunks arrive, the list is the prefix and the placeholder
      carrying the concatenation of all chunks so far. */
  lemma {:induction false} ChunksAccumulate(prefix: seq<Message>, p: Message, s: Streaming, texts: seq<string>)
    requires Fresh(prefix, p.id) && s.assistantId == p.id
    requires s.view.messages == prefix + [p.(content := s.acc)]
    ensures var r := Run(s, ChunkCalls(texts));
      r.acc == s.acc + Concat(texts)
      && r.view.messages == prefix + [p.(content := r.acc)]
      && r.view.isLoading == s.view.isLoading && r.view.error == s.view.error
    decreases |texts|
  {
    if |texts| == 0 {
      assert Concat(texts) == "";
      assert s.acc + "" == s.acc;
    } else {
      var s1 := OnCallback(s, Chunk(texts[0]));
      assert s1.view.messages == prefix + [p.(content := s1.acc)] by {
        var ms := s.view.messages;
        var ms1 := s1.view.messages;
        assert |ms1| == |prefix| + 1;
        forall i | 0 <= i < |ms1| ensures ms1[i] == (prefix + [p.(content := s1.acc)])[i] {
          if i < |prefix| { assert ms[i] == prefix[i]; }
        }
      }
      assert ChunkCalls(texts)[0] == Chunk(texts[0]);
      assert ChunkCalls(texts)[1..] == ChunkCalls(texts[1..]);
      ChunksAccumulate(prefix, p, s1, texts[1..]);
      assert Concat(texts) == texts[0] + Concat(texts[1..]);
      assert s.acc + texts[0] + Concat(texts[1..]) == s.acc + (texts[0] + Concat(texts[1..]));
    }
  }

  lemma RunAppend(s: Streaming, a: seq<Callback>, b: seq<Callback>)
    ensures Run(s, a + b) == Run(Run(s, a), b)
    decreases |a|
  {
    if |a| > 0 {
      assert (a + b)[1..] == a[1..] + b;
      RunAppend(OnCallback(s, a[0]), a[1..], b);
    } else {
      assert a + b == b;
    }
  }

  lemma DropFreshPlaceholder(prefix: seq<Message>, p: Message)
    requires Fresh(prefix, p.id)
    ensures DropId(prefix + [p], p.id) == prefix
    decreases |prefix|
  {
    if |prefix| == 0 {
      assert DropId([p][1..], p.id) == [];
    } else {
      assert (prefix + [p])[1..] == prefix[1..] + [p];
      DropFreshPlaceholder(prefix[1..], p);
      assert prefix == [prefix[0]] + prefix[1..];
    }
  }

  /** Folding a well-formed trace over a list that ends in a fresh, empty
      placeholder. */
  lemma RunWellFormed(v0: View, prefix: seq<Message>, p: Message, trace: seq<Callback>)
    requires Fresh(prefix, p.id) && p.content == "" && WellFormed(trace)
    requires v0.messages == prefix + [p]
    ensures var r := Run(Streaming(v0, p.id, ""), trace).view;
      && !r.isLoading
      && (trace[|trace| - 1].Complete? ==>
            r.messages == prefix + [p.(content := Concat(Chunks(trace)))] && r.error == v0.error)
      && (trace[|trace| - 1].Error? ==>
            r.messages == prefix && r.error == Some(trace[|trace| - 1].message))
  {
    var s0 := Streaming(v0, p.id, "");
    assert s0.view.messages == prefix + [p.(content := s0.acc)] by { assert p.(content := "") == p; }
    var texts := Chunks(trace);
    var last := trace[|trace| - 1];
    WellFormedShape(trace);
    RunAppend(s0, ChunkCalls(texts), [last]);
    ChunksAccumulate(prefix, p, s0, texts);
    var s1 := Run(s0, ChunkCalls(texts));
    assert s1.acc == Concat(texts) by { assert "" + Concat(texts) == Concat(texts); }
    assert Run(s1, [last]) == OnCallback(s1, last) by { assert [last][1..] == []; }
    assert s1.assistantId == p.id;
    if last.Error? {
      DropFreshPlaceholder(prefix, p.(content := s1.acc));
    }
  }

  /** A send that starts and then sees a well-formed trace: on `Complete`
      the list is base, user, and an assistant message holding every chunk
      in order; on `Error` the placeholder is gone and the error is shown. */
  lemma SendOutcome(v: View, st: SendStart, trace: seq<Callback>)
    requires st.Started? && st.placeholder.content == "" && WellFormed(trace)
    requires Fresh(st.base + [st.user], st.placeholder.id)
    ensures var r := Run(Streaming(ApplyStart(v, st), st.placeholder.id, ""), trace).view;
      && !r.isLoading
      && (trace[|trace| - 1].Complete? ==>
            r.messages == st.base + [st.user, st.placeholder.(content := Concat(Chunks(trace)))] && r.error.None?)
      && (trace[|trace| - 1].Error? ==>
            r.messages == st.base + [st.user] && r.error == Some(trace[|trace| - 1].message))
  {
    var prefix := st.base + [st.user];
    var p := st.placeholder;
    var v0 := ApplyStart(v, st);
    assert v0.messages == prefix + [p] && v0.error.None?;
    RunWellFormed(v0, prefix, p, trace);
    var q := p.(content := Concat(Chunks(trace)));
    assert prefix + [q] == st.base + [st.user, q];
  }

  // ---- The call as written ------------------------------------------

  /** The state of a send under the call as written, and whether the
      send's promise has rejected. */
  datatype Shifted = Shifted(s: Streaming, rejected: bool)

  /** One service callback under the call as written. The call passes no
      `conversationId`, so each handler binds one parameter early: the
      service's `onChunk` is the completion handler, its `onComplete` is
      the error handler (called with no message, so no error is shown), and
      its `onError` is the abort signal, which is not callable. Calling it
      throws, the send's promise rejects, and the view is left as it was. */
  function OnCallbackAsWritten(x: Shifted, c: Callback): (r: Shifted)
    ensures r.s.assistantId == x.s.assistantId && r.s.acc == x.s.acc
    ensures x.rejected ==> r == x
    ensures !x.rejected && c.Chunk? ==> r == Shifted(x.s.(view := x.s.view.(isLoading := false)), false)
    ensures !x.rejected && c.Complete? ==>
      r == Shifted(x.s.(view := x.s.view.(messages := DropId(x.s.view.messages, x.s.assistantId), isLoading := false, error := None)), false)
    ensures !x.rejected && c.Error? ==> r == Shifted(x.s, true)
  {
    if x.rejected then x
    else match c
      case Chunk(_) => Shifted(x.s.(view := x.s.view.(isLoading := false)), false)
      case Complete =>
        Shifted(x.s.(view := x.s.view.(messages := DropId(x.s.view.messages, x.s.assistantId), isLoading := false, error := None)), false)
      case Error(_) => Shifted(x.s, true)
  }

  function RunAsWritten(x: Shifted, trace: seq<Callback>): (r: Shifted)
    ensures r.s.assistantId == x.s.assistantId
    decreases |trace|
  {
    if |trace| == 0 then x else RunAsWritten(OnCallbackAsWritten(x, trace[0]), trace[1..])
  }

  /** Under the call as written, chunks never reach the list. */
  lemma {:induction false} ChunksIgnoredAsWritten(x: Shifted, texts: seq<string>)
    requires !x.rejected
    ensures var r := RunAsWritten(x, ChunkCalls(texts));
      !r.rejected && r.s.assistantId == x.s.assistantId
      && r.s.view.messages == x.s.view.messages && r.s.view.error == x.s.view.error
    decreases |texts|
  {
    if |texts| > 0 {
      assert ChunkCalls(texts)[0] == Chunk(texts[0]);
      assert ChunkCalls(texts)[1..] == ChunkCalls(texts[1..]);
      ChunksIgnoredAsWritten(OnCallbackAsWritten(x, Chunk(texts[0])), texts[1..]);
    }
  }

  lemma {:induction false} RunAsWrittenAppend(x: Shifted, a: seq<Callback>, b: seq<Callback>)
    ensures RunAsWritten(x, a + b) == RunAsWritten(RunAsWritten(x, a), b)
    decreases |a|
  {
    if |a| > 0 {
      assert (a + b)[1..] == a[1..] + b;
      RunAsWrittenAppend(OnCallbackAsWritten(x, a[0]), a[1..], b);
    } else {
      assert a + b == b;
    }
  }

  /** Under the call as written, a reply that streams to completion is
      discarded: the list ends with the user message and no assistant
      message, whatever the chunks were. `SendOutcome` states the intended
      result, which keeps the reply. */
  lemma ReplyDiscardedAsWritten(v: View, st: SendStart, texts: seq<string>)
    requires st.Started? && Fresh(st.base + [st.user], st.placeholder.id)
    ensures var r := RunAsWritten(Shifted(Streaming(ApplyStart(v, st), st.placeholder.id, ""), false),
                                  ChunkCalls(texts) + [Complete]);
      !r.rejected && r.s.view.messages == st.base + [st.user] && !r.s.view.isLoading
  {
    var x0 := Shifted(Streaming(ApplyStart(v, st), st.placeholder.id, ""), false);
    RunAsWrittenAppend(x0, ChunkCalls(texts), [Complete]);
    ChunksIgnoredAsWritten(x0, texts);
    var x1 := RunAsWritten(x0, ChunkCalls(texts));
    assert RunAsWritten(x1, [Complete]) == OnCallbackAsWritten(x1, Complete) by { assert [Complete][1..] == []; }
    assert x1.s.view.messages == (st.base + [st.user]) + [st.placeholder];
    DropFreshPlaceholder(st.base + [st.user], st.placeholder);
  }

  /** Under the call as written, a failure leaves the placeholder in the
      list, the loading flag set and no error shown. */
  lemma FailureStuckAsWritten(v: View, st: SendStart, message: string)
    requires st.Started?
    ensures var r := RunAsWritten(Shifted(Streaming(ApplyStart(v, st), st.placeholder.id, ""), false), [Error(message)]);
      r.rejected && r.s.view.isLoading && r.s.view.error.None?
      && r.s.view.messages == st.base + [st.user, st.placeholder]
  {
    assert [Error(message)][1..] == [];
  }

  /** `handleStopGeneration`: only clears the loading flag. The partial
      answer goes only if the service later reports an error. */
  function Stop(v: View): (r: View)
    ensures r == v.(isLoading := false)
  {
    v.(isLoading := false)
  }

  /** What regenerate and edit hand to `handleSendMessage`. */
  datatype Resend = Resend(text: string, base: seq<Message>)

  /** `messages.findIndex(msg => msg.id === id)`, -1 as None. */
  function MessageIndex(ms: seq<Message>, id: string): (r: Option<nat>)
    ensures r.Some? ==> r.value < |ms| && ms[r.value].id == id && forall j :: 0 <= j < r.value ==> ms[j].id != id
    ensures r.None? ==> forall j :: 0 <= j < |ms| ==> ms[j].id != id
  {
    if |ms| == 0 then None
    else if ms[0].id == id then Some(0)
    else match MessageIndex(ms[1..], id)
      case None => None
      case Some(i) => Some(i + 1)
  }

  /** `handleRegenerate`: resend the user message just before `id` on the
      list before that user message; nothing for an unknown id, the first
      message, or a non-user predecessor. */
  function Regenerate(ms: seq<Message>, id: string): (r: Option<Resend>)
    ensures r.Some? <==> (var k := MessageIndex(ms, id); k.Some? && k.value > 0 && ms[k.value - 1].role == User)
    ensures r.Some? ==>
      var k := MessageIndex(ms, id).value;
      r.value.text == ms[k - 1].content && r.value.base == ms[..k - 1]
  {
    match MessageIndex(ms, id)
    case None => None
    case Some(k) =>
      if k == 0 then None
      else
        var before := ms[..k];
        var lastUser := before[|before| - 1];
        if lastUser.role != User then None
        else Some(Resend(lastUser.content, before[..|before| - 1]))
  }

  /** `handleEditMessage`: resend the new content on the strict prefix before `id`. */
  function EditMessage(ms: seq<Message>, id: string, newContent: string): (r: Option<Resend>)
    ensures r.None? <==> MessageIndex(ms, id).None?
    ensures r.Some? ==> r.value.text == newContent && r.value.base == ms[..MessageIndex(ms, id).value]
  {
    match MessageIndex(ms, id)
    case None => None
    case Some(k) => Some(Resend(newContent, ms[..k]))
  }

  /** Regenerating the reply to the first message is a no-op. */
  lemma RegenerateFirstIsNoop(ms: seq<Message>)
    requires |ms| > 0
    ensures Regenerate(ms, ms[0].id).None?
  {
  }

  /** A started regenerate drops the old reply and everything after it,
      and sends the user text again without its images. */
  lemma RegenerateRebuilds(v: View, id: string, provider: Provider, openaiKey: string, anthropicKey: string,
                           userId: string, assistantId: string, now: int)
    requires !v.isLoading
    requires var r := Regenerate(v.messages, id); r.Some? && Trim(r.value.text) == r.value.text && r.value.text != ""
    ensures var r := Regenerate(v.messages, id).value;
      var k := MessageIndex(v.messages, id).value;
      var st := StartSend(v, Some(r.text), Some(r.base), provider, openaiKey, anthropicKey, userId, assistantId, now);
      (if provider == OpenAI then openaiKey else anthropicKey) != "" ==>
        && st.Started?
        && st.base + [st.user] == v.messages[..k - 1] + [v.messages[k - 1].(id := userId, images := None, timestamp := now)]
  {
    var k := MessageIndex(v.messages, id).value;
    var u := v.messages[k - 1];
    assert u.role == User;
    assert u.(id := userId, images := None, timestamp := now) == Message(userId, User, u.content, None, now);
  }

  /** Editing message k and sending yields the strict prefix, the edited
      text as a new user message, and an empty placeholder. */
  lemma EditThenSend(v: View, id: string, newContent: string, provider: Provider, openaiKey: string, anthropicKey: string,
                     userId: string, assistantId: string, now: int)
    requires !v.isLoading && MessageIndex(v.messages, id).Some?
    requires Trim(newContent) != "" && (if provider == OpenAI then openaiKey else anthropicKey) != ""
    ensures var k := MessageIndex(v.messages, id).value;
      var r := EditMessage(v.messages, id, newContent).value;
      var st := StartSend(v, Some(r.text), Some(r.base), provider, openaiKey, anthropicKey, userId, assistantId, now);
      st.Started? && ApplyStart(v, st).messages
        == v.messages[..k] + [Message(userId, User, Trim(newContent), None, now), Message(assistantId, Assistant, "", None, now)]
  {
  }

  /** An edit to whitespace does not send the empty text: the trimmed
      custom input is falsy, so the editor's content is used instead. */
  lemma BlankEditFallsBackToEditor(v: View, id: string, blank: string, provider: Provider, openaiKey: string, anthropicKey: string,
                                   userId: string, assistantId: string, now: int)
    requires MessageIndex(v.messages, id).Some? && Trim(blank) == ""
    ensures var r := EditMessage(v.messages, id, blank).value;
      var st := StartSend(v, Some(r.text), Some(r.base), provider, openaiKey, anthropicKey, userId, assistantId, now);
      st.Started? ==> st.user.content == Trim(B.ConvertBlocksToText(v.editor))
  {
  }
}

=== FILE: middleware.dfy ===
/** The server's gin middleware (server/internal/server/middleware): the
    API-key check and the fixed-window per-IP rate limiter. A middleware
    either passes the request on or aborts it with a status and an error. */
module Middleware {
  import opened Wrappers

  datatype Decision = Next | Abort(status: nat, error: string)

  const StatusUnauthorized: nat := 401
  const StatusTooManyRequests: nat := 429

  /** The header name the key is read from. */
  const ApiKeyHeader: string := "X-API-Key"

  /** `RequireAPIKey(expected)` applied to a request whose `X-API-Key`
      header is `header` (`GetHeader` yields "" when it is missing). */
  function RequireAPIKey(expected: string, header: Option<string>): (d: Decision)
    ensures d.Next? || d == Abort(StatusUnauthorized, "Unauthorized")
    ensures expected == "" ==> d.Next?
    ensures expected != "" ==> (d.Next? <==> header == Some(expected))
  {
    if expected == "" then Next
    else if header.GetOr("") != expected then Abort(StatusUnauthorized, "Unauthorized")
    else Next
  }

  /** A missing header passes only when no key is configured. */
  lemma MissingHeader(expected: string)
    ensures RequireAPIKey(expected, None).Next? <==> expected == ""
  {
  }

  // ---- Rate limiting -------------------------------------------------

  /** Instants and durations in nanoseconds, as `time.Time` and
      `time.Duration` measure them. */
  type Instant = int

  /** One client's window: requests counted and the instant it ends. */
  datatype ClientState = ClientState(count: int, resetTime: Instant)

  /** `RateLimiter`: the budget per window, the window length and the
      per-IP entries. */
  datatype RateLimiter = RateLimiter(max: int, window: int, state: map<string, ClientState>)

  function NewIPRateLimiter(max: int, window: int): (r: RateLimiter)
    ensures r.max == max && r.window == window && r.state == map[]
  {
    RateLimiter(max, window, map[])
  }

  /** Whether a request at `now` opens a new window: no entry yet, or
      `now` strictly after the entry's reset time. */
  predicate OpensWindow(r: RateLimiter, ip: string, now: Instant) {
    ip !in r.state || now > r.state[ip].resetTime
  }

  /** `allow(ip)` with the clock reading `now`: the decision and the new
      limiter. */
  function Allow(r: RateLimiter, ip: string, now: Instant): (res: (bool, RateLimiter))
    ensures res.1.max == r.max && res.1.window == r.window
    ensures OpensWindow(r, ip, now) ==>
      res.0 && res.1.state == r.state[ip := ClientState(1, now + r.window)]
    ensures !OpensWindow(r, ip, now) ==>
      (res.0 <==> r.state[ip].count < r.max)
    ensures !OpensWindow(r, ip, now) && res.0 ==>
      res.1.state == r.state[ip := r.state[ip].(count := r.state[ip].count + 1)]
    ensures !res.0 ==> res.1 == r
    ensures forall other :: other != ip ==>
      (other in res.1.state <==> other in r.state) &&
      (other in r.state ==> res.1.state[other] == r.state[other])
  {
    if OpensWindow(r, ip, now) then
      (true, r.(state := r.state[ip := ClientState(1, now + r.window)]))
    else
      var entry := r.state[ip];
      if entry.count >= r.max then (false, r)
      else (true, r.(state := r.state[ip := entry.(count := entry.count + 1)]))
  }

  /** The limiter's middleware: allowed requests proceed, others abort. */
  function RateLimit(r: RateLimiter, ip: string, now: Instant): (res: (Decision, RateLimiter))
    ensures res.0.Next? <==> Allow(r, ip, now).0
    ensures res.0.Abort? ==> res.0 == Abort(StatusTooManyRequests, "Too many requests") && res.1 == r
    ensures res.1 == Allow(r, ip, now).1
  {
    var (ok, r') := Allow(r, ip, now);
    if ok then (Next, r') else (Abort(StatusTooManyRequests, "Too many requests"), r')
  }

  /** The requests a window admits: `max`, but at least the one that
      opens it. */
  function Budget(max: int): nat {
    if max >= 1 then max else 1
  }

  function Min(a: int, b: int): int {
    if a <= b then a else b
  }

  /** A run of requests from one IP: how many are allowed, and the final
      limiter. */
  function AllowAll(r: RateLimiter, ip: string, times: seq<Instant>): (res: (nat, RateLimiter))
    ensures res.0 <= |times|
    decreases |times|
  {
    if |times| == 0 then (0, r)
    else
      var (ok, r') := Allow(r, ip, times[0]);
      var (n, r'') := AllowAll(r', ip, times[1..]);
      ((if ok then 1 else 0) + n, r'')
  }

  /** Inside an open window that has counted `c` requests, no request
      reopens it, and exactly the remaining budget is admitted. */
  lemma {:induction false} WithinWindow(r: RateLimiter, ip: string, times: seq<Instant>)
    requires ip in r.state && 1 <= r.state[ip].count <= Budget(r.max)
    requires forall k :: 0 <= k < |times| ==> times[k] <= r.state[ip].resetTime
    ensures AllowAll(r, ip, times).0 == Min(|times|, Budget(r.max) - r.state[ip].count)
    decreases |times|
  {
    if |times| > 0 {
      var (ok, r') := Allow(r, ip, times[0]);
      assert !OpensWindow(r, ip, times[0]);
      assert r'.state[ip].resetTime == r.state[ip].resetTime;
      forall k | 0 <= k < |times[1..]| ensures times[1..][k] <= r'.state[ip].resetTime {
        assert times[1..][k] == times[k + 1];
      }
      WithinWindow(r', ip, times[1..]);
    }
  }

  /** The budget per window: requests from one IP that all fall within the
      window opened by the first are admitted up to `max` of them, and
      exactly one when `max` is zero or negative. */
  lemma WindowBudget(r: RateLimiter, ip: string, times: seq<Instant>)
    requires |times| >= 1 && OpensWindow(r, ip, times[0])
    requires forall k :: 0 <= k < |times| ==> times[k] <= times[0] + r.window
    ensures AllowAll(r, ip, times).0 == Min(|times|, Budget(r.max))
    ensures r.max <= 0 ==> AllowAll(r, ip, times).0 == 1
  {
    var (ok, r') := Allow(r, ip, times[0]);
    forall k | 0 <= k < |times[1..]| ensures times[1..][k] <= r'.state[ip].resetTime {
      assert times[1..][k] == times[k + 1];
    }
    WithinWindow(r', ip, times[1..]);
  }

  /** The window is closed at both ends: a request at exactly the reset
      time still counts against the old window and is refused once the
      budget is spent; one a nanosecond later starts afresh. */
  lemma ResetTimeBelongsToOldWindow(r: RateLimiter, ip: string)
    requires ip in r.state && r.state[ip].count >= r.max
    ensures !Allow(r, ip, r.state[ip].resetTime).0
    ensures Allow(r, ip, r.state[ip].resetTime + 1).0
  {
  }

  /** A refused request can be retried with the same result until the
      window ends. */
  lemma RefusalIsStable(r: RateLimiter, ip: string, now: Instant, later: Instant)
    requires !Allow(r, ip, now).0
    requires later <= r.state[ip].resetTime
    ensures !Allow(Allow(r, ip, now).1, ip, later).0
  {
  }
}

=== FILE: model_selector.dfy ===
/** The provider and model pickers (src/components/ModelSelector.tsx): the
    option tables and the model the second picker shows. */
module ModelSelector {
  import opened ChatTypes

  /** One `<option>`: the model it selects and the text it shows. */
  datatype ModelOption = ModelOption(value: Model, title: string)

  const OpenAIOptions: seq<ModelOption> := [
    ModelOption(Gpt4, "GPT-4"),
    ModelOption(Gpt4Turbo, "GPT-4 Turbo"),
    ModelOption(Gpt35Turbo, "GPT-3.5 Turbo")]

  const AnthropicOptions: seq<ModelOption> := [
    ModelOption(Claude35Sonnet, "Claude 3.5 Sonnet"),
    ModelOption(Claude35Haiku, "Claude 3.5 Haiku"),
    ModelOption(Claude3Opus, "Claude 3 Opus")]

  /** `models.some(m => m.value === model)`. */
  predicate Listed(options: seq<ModelOption>, m: Model) {
    exists i :: 0 <= i < |options| && options[i].value == m
  }

  /** Each table lists exactly its provider's models. */
  lemma TablesListModelSets()
    ensures forall m: Model :: Listed(OpenAIOptions, m) <==> m in OpenAIModels
    ensures forall m: Model :: Listed(AnthropicOptions, m) <==> m in AnthropicModels
  {
    forall m: Model
      ensures Listed(OpenAIOptions, m) <==> m in OpenAIModels
      ensures Listed(AnthropicOptions, m) <==> m in AnthropicModels
    {
      match m
      case Gpt4 => assert OpenAIOptions[0].value == m;
      case Gpt4Turbo => assert OpenAIOptions[1].value == m;
      case Gpt35Turbo => assert OpenAIOptions[2].value == m;
      case Claude35Sonnet => assert AnthropicOptions[0].value == m;
      case Claude35Haiku => assert AnthropicOptions[1].value == m;
      case Claude3Opus => assert AnthropicOptions[2].value == m;
    }
  }

  /** The list shown for a provider: OpenAI's for openai, Anthropic's otherwise. */
  function ModelsFor(p: Provider): (options: seq<ModelOption>)
    ensures |options| == 3
    ensures forall m: Model :: Listed(options, m) <==> m in ModelsOf(p)
    ensures forall i, j :: 0 <= i < j < |options| ==> options[i].value != options[j].value
  {
    TablesListModelSets();
    if p == OpenAI then OpenAIOptions else AnthropicOptions
  }

  /** The value of the model `<select>`: the current model when it is
      listed for the provider, else the list's first entry. */
  function DisplayModel(p: Provider, m: Model): (d: Model)
    ensures d in ModelsOf(p)
    ensures d == m <==> m in ModelsOf(p)
    ensures m !in ModelsOf(p) ==> d == ModelsFor(p)[0].value
  {
    var options := ModelsFor(p);
    if Listed(options, m) then m else options[0].value
  }

  /** Showing is idempotent: a shown model is shown as itself. */
  lemma DisplayModelIdempotent(p: Provider, m: Model)
    ensures DisplayModel(p, DisplayModel(p, m)) == DisplayModel(p, m)
  {
  }

  /** The picker shows the stored model exactly for coherent conversations. */
  lemma DisplayMatchesStoredIffCoherent(c: Conversation)
    ensures DisplayModel(c.provider, c.model) == c.model <==> ModelMatchesProvider(c)
  {
  }

  /** The OpenAI fallback is the first entry, gpt-4, not the gpt-3.5-turbo
      default used when conversations are created. */
  lemma OpenAIFallbackIsNotDefault()
    ensures DisplayModel(OpenAI, Claude3Opus) == Gpt4
    ensures DisplayModel(OpenAI, Claude3Opus) != DefaultModelFor(OpenAI)
    ensures DisplayModel(Anthropic, Gpt4) == DefaultModelFor(Anthropic)
  {
  }

  /** The labels are what the option tables show, in order. */
  lemma OptionLabels()
    ensures ModelsFor(OpenAI)[0].title == "GPT-4" && ModelsFor(OpenAI)[2].title == "GPT-3.5 Turbo"
    ensures ModelsFor(Anthropic)[0].title == "Claude 3.5 Sonnet"
    ensures forall i :: 0 <= i < 3 ==> ModelsFor(OpenAI)[i].value in OpenAIModels
  {
  }
}

=== FILE: openai_provider.dfy ===
/** The backend's `OpenAIProvider.ChatStream`
    (server/internal/services/ai/openai.go): the upstream request it builds
    and how it turns the upstream event stream into `onChunk` calls. The
    HTTP exchange, JSON decoding and the `onChunk` callback's failures are
    parameters. */
module OpenAIProvider {
  import opened Wrappers
  import opened Text

  /** `ai.Message` as the backend receives it. */
  datatype Message = Message(role: string, content: string, images: seq<string>)

  /** `ai.ChatRequest`. */
  datatype ChatRequest = ChatRequest(provider: string, model: string, conversationId: string, messages: seq<Message>)

  /** An upstream message: role and content only. */
  datatype UpstreamMessage = UpstreamMessage(role: string, content: string)

  /** The upstream POST: URL, authorization header and JSON body. */
  datatype UpstreamRequest = UpstreamRequest(url: string, authorization: string, model: string,
                                             messages: seq<UpstreamMessage>, stream: bool)

  /** The decoded form of one `data: ` payload: each choice's delta
      content, "" when absent. */
  datatype Chunk = Chunk(contents: seq<string>)

  /** How scanning the body ends: cleanly, or with the scanner's error
      (a failed read, a line longer than the scanner's buffer). */
  datatype ScanEnd = Clean | ScanError(err: string)

  /** What the HTTP client produced: an error, or a response with its
      status code, its status line, the body's lines and how scanning ended. */
  datatype Exchange =
    | TransportError(err: string)
    | Response(statusCode: nat, status: string, lines: seq<string>, end: ScanEnd)

  /** Which `onChunk` call, counting from 0, returns an error, if any. */
  datatype Sink = Accepting | FailsAt(call: nat, err: string)

  /** What `ChatStream` did: the texts passed to `onChunk`, in order, and
      the error it returned (None for nil). */
  datatype StreamResult = StreamResult(sent: seq<string>, err: Option<string>)

  const StatusOK: nat := 200
  const DataPrefix: string := "data: "
  const DoneMarker: string := "[DONE]"

  function ShapeMessages(ms: seq<Message>): (r: seq<UpstreamMessage>)
    ensures |r| == |ms|
    ensures forall i :: 0 <= i < |ms| ==> r[i] == UpstreamMessage(ms[i].role, ms[i].content)
  {
    seq(|ms|, i requires 0 <= i < |ms| => UpstreamMessage(ms[i].role, ms[i].content))
  }

  function BuildRequest(apiKey: string, baseURL: string, req: ChatRequest): (u: UpstreamRequest)
    ensures u.url == baseURL + "/chat/completions"
    ensures u.authorization == "Bearer " + apiKey
    ensures u.model == req.model && u.stream
    ensures u.messages == ShapeMessages(req.messages)
  {
    UpstreamRequest(baseURL + "/chat/completions", "Bearer " + apiKey, req.model, ShapeMessages(req.messages), true)
  }

  /** The text a decoded chunk forwards: the first choice's content when
      there is a choice and its content is not empty. */
  function ChunkText(c: Chunk): (r: Option<string>)
    ensures r.Some? <==> |c.contents| > 0 && c.contents[0] != ""
    ensures r.Some? ==> r.value == c.contents[0]
  {
    if |c.contents| > 0 && c.contents[0] != "" then Some(c.contents[0]) else None
  }

  /** The scan loop, from the given line on, having made `calls` calls. */
  function Scan(lines: seq<string>, end: ScanEnd, decode: string -> Option<Chunk>, sink: Sink, calls: nat): (r: StreamResult)
    ensures |r.sent| <= |lines|
    ensures forall k :: 0 <= k < |r.sent| ==> r.sent[k] != ""
    ensures r.err.Some? ==>
      || (sink.FailsAt? && r.err == Some(sink.err) && calls <= sink.call && |r.sent| == sink.call - calls + 1)
      || (end.ScanError? && r.err == Some(end.err))
    ensures r.err.None? && sink.FailsAt? && calls <= sink.call ==> calls + |r.sent| <= sink.call
    decreases |lines|
  {
    if |lines| == 0 then StreamResult([], if end.ScanError? then Some(end.err) else None)
    else
      var line := lines[0];
      if !StartsWith(line, DataPrefix) then Scan(lines[1..], end, decode, sink, calls)
      else
        var data := line[|DataPrefix|..];
        if data == DoneMarker then StreamResult([], None)
        else match decode(data)
          case None => Scan(lines[1..], end, decode, sink, calls)
          case Some(chunk) =>
            match ChunkText(chunk)
            case None => Scan(lines[1..], end, decode, sink, calls)
            case Some(text) =>
              if sink.FailsAt? && sink.call == calls then StreamResult([text], Some(sink.err))
              else
                var rest := Scan(lines[1..], end, decode, sink, calls + 1);
                StreamResult([text] + rest.sent, rest.err)
  }

  /** `ChatStream(ctx, req, onChunk)` given the exchange it has upstream. */
  function ChatStream(apiKey: string, baseURL: string, req: ChatRequest, exchange: Exchange,
                      decode: string -> Option<Chunk>, sink: Sink): (r: (UpstreamRequest, StreamResult))
    ensures r.0 == BuildRequest(apiKey, baseURL, req)
    ensures exchange.TransportError? ==> r.1 == StreamResult([], Some(exchange.err))
    ensures exchange.Response? && exchange.statusCode != StatusOK ==>
      r.1 == StreamResult([], Some("openai api error: " + exchange.status))
    ensures exchange.Response? && exchange.statusCode == StatusOK ==>
      r.1 == Scan(exchange.lines, exchange.end, decode, sink, 0)
  {
    var upstream := BuildRequest(apiKey, baseURL, req);
    match exchange
    case TransportError(e) => (upstream, StreamResult([], Some(e)))
    case Response(code, status, lines, end) =>
      if code != StatusOK then (upstream, StreamResult([], Some("openai api error: " + status)))
      else (upstream, Scan(lines, end, decode, sink, 0))
  }

  // ---- A reference reading of the stream ----------------------------

  /** The payloads of the data lines before the first `[DONE]`. */
  function Payloads(lines: seq<string>): seq<string> {
    if |lines| == 0 then []
    else if !StartsWith(lines[0], DataPrefix) then Payloads(lines[1..])
    else if lines[0][|DataPrefix|..] == DoneMarker then []
    else [lines[0][|DataPrefix|..]] + Payloads(lines[1..])
  }

  /** Whether a `[DONE]` data line occurs. */
  predicate HasDone(lines: seq<string>) {
    exists i :: 0 <= i < |lines| && StartsWith(lines[i], DataPrefix) && lines[i][|DataPrefix|..] == DoneMarker
  }

  /** The texts the payloads carry: undecodable and empty ones dropped. */
  function Texts(payloads: seq<string>, decode: string -> Option<Chunk>): (r: seq<string>)
    ensures forall k :: 0 <= k < |r| ==> r[k] != ""
  {
    if |payloads| == 0 then []
    else
      var t := if decode(payloads[0]).Some? then ChunkText(decode(payloads[0]).value) else None;
      if t.Some? then [t.value] + Texts(payloads[1..], decode) else Texts(payloads[1..], decode)
  }

  /** The error a scan that calls `onChunk` successfully for every text
      returns: nil after `[DONE]`, else the scanner's error. */
  function EndError(lines: seq<string>, end: ScanEnd): Option<string> {
    if HasDone(lines) || end.Clean? then None else Some(end.err)
  }

  lemma {:induction false} HasDoneStep(lines: seq<string>)
    requires |lines| > 0
    ensures HasDone(lines) <==>
      (StartsWith(lines[0], DataPrefix) && lines[0][|DataPrefix|..] == DoneMarker) || HasDone(lines[1..])
  {
    if HasDone(lines[1..]) {
      var i :| 0 <= i < |lines[1..]| && StartsWith(lines[1..][i], DataPrefix) && lines[1..][i][|DataPrefix|..] == DoneMarker;
      assert lines[i + 1] == lines[1..][i];
    }
    if HasDone(lines) {
      var i :| 0 <= i < |lines| && StartsWith(lines[i], DataPrefix) && lines[i][|DataPrefix|..] == DoneMarker;
      if i > 0 { assert lines[1..][i - 1] == lines[i]; }
    }
  }

  /** The scan loop is the reference reading: with a sink that never
      fails from call `calls` on, every text is forwarded in order and the
      returned error is nil after `[DONE]`, else the scanner's; with a
      sink whose failing call is reached, exactly the texts up to and
      including that call are forwarded and its error is returned. */
  lemma {:induction false} ScanIsReference(lines: seq<string>, end: ScanEnd, decode: string -> Option<Chunk>,
                                           sink: Sink, calls: nat)
    ensures var texts := Texts(Payloads(lines), decode);
      var r := Scan(lines, end, decode, sink, calls);
      if sink.FailsAt? && calls <= sink.call < calls + |texts| then
        r == StreamResult(texts[..sink.call - calls + 1], Some(sink.err))
      else
        r == StreamResult(texts, EndError(lines, end))
    decreases |lines|
  {
    if |lines| > 0 {
      HasDoneStep(lines);
      ScanIsReference(lines[1..], end, decode, sink, calls + 1);
      ScanIsReference(lines[1..], end, decode, sink, calls);
    }
  }

  /** Lines after `[DONE]` are never read. */
  lemma AfterDoneIgnored(before: seq<string>, after: seq<string>, after': seq<string>, end: ScanEnd, end': ScanEnd,
                         decode: string -> Option<Chunk>, sink: Sink)
    ensures Scan(before + [DataPrefix + DoneMarker] + after, end, decode, sink, 0)
         == Scan(before + [DataPrefix + DoneMarker] + after', end', decode, sink, 0)
  {
    DoneEndsScan(before, after, end, decode, sink, 0);
    DoneEndsScan(before, after', end', decode, sink, 0);
  }

  lemma {:induction false} DoneEndsScan(before: seq<string>, after: seq<string>, end: ScanEnd,
                                        decode: string -> Option<Chunk>, sink: Sink, calls: nat)
    ensures Scan(before + [DataPrefix + DoneMarker] + after, end, decode, sink, calls)
         == Scan(before + [DataPrefix + DoneMarker], Clean, decode, sink, calls)
    decreases |before|
  {
    var done := DataPrefix + DoneMarker;
    assert StartsWith(done, DataPrefix) && done[|DataPrefix|..] == DoneMarker;
    if |before| == 0 {
      assert before + [done] + after == [done] + after;
      assert before + [done] == [done];
    } else {
      assert (before + [done] + after)[1..] == before[1..] + [done] + after;
      assert (before + [done])[1..] == before[1..] + [done];
      assert (before + [done] + after)[0] == before[0] == (before + [done])[0];
      DoneEndsScan(before[1..], after, end, decode, sink, calls);
      DoneEndsScan(before[1..], after, end, decode, sink, calls + 1);
    }
  }

  /** Lines that are not data lines (event names, comments, blank
      separators) change nothing. */
  lemma {:induction false} NonDataLineIgnored(before: seq<string>, line: string, after: seq<string>, end: ScanEnd,
                                              decode: string -> Option<Chunk>, sink: Sink, calls: nat)
    requires !StartsWith(line, DataPrefix)
    ensures Scan(before + [line] + after, end, decode, sink, calls) == Scan(before + after, end, decode, sink, calls)
    decreases |before|
  {
    if |before| == 0 {
      assert before + [line] + after == [line] + after;
      assert ([line] + after)[1..] == after;
      assert before + after == after;
    } else {
      assert (before + [line] + after)[1..] == before[1..] + [line] + after;
      assert (before + after)[1..] == before[1..] + after;
      assert (before + [line] + after)[0] == before[0] == (before + after)[0];
      NonDataLineIgnored(before[1..], line, after, end, decode, sink, calls);
      NonDataLineIgnored(before[1..], line, after, end, decode, sink, calls + 1);
    }
  }

  /** A failing status stops before any chunk. */
  lemma NonOkSendsNothing(apiKey: string, baseURL: string, req: ChatRequest, code: nat, status: string,
                          lines: seq<string>, end: ScanEnd, decode: string -> Option<Chunk>, sink: Sink)
    requires code != StatusOK
    ensures ChatStream(apiKey, baseURL, req, Response(code, status, lines, end), decode, sink).1.sent == []
  {
  }
}

=== FILE: openai_service.dfy ===
/** `sendMessageStreamOpenAI` (src/services/openai.ts): the request it
    builds and the callbacks it makes for an SDK chunk stream. */
module OpenAIService {
  import opened Wrappers
  import opened ChatTypes
  import opened Callbacks

  const UnknownError: string := "An unknown error occurred"

  /** An outgoing history entry: role and content only. */
  datatype ApiMessage = ApiMessage(role: Role, content: string)

  /** The body of `openai.chat.completions.create(...)`. */
  datatype Request = Request(model: string, messages: seq<ApiMessage>, stream: bool)

  /** `choices[i].delta`, whose `content` may be absent or null (None). */
  datatype ChoiceDelta = ChoiceDelta(content: Option<string>)

  /** `choices[i]`, whose `delta` may be absent (None). */
  datatype Choice = Choice(delta: Option<ChoiceDelta>)

  /** One streamed completion chunk. */
  datatype CompletionChunk = CompletionChunk(choices: seq<Choice>)

  /** `messages.map(msg => ({ role: msg.role, content: msg.content }))`. */
  function ShapeHistory(ms: seq<Message>): (r: seq<ApiMessage>)
    ensures |r| == |ms|
    ensures forall i :: 0 <= i < |ms| ==> r[i].role == ms[i].role && r[i].content == ms[i].content
  {
    seq(|ms|, i requires 0 <= i < |ms| => ApiMessage(ms[i].role, ms[i].content))
  }

  /** `chunk.choices[0]?.delta?.content`, when truthy. */
  function ChunkText(c: CompletionChunk): (r: Option<string>)
    ensures r.Some? ==> r.value != ""
    ensures r.Some? <==> |c.choices| > 0 && c.choices[0].delta.Some? && c.choices[0].delta.value.content.Some?
                         && c.choices[0].delta.value.content.value != ""
  {
    if |c.choices| == 0 then None
    else match c.choices[0].delta
      case None => None
      case Some(d) => if d.content.Some? && d.content.value != "" then d.content else None
  }

  /** The texts forwarded, in order. */
  function ChunkTexts(cs: seq<CompletionChunk>): (r: seq<string>)
    ensures |r| <= |cs|
    ensures forall i :: 0 <= i < |r| ==> r[i] != ""
  {
    if |cs| == 0 then []
    else match ChunkText(cs[0])
      case Some(t) => [t] + ChunkTexts(cs[1..])
      case None => ChunkTexts(cs[1..])
  }

  lemma {:induction false} ChunkTextsAppend(a: seq<CompletionChunk>, b: seq<CompletionChunk>)
    ensures ChunkTexts(a + b) == ChunkTexts(a) + ChunkTexts(b)
  {
    if |a| == 0 {
      assert a + b == b;
    } else {
      assert (a + b)[1..] == a[1..] + b;
      assert (a + b)[0] == a[0];
      ChunkTextsAppend(a[1..], b);
    }
  }

  datatype Outcome = Outcome(request: Request, trace: seq<Callback>)

  /** `sendMessageStreamOpenAI(apiKey, model, messages, ...)`. */
  function SendMessageStreamOpenAI(apiKey: string, model: string, messages: seq<Message>,
                                   stream: SdkStream<CompletionChunk>): (r: Outcome)
    ensures r.request == Request(model, ShapeHistory(messages), true)
    ensures WellFormed(r.trace) && Chunks(r.trace) == ChunkTexts(stream.events)
    ensures stream.end.Finished? <==> r.trace[|r.trace| - 1] == Complete
    ensures stream.end.Failed? ==> r.trace[|r.trace| - 1] == Terminal(stream.end, UnknownError)
  {
    var texts := ChunkTexts(stream.events);
    ChunksThenTerminal(texts, Terminal(stream.end, UnknownError));
    Outcome(Request(model, ShapeHistory(messages), true), ChunkCalls(texts) + [Terminal(stream.end, UnknownError)])
  }

  /** Chunks with no choices, no delta, or empty content forward nothing. */
  lemma EmptyChunksIgnored(a: seq<CompletionChunk>, b: seq<CompletionChunk>, c: CompletionChunk)
    requires ChunkText(c).None?
    ensures ChunkTexts(a + [c] + b) == ChunkTexts(a + b)
  {
    ChunkTextsAppend(a + [c], b);
    ChunkTextsAppend(a, [c]);
    ChunkTextsAppend(a, b);
    assert ChunkTexts([c]) == [] by { assert [c][1..] == []; }
  }

  /** Only the first choice is read. */
  lemma OnlyFirstChoice(first: Choice, more: seq<Choice>)
    ensures ChunkText(CompletionChunk([first] + more)) == ChunkText(CompletionChunk([first]))
  {
  }
}

=== FILE: server.dfy ===
/** `NewServer` (server/internal/server/server.go): the CORS settings
    derived from the configuration, and the order in which the global
    middleware sees a request. Routing and the CORS library's own
    behaviour are not part of this model. */
module Server {
  import opened Wrappers
  import opened Text
  import Cfg = Config
  import M = Middleware

  datatype CorsConfig = CorsConfig(allowAllOrigins: bool, allowOrigins: seq<string>,
                                   allowMethods: seq<string>, allowHeaders: seq<string>)

  const AllowMethods: seq<string> := ["GET", "POST", "PUT", "PATCH", "DELETE", "HEAD", "OPTIONS"]
  const AllowHeaders: seq<string> := ["Origin", "Content-Length", "Content-Type", "Authorization", "X-API-Key"]

  /** The origin list of a non-blank setting: comma-separated entries,
      each trimmed, empty ones kept. */
  function ParseOrigins(setting: string): (origins: seq<string>)
    ensures |origins| == CountChar(setting, ',') + 1
    ensures forall i :: 0 <= i < |origins| ==> origins[i] == Trim(Split(setting, ',')[i])
  {
    var parts := Split(setting, ',');
    seq(|parts|, i requires 0 <= i < |parts| => Trim(parts[i]))
  }

  /** The CORS configuration for the `CORS_ALLOWED_ORIGINS` setting. */
  function CorsFor(setting: string): (c: CorsConfig)
    ensures c.allowAllOrigins <==> Trim(setting) == ""
    ensures !c.allowAllOrigins ==> c.allowOrigins == ParseOrigins(setting)
    ensures c.allowAllOrigins ==> c.allowOrigins == []
    ensures c.allowMethods == AllowMethods && c.allowHeaders == AllowHeaders
  {
    if Trim(setting) == "" then CorsConfig(true, [], AllowMethods, AllowHeaders)
    else CorsConfig(false, ParseOrigins(setting), AllowMethods, AllowHeaders)
  }

  /** Parsing a comma-joined list trims each entry and keeps the rest. */
  lemma ParseJoined(entries: seq<string>)
    requires |entries| >= 1
    requires forall i :: 0 <= i < |entries| ==> ',' !in entries[i]
    ensures |ParseOrigins(Join(entries, ","))| == |entries|
    ensures forall i :: 0 <= i < |entries| ==> ParseOrigins(Join(entries, ","))[i] == Trim(entries[i])
  {
    SplitJoin(entries, ',');
  }

  /** Origins listed without stray spaces come back as listed. */
  lemma OriginsRoundTrip(origins: seq<string>)
    requires |origins| >= 1
    requires forall i :: 0 <= i < |origins| ==> ',' !in origins[i] && Trim(origins[i]) == origins[i]
    ensures ParseOrigins(Join(origins, ",")) == origins
  {
    ParseJoined(origins);
  }

  /** Spaces around entries are dropped and empty entries are kept. */
  lemma OriginsExample()
    ensures ParseOrigins(Join(["a", " b", ""], ",")) == ["a", "b", ""]
  {
    var entries := ["a", " b", ""];
    ParseJoined(entries);
    TrimmedEntries();
    var p := ParseOrigins(Join(entries, ","));
    assert |p| == 3;
    assert p == [p[0], p[1], p[2]];
    assert p[0] == "a" && p[1] == "b" && p[2] == "";
  }

  lemma TrimmedEntries()
    ensures Trim("a") == "a" && Trim(" b") == "b" && Trim("") == ""
  {
    assert " b"[1..] == "b";
    assert TrimStart(" b") == "b";
    assert TrimEnd("b") == "b";
    assert TrimStart("a") == "a" && TrimEnd("a") == "a";
    assert TrimStart("") == "" && TrimEnd("") == "";
  }

  const RateLimitMax: int := 60
  const Minute: int := 60_000_000_000

  /** The server's state: the settings fixed at start and the limiter.
      `releaseMode` records whether `NewServer` called
      `gin.SetMode(gin.ReleaseMode)`; gin's mode from `GIN_MODE` is not
      part of the model. */
  datatype Server = Server(releaseMode: bool, apiKey: string, limiter: M.RateLimiter, cors: CorsConfig)

  function NewServer(cfg: Cfg.Config): (s: Server)
    ensures s.releaseMode <==> cfg.mode == "release"
    ensures s.apiKey == cfg.serverAPIKey
    ensures s.limiter == M.NewIPRateLimiter(60, Minute)
    ensures s.cors == CorsFor(cfg.corsAllowedOrigins)
  {
    Server(cfg.mode == "release", cfg.serverAPIKey, M.NewIPRateLimiter(RateLimitMax, Minute), CorsFor(cfg.corsAllowedOrigins))
  }

  /** What an incoming request carries that the middleware looks at. */
  datatype Request = Request(clientIP: string, apiKeyHeader: Option<string>)

  /** How far a request got: aborted by a middleware, or handed to CORS
      and the routes. */
  datatype Passage = Aborted(status: nat, error: string) | ReachesCors

  /** The global middleware, in registration order: the API-key check,
      then the rate limiter. */
  function Handle(s: Server, req: Request, now: M.Instant): (r: (Passage, Server))
    ensures M.RequireAPIKey(s.apiKey, req.apiKeyHeader).Abort? ==>
      r.0 == Aborted(401, "Unauthorized") && r.1 == s
    ensures M.RequireAPIKey(s.apiKey, req.apiKeyHeader).Next? ==>
      r.1 == s.(limiter := M.Allow(s.limiter, req.clientIP, now).1) &&
      (r.0.ReachesCors? <==> M.Allow(s.limiter, req.clientIP, now).0)
    ensures r.0.Aborted? && r.0.status == 429 ==> r.0.error == "Too many requests"
  {
    match M.RequireAPIKey(s.apiKey, req.apiKeyHeader)
    case Abort(status, error) => (Aborted(status, error), s)
    case Next =>
      var (d, limiter) := M.RateLimit(s.limiter, req.clientIP, now);
      match d
      case Abort(status, error) => (Aborted(status, error), s.(limiter := limiter))
      case Next => (ReachesCors, s.(limiter := limiter))
  }

  /** Because the key check runs first, unauthorized requests spend none
      of their IP's rate budget: any number of them leaves the server as
      it was. */
  lemma UnauthorizedSpendsNoBudget(s: Server, ip: string, wrong: Option<string>, now: M.Instant)
    requires s.apiKey != "" && wrong != Some(s.apiKey)
    ensures Handle(s, Request(ip, wrong), now) == (Aborted(401, "Unauthorized"), s)
  {
  }

  /** With `SERVER_API_KEY` set, the configuration read as written leaves
      the key check off, so a request without the header gets through; the
      intended reading refuses it. */
  lemma KeyCheckOffAsWritten(env: map<string, string>, ip: string, now: M.Instant)
    requires "SERVER_API_KEY" in env && env["SERVER_API_KEY"] != ""
    ensures Handle(NewServer(Cfg.ReadAsWritten(env)), Request(ip, None), now).0 == ReachesCors
    ensures Handle(NewServer(Cfg.Read(env)), Request(ip, None), now).0 == Aborted(401, "Unauthorized")
  {
    M.MissingHeader(Cfg.Read(env).serverAPIKey);
  }

  /** For a valid configuration, `NewServer` calls `gin.SetMode` exactly
      when the mode is not debug. */
  lemma ReleaseModeOnly(cfg: Cfg.Config)
    requires Cfg.Validate(cfg).None?
    ensures NewServer(cfg).releaseMode <==> cfg.mode != "debug"
  {
  }
}

=== FILE: storage.dfy ===
/** The IndexedDB-backed storage service (src/services/storage.ts): a
    table keyed by conversation id, the active-id key and the one-shot
    migration of the legacy localStorage blob. */
module Storage {
  import opened Wrappers
  import opened ChatTypes
  import opened Conversations

  /** The durable state: the `conversations` table (primary key `id`),
      the legacy blob key and the active-conversation key. */
  datatype Store = Store(db: map<string, Conversation>, legacy: Option<LegacyBlob>, activeKey: Option<string>)

  /** Every record sits under its own id, as an inbound primary key guarantees. */
  predicate KeyedById(db: map<string, Conversation>) {
    forall k :: k in db ==> db[k].id == k
  }

  predicate SortedNewestFirst(cs: seq<Conversation>) {
    forall i, j :: 0 <= i < j < |cs| ==> cs[i].updatedAt >= cs[j].updatedAt
  }

  /** `r` lists exactly the records of `db` under the keys `seen`, each once,
      newest first. */
  ghost predicate Lists(r: seq<Conversation>, seen: set<string>, db: map<string, Conversation>)
    decreases |r|
  {
    if |r| == 0 then seen == {}
    else
      && r[0].id in seen && r[0].id in db && db[r[0].id] == r[0]
      && (|r| > 1 ==> r[0].updatedAt >= r[1].updatedAt)
      && Lists(r[1..], seen - {r[0].id}, db)
  }

  /** Insertion after every entry at least as recent. */
  function InsertNewestFirst(r: seq<Conversation>, c: Conversation): (r': seq<Conversation>)
    ensures |r'| == |r| + 1
    ensures r'[0] == c || (|r| > 0 && r'[0] == r[0])
  {
    if |r| == 0 || r[0].updatedAt < c.updatedAt then [c] + r
    else [r[0]] + InsertNewestFirst(r[1..], c)
  }

  lemma {:induction false} InsertStep(r: seq<Conversation>, seen: set<string>, db: map<string, Conversation>, k: string)
    requires KeyedById(db) && k in db && k !in seen
    requires Lists(r, seen, db)
    ensures Lists(InsertNewestFirst(r, db[k]), seen + {k}, db)
    decreases |r|
  {
    var c := db[k];
    if |r| == 0 || r[0].updatedAt < c.updatedAt {
      var r' := [c] + r;
      assert r'[1..] == r;
      assert (seen + {k}) - {k} == seen;
    } else {
      var h := r[0];
      var tail := InsertNewestFirst(r[1..], c);
      assert h.id != k;
      InsertStep(r[1..], seen - {h.id}, db, k);
      assert (seen + {k}) - {h.id} == (seen - {h.id}) + {k};
      var r' := [h] + tail;
      assert r'[1..] == tail;
      if |r| > 1 {
        assert tail[0] == c || tail[0] == r[1];
      }
    }
  }

  lemma {:induction false} ListsSize(r: seq<Conversation>, seen: set<string>, db: map<string, Conversation>)
    requires Lists(r, seen, db)
    ensures |r| == |seen|
    decreases |r|
  {
    if |r| > 0 {
      ListsSize(r[1..], seen - {r[0].id}, db);
    }
  }

  lemma {:induction false} ListsMembers(r: seq<Conversation>, seen: set<string>, db: map<string, Conversation>)
    requires Lists(r, seen, db)
    ensures forall i :: 0 <= i < |r| ==> r[i].id in seen && r[i].id in db && db[r[i].id] == r[i]
    ensures forall k :: k in seen ==> exists i :: 0 <= i < |r| && r[i].id == k
    decreases |r|
  {
    if |r| > 0 {
      var rest := r[1..];
      ListsMembers(rest, seen - {r[0].id}, db);
      forall i | 1 <= i < |r| ensures r[i].id in seen && r[i].id in db && db[r[i].id] == r[i] {
        assert r[i] == rest[i - 1];
      }
      forall k | k in seen ensures exists i :: 0 <= i < |r| && r[i].id == k {
        if k != r[0].id {
          assert k in seen - {r[0].id};
          var j :| 0 <= j < |rest| && rest[j].id == k;
          assert r[j + 1].id == k;
        }
      }
    }
  }

  lemma {:induction false} ListsOrdered(r: seq<Conversation>, seen: set<string>, db: map<string, Conversation>)
    requires Lists(r, seen, db)
    ensures SortedNewestFirst(r)
    ensures UniqueIds(r)
    decreases |r|
  {
    if |r| > 0 {
      var rest := r[1..];
      ListsOrdered(rest, seen - {r[0].id}, db);
      ListsMembers(rest, seen - {r[0].id}, db);
      forall i, j | 0 <= i < j < |r| ensures r[i].updatedAt >= r[j].updatedAt && r[i].id != r[j].id {
        assert r[j] == rest[j - 1];
        if i > 0 {
          assert r[i] == rest[i - 1];
        } else if j > 1 {
          assert rest[0].updatedAt >= rest[j - 1].updatedAt;
        }
      }
    }
  }

  /** Insertion of the records one key at a time into a newest-first list. */
  method ListNewestFirst(db: map<string, Conversation>) returns (r: seq<Conversation>)
    requires KeyedById(db)
    ensures Lists(r, db.Keys, db)
  {
    var keys := db.Keys;
    ghost var seen: set<string> := {};
    r := [];
    while keys != {}
      invariant seen == db.Keys - keys && keys <= db.Keys
      invariant Lists(r, seen, db)
      decreases |keys|
    {
      var k :| k in keys;
      InsertStep(r, seen, db, k);
      r := InsertNewestFirst(r, db[k]);
      keys := keys - {k};
      seen := seen + {k};
    }
    assert seen == db.Keys;
  }

  /** `getConversations`: every record exactly once, newest `updatedAt` first. */
  method GetConversations(db: map<string, Conversation>) returns (r: seq<Conversation>)
    requires KeyedById(db)
    ensures |r| == |db|
    ensures SortedNewestFirst(r)
    ensures UniqueIds(r)
    ensures forall i :: 0 <= i < |r| ==> r[i].id in db && db[r[i].id] == r[i]
    ensures forall k :: k in db ==> exists i :: 0 <= i < |r| && r[i].id == k
  {
    r := ListNewestFirst(db);
    ListsSize(r, db.Keys, db);
    ListsMembers(r, db.Keys, db);
    ListsOrdered(r, db.Keys, db);
    assert |db.Keys| == |db|;
  }

  /** `saveConversation` (`put`): an upsert keyed by id. */
  function SaveConversation(db: map<string, Conversation>, c: Conversation): (r: map<string, Conversation>)
    ensures c.id in r && r[c.id] == c
    ensures r.Keys == db.Keys + {c.id}
    ensures forall k :: k in db && k != c.id ==> r[k] == db[k]
    ensures KeyedById(db) ==> KeyedById(r)
  {
    db[c.id := c]
  }

  /** Putting the same record twice is putting it once. */
  lemma SaveIdempotent(db: map<string, Conversation>, c: Conversation)
    ensures SaveConversation(SaveConversation(db, c), c) == SaveConversation(db, c)
  {
  }

  /** `saveConversations` (`bulkPut`): puts in list order. */
  function SaveConversations(db: map<string, Conversation>, cs: seq<Conversation>): (r: map<string, Conversation>)
    ensures forall k :: k in db ==> k in r
    ensures forall i :: 0 <= i < |cs| ==> cs[i].id in r
    ensures KeyedById(db) ==> KeyedById(r)
    decreases |cs|
  {
    if |cs| == 0 then db
    else
      var r := SaveConversations(SaveConversation(db, cs[0]), cs[1..]);
      assert forall i :: 1 <= i < |cs| ==> cs[i] == cs[1..][i - 1];
      r
  }

  /** `bulkPut` adds exactly the listed ids and leaves every other record alone. */
  lemma {:induction false} SaveConversationsFrame(db: map<string, Conversation>, cs: seq<Conversation>)
    ensures var r := SaveConversations(db, cs);
      && (forall k :: k in r <==> k in db || HasConversation(cs, k))
      && (forall k :: k in db && !HasConversation(cs, k) ==> r[k] == db[k])
    decreases |cs|
  {
    if |cs| > 0 {
      var rest := cs[1..];
      SaveConversationsFrame(SaveConversation(db, cs[0]), rest);
      forall k ensures HasConversation(cs, k) <==> k == cs[0].id || HasConversation(rest, k) {
        if HasConversation(rest, k) { var i :| 0 <= i < |rest| && rest[i].id == k; assert cs[i + 1].id == k; }
        if HasConversation(cs, k) && k != cs[0].id { var i :| 0 <= i < |cs| && cs[i].id == k; assert rest[i - 1].id == k; }
      }
    }
  }

  /** With repeated ids, the last entry in the list is the one stored. */
  lemma {:induction false} SaveConversationsLastWins(db: map<string, Conversation>, cs: seq<Conversation>, i: nat)
    requires i < |cs| && !HasConversation(cs[i + 1..], cs[i].id)
    ensures SaveConversations(db, cs)[cs[i].id] == cs[i]
    decreases |cs|
  {
    var rest := cs[1..];
    var db' := SaveConversation(db, cs[0]);
    if i == 0 {
      assert cs[1..] == rest;
      SaveConversationsFrame(db', rest);
    } else {
      assert cs[i + 1..] == rest[i..] && cs[i] == rest[i - 1];
      SaveConversationsLastWins(db', rest, i - 1);
    }
  }

  /** `deleteConversation`: removes exactly that key. */
  function DeleteConversation(db: map<string, Conversation>, id: string): (r: map<string, Conversation>)
    ensures r.Keys == db.Keys - {id}
    ensures forall k :: k in r ==> r[k] == db[k]
  {
    db - {id}
  }

  /** `setActiveConversationId`: only the active key changes. */
  function SetActiveConversationId(st: Store, id: string): (r: Store)
    ensures r.activeKey == Some(id) && r.db == st.db && r.legacy == st.legacy
  {
    st.(activeKey := Some(id))
  }

  /** Whether the migration writes anything: a parsed, non-empty array with no null entry. */
  predicate Migratable(blob: LegacyBlob) {
    blob.ArrayOf? && |blob.entries| > 0 && !HasNullEntry(blob.entries)
  }

  /** `migrateFromLocalStorage`. `writeFails` says whether `bulkPut` rejects;
      a parse failure, a thrown backfill or a rejected write is caught and
      leaves everything as it was. */
  function MigrateFromLocalStorage(st: Store, writeFails: bool): (r: Store)
    ensures r.activeKey == st.activeKey
    ensures KeyedById(st.db) ==> KeyedById(r.db)
    ensures st.legacy.None? ==> r == st
    ensures st.legacy.Some? && (!Migratable(st.legacy.value) || writeFails) ==> r == st
    ensures st.legacy.Some? && Migratable(st.legacy.value) && !writeFails ==>
      && r.legacy.None?
      && forall i :: 0 <= i < |st.legacy.value.entries| ==> st.legacy.value.entries[i].raw.id in r.db
  {
    match st.legacy
    case None => st
    case Some(blob) =>
      if Migratable(blob) && !writeFails then
        var cs := BackfillAll(blob.entries);
        assert forall i :: 0 <= i < |cs| ==> cs[i].id == blob.entries[i].raw.id;
        st.(db := SaveConversations(st.db, cs), legacy := None)
      else st
  }

  /** A successful migration stores each entry backfilled (the last one per
      id) and leaves records with other ids as they were. */
  lemma MigrationBackfills(st: Store, i: nat)
    requires st.legacy.Some? && Migratable(st.legacy.value)
    requires i < |st.legacy.value.entries|
    requires var es := st.legacy.value.entries;
      forall j :: i < j < |es| ==> es[j].raw.id != es[i].raw.id
    ensures var r := MigrateFromLocalStorage(st, false);
      var es := st.legacy.value.entries;
      && r.db[es[i].raw.id] == Backfill(es[i].raw)
      && forall k :: k in st.db && (forall j :: 0 <= j < |es| ==> es[j].raw.id != k) ==> k in r.db && r.db[k] == st.db[k]
  {
    var es := st.legacy.value.entries;
    var cs := BackfillAll(es);
    assert forall j :: 0 <= j < |cs| ==> cs[j].id == es[j].raw.id;
    var later := cs[i + 1..];
    assert !HasConversation(later, cs[i].id) by {
      forall j | 0 <= j < |later| ensures later[j].id != cs[i].id {
        assert later[j] == cs[i + 1 + j];
      }
    }
    SaveConversationsLastWins(st.db, cs, i);
    SaveConversationsFrame(st.db, cs);
  }

  /** The legacy key is removed only once every entry has been written. */
  lemma MigrationRemovesKeyOnlyAfterWrite(st: Store, writeFails: bool)
    requires st.legacy.Some?
    ensures var r := MigrateFromLocalStorage(st, writeFails);
      r.legacy.None? ==>
        && st.legacy.value.ArrayOf?
        && forall i :: 0 <= i < |st.legacy.value.entries| ==> st.legacy.value.entries[i].raw.id in r.db
  {
  }

  /** Migration is at most once: a second run finds no legacy key and does nothing. */
  lemma MigrationAtMostOnce(st: Store, first: bool, second: bool)
    requires st.legacy.Some? && Migratable(st.legacy.value) && !first
    ensures var r := MigrateFromLocalStorage(st, first);
      MigrateFromLocalStorage(r, second) == r
  {
  }

  /** `[{id: "1", messages: []}]` into an empty table: one record, backfilled
      with the defaults, and the legacy key gone. */
  lemma MigrationScenario()
    ensures
      var raw := RawConversation("1", "", [], None, None, 0, 0, None);
      var r := MigrateFromLocalStorage(Store(map[], Some(ArrayOf([Entry(raw)])), None), false);
      && r.legacy.None?
      && r.db.Keys == {"1"}
      && r.db["1"].provider == OpenAI
      && ModelName(r.db["1"].model) == "gpt-3.5-turbo"
  {
    var raw := RawConversation("1", "", [], None, None, 0, 0, None);
    var es := [Entry(raw)];
    assert !HasNullEntry(es);
    assert BackfillAll(es) == [Backfill(raw)];
  }
}

=== FILE: text.dfy ===
/** String helpers shared by the client and the server models. Strings are
    sequences of characters; no encoding is modelled. */
module Text {

  /** The whitespace characters `trim` removes in this model (ASCII subset). */
  predicate IsSpace(c: char) {
    c == ' ' || c == '\t' || c == '\n' || c == '\r' || c == '\U{000B}' || c == '\U{000C}'
  }

  function TrimStart(s: string): (r: string)
    ensures |r| <= |s| && r == s[|s| - |r|..]
    ensures |r| > 0 ==> !IsSpace(r[0])
    ensures forall i :: 0 <= i < |s| - |r| ==> IsSpace(s[i])
  {
    if |s| > 0 && IsSpace(s[0]) then TrimStart(s[1..]) else s
  }

  function TrimEnd(s: string): (r: string)
    ensures |r| <= |s| && r == s[..|r|]
    ensures |r| > 0 ==> !IsSpace(r[|r| - 1])
    ensures forall i :: |r| <= i < |s| ==> IsSpace(s[i])
  {
    if |s| > 0 && IsSpace(s[|s| - 1]) then TrimEnd(s[..|s| - 1]) else s
  }

  /** How many whitespace characters `s` starts with. */
  function LeadingSpace(s: string): (n: nat)
    ensures n <= |s|
    ensures forall k :: 0 <= k < n ==> IsSpace(s[k])
    ensures n < |s| ==> !IsSpace(s[n])
  {
    |s| - |TrimStart(s)|
  }

  /** JavaScript's `String.prototype.trim` and Go's `strings.TrimSpace`: the
      slice of `s` left once its leading and trailing whitespace is gone. */
  function Trim(s: string): (r: string)
    ensures LeadingSpace(s) + |r| <= |s|
    ensures r == s[LeadingSpace(s)..LeadingSpace(s) + |r|]
    ensures forall k :: LeadingSpace(s) + |r| <= k < |s| ==> IsSpace(s[k])
    ensures |r| > 0 ==> !IsSpace(r[0]) && !IsSpace(r[|r| - 1])
  {
    var t := TrimStart(s);
    var r := TrimEnd(t);
    TrimSlice(s, t, r);
    r
  }

  /** A prefix `r` of a suffix `t` of `s` is a slice of `s`, and what `t`
      has after `r` is what `s` has after that slice. */
  lemma TrimSlice(s: string, t: string, r: string)
    requires |t| <= |s| && t == s[|s| - |t|..]
    requires |r| <= |t| && r == t[..|r|]
    requires forall i :: |r| <= i < |t| ==> IsSpace(t[i])
    ensures |s| - |t| + |r| <= |s|
    ensures r == s[|s| - |t|..|s| - |t| + |r|]
    ensures forall k :: |s| - |t| + |r| <= k < |s| ==> IsSpace(s[k])
  {
    var n := |s| - |t|;
    assert r == s[n..n + |r|] by {
      forall i | 0 <= i < |r| ensures r[i] == s[n + i] {
        assert r[i] == t[i];
      }
    }
    forall k | n + |r| <= k < |s| ensures IsSpace(s[k]) {
      assert s[k] == t[k - n];
    }
  }

  predicate StartsWith(s: string, prefix: string) {
    |prefix| <= |s| && s[..|prefix|] == prefix
  }

  /** JavaScript's `slice(0, n)` on a string: the first `n` characters, or all of them. */
  function Take(s: string, n: nat): (r: string)
    ensures |r| == if |s| <= n then |s| else n
    ensures r == s[..|r|]
  {
    if |s| <= n then s else s[..n]
  }

  /** `c.repeat(n)` for a one-character string. */
  function Repeat(c: char, n: nat): (r: string)
    ensures |r| == n
    ensures forall i :: 0 <= i < n ==> r[i] == c
  {
    if n == 0 then "" else [c] + Repeat(c, n - 1)
  }

  function Concat(parts: seq<string>): string {
    if |parts| == 0 then "" else parts[0] + Concat(parts[1..])
  }

  lemma {:induction false} ConcatAppend(a: seq<string>, b: seq<string>)
    ensures Concat(a + b) == Concat(a) + Concat(b)
  {
    if |a| == 0 {
      assert a + b == b;
    } else {
      assert (a + b)[1..] == a[1..] + b;
      ConcatAppend(a[1..], b);
    }
  }

  /** `parts.join(sep)` (JavaScript) and `strings.Join` (Go). */
  function Join(parts: seq<string>, sep: string): string {
    if |parts| == 0 then ""
    else if |parts| == 1 then parts[0]
    else parts[0] + sep + Join(parts[1..], sep)
  }

  /** Joining two non-empty lists puts one separator between their joins. */
  lemma {:induction false} JoinAppend(a: seq<string>, b: seq<string>, sep: string)
    requires |a| > 0 && |b| > 0
    ensures Join(a + b, sep) == Join(a, sep) + sep + Join(b, sep)
  {
    if |a| == 1 {
      assert (a + b)[1..] == b;
    } else {
      assert (a + b)[1..] == a[1..] + b;
      JoinAppend(a[1..], b, sep);
    }
  }

  function CountChar(s: string, c: char): nat {
    if |s| == 0 then 0 else (if s[0] == c then 1 else 0) + CountChar(s[1..], c)
  }

  /** `s.split(sep)` (JavaScript) and `strings.Split` (Go) for a one-character
      separator: the pieces between separators, empty pieces included. */
  function Split(s: string, sep: char): (parts: seq<string>)
    ensures |parts| == CountChar(s, sep) + 1
    ensures forall i :: 0 <= i < |parts| ==> sep !in parts[i]
    ensures Join(parts, [sep]) == s
    decreases |s|
  {
    if |s| == 0 then [""]
    else if s[0] == sep then [""] + Split(s[1..], sep)
    else
      var rest := Split(s[1..], sep);
      var parts := [[s[0]] + rest[0]] + rest[1..];
      assert parts[1..] == rest[1..];
      assert Join(parts, [sep]) == s by {
        if |rest| > 1 {
          assert Join(rest, [sep]) == rest[0] + [sep] + Join(rest[1..], [sep]);
        }
      }
      parts
  }

  /** Splitting undoes joining: the pieces come back exactly. */
  lemma {:induction false} SplitJoin(parts: seq<string>, sep: char)
    requires |parts| >= 1
    requires forall i :: 0 <= i < |parts| ==> sep !in parts[i]
    ensures Split(Join(parts, [sep]), sep) == parts
    decreases |parts|, |parts[0]|
  {
    var s := Join(parts, [sep]);
    if |parts[0]| == 0 {
      if |parts| == 1 {
      } else {
        assert s == [sep] + Join(parts[1..], [sep]);
        assert s[1..] == Join(parts[1..], [sep]);
        SplitJoin(parts[1..], sep);
        assert [""] + parts[1..] == parts;
      }
    } else {
      var c := parts[0][0];
      assert c != sep by { assert parts[0][0] in parts[0]; }
      var parts' := [parts[0][1..]] + parts[1..];
      assert parts'[1..] == parts[1..];
      forall i | 0 <= i < |parts'| ensures sep !in parts'[i] {
        if i == 0 {
          assert forall x :: x in parts[0][1..] ==> x in parts[0];
        } else {
          assert parts'[i] == parts[i];
        }
      }
      assert Join(parts', [sep]) == s[1..] by {
        if |parts| == 1 {
        } else {
          assert s == parts[0] + [sep] + Join(parts[1..], [sep]);
          assert parts[0] == [c] + parts[0][1..];
        }
      }
      assert s[0] == c by {
        if |parts| > 1 {
          assert s == parts[0] + ([sep] + Join(parts[1..], [sep]));
        }
      }
      SplitJoin(parts', sep);
      assert [[c] + parts'[0]] + parts'[1..] == parts by {
        assert [c] + parts[0][1..] == parts[0];
      }
    }
  }

  /** Decimal rendering of a natural number, as in a template literal. */
  function NatToString(n: nat): (r: string)
    ensures |r| >= 1
  {
    if n < 10 then [Digit(n)] else NatToString(n / 10) + [Digit(n % 10)]
  }

  function Digit(d: nat): char
    requires d < 10
  {
    "0123456789"[d]
  }
}

=== FILE: wrappers.dfy ===
/** Optional values, used for JavaScript's `undefined`/`null` and Go's nil. */
module Wrappers {

  datatype Option<+T> = None | Some(value: T) {

    /** The value if present, else the default (JavaScript's `x ?? d`). */
    function GetOr(default: T): T {
      match this
      case Some(v) => v
      case None => default
    }
  }
}
